=== FILE: README.md ===
# Social-Media-API in Dafny

A model of the request handlers of the Social-Media-API backend (Express,
Prisma, zod) and proofs about them. The database becomes an in-memory store
(`Store.State`). It holds maps from integer ids to records for users,
profiles, posts, comments, likes, shares, stories, archives, conversations,
messages and notification subscriptions. One counter, `nextId`, hands out
fresh ids. Every handler is a pure function from a state and a request to
`Result<State>`. A handler that writes and then throws returns an
`Outcome`: the store after the write, and the failure as its reply. The
handler's guards are checked in the code's order. Each
failure is the value the handler throws or passes to `next`
(`Base.Thrown`). The global error handler turns that value into the HTTP
reply.

The modules follow the program's structure:

- `Base`: `Option`, `Result`, the thrown values (application errors, zod
  errors, the ORM's error classes, the JWT errors) and request values.
- `Text`: split, join, trim, hex and decimal numerals, as the JavaScript
  string methods behave, and string length counted in UTF-16 code units.
- `Store`: the records, the state, the counter invariants, and ordering
  and paging of query results.
- `Validators`: the zod schemas, as issue lists and as predicates.
- `Profiles`, `Likes`, `Comments`, `Posts`, `Stories` (including the
  expiry sweep), `Conversations`, `Messages`, `Socket`: the handlers of
  the social graph and engagement.
- `Tokens`: `exclude`, `parseInt`, the cookie lifetimes and expiry dates,
  and the reset token.
- `Auth`: sign-up, login, refresh, the password flows, `protect` and the
  Google OAuth callback.
- `ErrorHandling`: the error-to-reply mapping.
- `Upload`: the upload filter and file naming.

Some things the handlers call are outside the model and become
parameters instead:

- bcrypt, JWT signing and verification, and SHA-256 are the functions in
  `Auth.Crypto`.
- The email and URL regular expressions of zod are the predicates in
  `Validators.Formats`.
- The current time is an integer `now`, in milliseconds.
- Random bytes are passed in as a sequence.
- Whether the reset mail was sent is a boolean.
- Uploaded media are their URLs.

The main invariants are these:

- Every cached counter equals the size of the relation it caches:
  - followers and following;
  - likes on a post or a comment;
  - the top-level comments of a post and the replies to a comment;
  - the shares of a post.
- The follow graph is mirrored.
- Unique columns stay unique: user emails, the profile of a subscription, the ordered pair of a conversation, and the profile of an
  archive.

## Model

| member | source | states |
|---|---|---|
| Profiles.Follow | src/controllers/profileController.ts:121-176 | A missing target gives 404, following oneself 400, an existing edge 400, in that order. It succeeds exactly when the target exists, the caller has a profile, is not the target and does not follow it yet. Then it adds the edge on both sides and raises both counters by one, and every other profile and table is unchanged |
| Profiles.Unfollow | src/controllers/profileController.ts:212-267 | A missing target gives 404, oneself 400, no edge 400. It succeeds exactly when the edge exists. Then it removes the edge on both sides and lowers both counters by one; nothing else changes |
| Profiles.AddEdgeKeepsGraph | src/controllers/profileController.ts:146-176 | Adding an absent edge between two distinct existing profiles keeps the follow graph mirrored and each counter equal to its set's size |
| Profiles.RemoveEdgeKeepsGraph | src/controllers/profileController.ts:237-267 | Removing an existing edge keeps the follow graph mirrored and the counters exact |
| Profiles.RemoveAddEdge | src/controllers/profileController.ts:146-176 | Removing an edge right after adding it gives back the same profiles |
| Profiles.FollowKeepsGraph | src/controllers/profileController.ts:140-176 | A successful follow keeps the follow graph consistent |
| Profiles.UnfollowKeepsGraph | src/controllers/profileController.ts:231-267 | A successful unfollow keeps the follow graph consistent |
| Profiles.FollowThenUnfollow | src/controllers/profileController.ts:140-176 | From a consistent graph, follow then unfollow of the same profile returns exactly the original state |
| Profiles.UpdateProfile | src/controllers/profileController.ts:47-99 | A truthy counter in the body is refused with 400, then a caller without a profile gets 404. It succeeds exactly when the given fields have their columns' types (otherwise the ORM's validation error). Then only the caller's profile changes: each field the body gives takes the body's value, each field it omits keeps its old value, and the picture becomes the uploaded one when a file was uploaded and is kept otherwise; the follow sets and ids are untouched |
| Profiles.UpdateProfileIdempotent | src/controllers/profileController.ts:66-89 | Repeating a successful update with the same body and picture changes nothing more |
| Profiles.UpdateProfileResetsCounter | src/controllers/profileController.ts:49-56 | A body carrying `followersCount: 0` passes the guard and breaks the follow-graph invariant of a profile that has followers |
| Profiles.UpdateProfileGuarded | src/controllers/profileController.ts:49-56 | The corrected guard refuses any counter key with 400, leaves all three counters unchanged, and otherwise agrees with the handler |
| Profiles.GuardedUpdateKeepsGraph | src/controllers/profileController.ts:49-90 | With the corrected guard a profile update keeps the follow graph consistent |
| Profiles.DeleteProfile | src/controllers/profileController.ts:101-119 | Only the `active` flag changes, and it is set on the user whose id equals the caller's profile id; with no such user the ORM refuses |
| Profiles.DeleteProfileHitsOtherUser | src/controllers/profileController.ts:105-112 | When the profile id and the user id differ, another account is deactivated and the caller's own stays active |
| Profiles.DeactivateAccount | src/controllers/profileController.ts:101-119 | The corrected deactivation flags the caller's own user record inactive, keeps every row, and changes no other user |
| Profiles.SubscriptionOf | src/controllers/profileController.ts:304-308 | Finds the row of the profile, or reports that the profile has none |
| Profiles.FindSubscription | src/controllers/profileController.ts:304-308 | The upsert's `where` selects a row only when it has both the profile and the type; with one row per profile, none means no row holds both |
| Profiles.Upsert | src/controllers/profileController.ts:304-321 | After the upsert some row registers exactly the request's endpoint and keys, and other profiles' rows are unchanged. With one row per profile, it fails with the unique-key error on `profileId` exactly when the profile holds a row of another type, and with the missing-record error exactly when the profile has no row and does not exist |
| Profiles.Subscribe | src/controllers/profileController.ts:300-330 | Only the subscription table and the id counter change, and a row registering the request exists afterwards. It fails with the unique-key error on `profileId` exactly when the profile already holds a row of another type; any other failure means the profile is missing |
| Profiles.SecondKindRefused | src/controllers/profileController.ts:304-321 | A profile that holds a row of one type and subscribes with another type is refused with the unique-key error on `profileId` |
| Profiles.UpsertKeepsKeysUnique | src/controllers/profileController.ts:304-321 | The upsert never creates a second row for one profile |
| Profiles.FindsTheKeyedRow | src/controllers/profileController.ts:304-308 | With one row per profile, the lookup finds the row holding the profile and type |
| Profiles.UpsertIdempotent | src/controllers/profileController.ts:304-321 | Upserting the same request twice gives the same table and counter as once |
| Profiles.SubscribeIdempotent | src/controllers/profileController.ts:300-330 | Subscribing twice with the same request leaves the store as one subscription did, with keys unique |
| Likes.Bump | src/controllers/likeContoller.ts:33-42 | Moves the named target's `likesCount` by the given amount and touches no other row or table |
| Likes.AddLike | src/controllers/likeContoller.ts:26-43 | Succeeds exactly when the target and the profile exist. It adds one like row at the fresh id and raises only that target's counter by one |
| Likes.RemoveLike | src/controllers/likeContoller.ts:84-100 | Succeeds exactly when the like and the named target exist. It deletes that like row and lowers the named target's counter by one; nothing else changes |
| Likes.LikePost | src/controllers/likeContoller.ts:6-77 | Succeeds exactly when the post and profile exist, and raises that post's `likesCount` by one |
| Likes.UnlikePost | src/controllers/likeContoller.ts:79-107 | Succeeds exactly when the like and the body's post exist, and lowers that post's `likesCount` by one |
| Likes.LikeComment | src/controllers/likeContoller.ts:109-178 | The comment counterpart of `LikePost` |
| Likes.UnlikeComment | src/controllers/likeContoller.ts:180-207 | The comment counterpart of `UnlikePost` |
| Likes.CountersAfterMove | src/controllers/likeContoller.ts:26-43 | Moving one target's like rows and its counter by the same amount keeps every like counter exact |
| Likes.AddLikeKeepsCounters | src/controllers/likeContoller.ts:26-43 | A like keeps every like counter equal to the number of like rows on its target |
| Likes.AddLikeKeepsWellFormed | src/controllers/likeContoller.ts:26-43 | A like keeps every id, and every like's target id, below the id counter |
| Likes.RemoveLikeKeepsCounters | src/controllers/likeContoller.ts:84-100 | When the deleted like is on the named target, an unlike keeps the counters exact |
| Likes.RemoveLikeDrifts | src/controllers/likeContoller.ts:84-100 | When the deleted like is on another target, the named target's counter ends one below its number of like rows |
| Likes.RemoveOwnLike | src/controllers/likeContoller.ts:84-100 | The corrected unlike lowers the counter of the like's own target |
| Likes.RemoveOwnLikeKeepsCounters | src/controllers/likeContoller.ts:84-100 | With the corrected unlike the counters stay exact for every input |
| Likes.LikeThenUnlike | src/controllers/likeContoller.ts:38-40 | Liking and removing that like restores every table; only the id counter has moved |
| Comments.AddComment | src/controllers/commentController.ts:13-141 | A missing post gives 404. A post with comments off gives 403. Bad content gives a zod error. On success the comment row is stored at the fresh id and the post's `commentsCount` rises by one together with it |
| Comments.AddCommentRequest | src/controllers/commentController.ts:13-141 | When `addComment` fails, nothing is stored and the reply is its failure. Otherwise the comment and the counter are stored, and the reply is the new comment exactly when `mentions` is a list; without one, `mentions.length` throws a TypeError after the commit |
| Comments.MissingMentionsStoredYetFails | src/controllers/commentController.ts:104 | A comment sent with `mentions: null` is stored, its post's `commentsCount` rises by one, and the client still gets 500 |
| Comments.AddReply | src/controllers/commentController.ts:295-366 | A missing parent gives 404, then the schema applies. On success the reply is stored with the parent's id and the parent's `repliesCount` rises by one |
| Comments.UpdateComment | src/controllers/commentController.ts:143-210 | A missing comment gives 404, a different body author 403, then the schema. On success only that comment changes: new content, marked edited, the body's post, media replaced only when uploaded |
| Comments.DeleteComment | src/controllers/commentController.ts:212-245 | A missing comment gives 404. The author is compared with the caller's user id (403 otherwise). Only the comment row goes; no counter moves |
| Comments.DeleteCommentRefusesAuthor | src/controllers/commentController.ts:214-232 | When user and profile ids differ, the comment's author (a profile) is refused with 403 |
| Comments.DeleteCommentLeavesCount | src/controllers/commentController.ts:234-238 | Deleting a top-level comment leaves the post's `commentsCount` one above its number of top-level comments |
| Comments.DeleteCommentIntended | src/controllers/commentController.ts:212-245 | The corrected deletion: 404, then 403 unless the caller's profile wrote the comment. It succeeds exactly when the caller's profile wrote the comment and the row whose counter caches it (post or parent) exists; then exactly that comment is gone and only the comment and post tables change |
| Comments.DeleteIntendedAdmitsAuthor | src/controllers/commentController.ts:214-232 | Under the correction, the comment's author may delete it |
| Comments.DeleteIntendedKeepsConsistent | src/controllers/commentController.ts:212-245 | The corrected deletion keeps every comment, reply and like counter exact |
| Comments.AddCommentKeepsConsistent | src/controllers/commentController.ts:46-78 | A new top-level comment keeps every counter exact |
| Comments.AddCommentKeepsWellFormed | src/controllers/commentController.ts:46-78 | A new top-level comment keeps every id, and every post or parent a comment names, below the id counter |
| Comments.AddReplyKeepsConsistent | src/controllers/commentController.ts:324-357 | A new reply keeps every counter exact |
| Comments.AddReplyKeepsWellFormed | src/controllers/commentController.ts:324-357 | A new reply keeps every id, and every post or parent a comment names, below the id counter |
| Comments.InsertKeepsConsistent | src/controllers/commentController.ts:46-78 | Inserting a comment at the fresh id, with the counter that caches it raised, keeps all counters exact |
| Comments.RemoveKeepsConsistent | src/controllers/commentController.ts:234-238 | Removing a comment, with the counter that cached it lowered, keeps all counters exact |
| Comments.UpdateCommentKeepsConsistent | src/controllers/commentController.ts:178-201 | An edit that keeps the comment under the same post, or edits a reply, keeps the counters exact |
| Comments.UpdateCommentMovesCount | src/controllers/commentController.ts:178-201 | Moving a top-level comment to another post leaves the new post's counter one below its number of top-level comments |
| Comments.TopLevelNewestFirst | src/controllers/commentController.ts:260-284 | Lists every top-level comment of the post and nothing else, newest first |
| Comments.GetPostComments | src/controllers/commentController.ts:247-293 | A missing post gives 404, and a given non-numeric `limit` or `skip` is refused by the ORM. Otherwise the result is the window of at most `limit` (default 10) of the post's top-level comments, newest first, starting after `skip` (default 0) |
| Comments.ShownPage | src/controllers/commentController.ts:260-262 | Numerals given as `limit` and `skip` select exactly that window of the newest-first list |
| Comments.CommentPagesTile | src/controllers/commentController.ts:260-262 | A page of n comments from `skip` followed by the page of m from `skip + n` is the page of n + m from `skip`: paging loses and repeats nothing |
| Posts.CreatePost | src/controllers/postController.ts:13-91 | Bad content gives a zod error on `content`. Otherwise it succeeds exactly when the author exists. It stores one public post with zero counters and with exactly the uploaded image and video URLs (none when nothing was uploaded) |
| Posts.CreatePostRequest | src/controllers/postController.ts:13-91 | When `createPost` fails, nothing is stored and the reply is its failure. Otherwise the post is stored, and the reply is the new post exactly when `mentions` is a list; without one, `mentions.length` throws a TypeError after the commit |
| Posts.MissingMentionsStoredYetFails | src/controllers/postController.ts:54 | A post sent without `mentions` is stored with its content, and the client still gets 500 |
| Posts.DeletePost | src/controllers/postController.ts:129-162 | A missing post gives 404. Unless the caller's profile wrote it, 403. Otherwise exactly that post is removed |
| Posts.CreateThenDelete | src/controllers/postController.ts:31-52 | Creating a post and deleting it as its author restores every table |
| Posts.UpdatePost | src/controllers/postController.ts:200-259 | A missing post gives 404. Unless both the body's author and the caller's user id equal the author, 403. The reply carries the post as read before the update |
| Posts.UpdatePostRefusesAuthor | src/controllers/postController.ts:213-227 | When user and profile ids differ, the author is refused with 403 |
| Posts.UpdatePostIntended | src/controllers/postController.ts:200-259 | The corrected check compares with the caller's profile id and edits only that post |
| Posts.UpdateIntendedAdmitsAuthor | src/controllers/postController.ts:213-227 | With the corrected check, the author who names themself in the body may update |
| Posts.EmptyUpdateChangesNothing | src/controllers/postController.ts:229-256 | An update with no content and no media changes nothing and returns the post |
| Posts.SharePost | src/controllers/postController.ts:261-304 | A missing post gives 404, sharing off 403. On success one share row is added and only that post's `shares` rises by one |
| Posts.SharePostKeepsShareCounts | src/controllers/postController.ts:270-295 | A share keeps every `shares` counter equal to its number of share rows |
| Posts.PrivacyFilter | src/controllers/postController.ts:168-174 | An absent privacy query means no filter. A given one must name a privacy value, otherwise the ORM refuses |
| Posts.GetPostsForProfile | src/controllers/postController.ts:164-198 | Lists only posts of the profile with the requested privacy, at most `limit` (default 10) after `skip` |
| Posts.FeedPosts | src/controllers/postController.ts:323-350 | Every public or friends-only post by a followed profile, and nothing else, newest first |
| Posts.GetFeed | src/controllers/postController.ts:306-360 | One page of the feed: newest first, at most `limit`, only followed authors' non-private posts |
| Posts.FeedDefaultPage | src/controllers/postController.ts:324-325 | An absent, zero or non-numeric limit and skip give the first ten posts |
| Posts.FeedExcludes | src/controllers/postController.ts:323-350 | A private post, or a post by a profile the caller does not follow, never reaches the feed |
| Stories.ArchiveOf | src/controllers/stroryController.ts:69-75 | Finds the author's archive or reports that there is none |
| Stories.AddStory | src/controllers/stroryController.ts:12-84 | A missing profile gives 404, then the schema. The story is stored visible, in no archive, expiring 24 hours after `now`, with its media only when given. An archive is created only when the author had none |
| Stories.AddStoryKeepsArchivesUnique | src/controllers/stroryController.ts:69-75 | Adding a story keeps at most one archive per profile |
| Stories.AddStoryGivesArchive | src/controllers/stroryController.ts:69-75 | After a story is added its author has an archive |
| Stories.DeleteStory | src/controllers/stroryController.ts:86-107 | A missing story gives 404. Otherwise exactly that story is removed |
| Stories.AddThenDeleteStory | src/controllers/stroryController.ts:46-67 | Adding a story and deleting it leaves the stories as they were |
| Stories.GetStories | src/controllers/stroryController.ts:109-133 | Lists exactly the author's visible public stories |
| Stories.GetStoriesDropsFriends | src/controllers/stroryController.ts:113-118 | A friends-only story is never listed |
| Stories.GetStoriesIntended | src/controllers/stroryController.ts:109-133 | The corrected listing holds exactly the visible public and friends-only stories |
| Stories.IntendedListsFriends | src/controllers/stroryController.ts:113-118 | The corrected listing shows a visible friends-only story |
| Stories.Sweep | src/utils/storyCorn.ts:4-43 | Each expired, visible, archived story whose author has an archive is hidden and linked to that archive in one step. Every other story is unchanged |
| Stories.SweepIdempotent | src/utils/storyCorn.ts:7-41 | Sweeping twice at the same time equals sweeping once |
| Stories.SweepNeverHidesNewStory | src/utils/storyCorn.ts:13-15 | A story created by `addStrory` is never selected by the sweep, however long ago it expired |
| Stories.SweepIntended | src/utils/storyCorn.ts:4-43 | The corrected sweep hides and files every expired visible story whose author has an archive |
| Stories.IntendedSweepArchivesNewStory | src/utils/storyCorn.ts:7-41 | With the corrected sweep, a new story is hidden and filed in its author's archive by any sweep a day or more later |
| Stories.SweepIntendedIdempotent | src/utils/storyCorn.ts:7-41 | The corrected sweep is idempotent |
| Conversations.FindConversation | src/controllers/conversationController.ts:8-10 | Finds the row keyed by the ordered pair, or reports that none exists |
| Conversations.CreateConversation | src/controllers/conversationController.ts:6-31 | An existing pair is returned unmodified with the store unchanged. Otherwise one row keyed (body profile, caller) is created at the fresh id when both profiles exist |
| Conversations.CreateKeepsKeysUnique | src/controllers/conversationController.ts:12-22 | No two conversations ever share an ordered pair |
| Conversations.CreateConversationIdempotent | src/controllers/conversationController.ts:12-22 | A repeated request changes nothing and returns the same conversation |
| Conversations.GetConversation | src/controllers/conversationController.ts:33-52 | Returns the row keyed (caller, parameter), or none when there is no such row |
| Conversations.LookupIsOrdered | src/controllers/conversationController.ts:8-10 | After A creates a conversation with B, B asking for A finds it and A asking for B gets none |
| Messages.SendMessage | src/controllers/messagesController.ts:10-57 | Content is validated before any write. On success one message with exactly the uploaded media lists is added, and nothing else changes |
| Messages.SendAppendsToConversation | src/controllers/messagesController.ts:10-57 | The sent message is stored with its content, and the conversation's listing afterwards is the earlier messages followed by the new one |
| Messages.SendThenDelete | src/controllers/messagesController.ts:81-99 | Deleting a message just sent keeps it, marked deleted, with its content and conversation; every other message is as before the send |
| Messages.DeleteMessage | src/controllers/messagesController.ts:81-99 | Only `isDeleted` is set; the row stays |
| Messages.DeleteMessageIdempotent | src/controllers/messagesController.ts:85-92 | The deleted row keeps its content, and deleting again changes nothing |
| Messages.GetMessages | src/controllers/messagesController.ts:101-124 | Only messages of the conversation, at most `limit` (default 10) after `skip` (default 0) |
| Messages.GetMessagesListsSmallConversation | src/controllers/messagesController.ts:105-115 | With no paging query, a conversation of at most ten messages is listed whole |
| Socket.SetActiveStatus | src/middlewares/socketMiddleware.ts:6-18 | Sets `isOnline` on the caller's profile and on no other |
| Socket.OnlineThenOffline | src/middlewares/socketMiddleware.ts:10-17 | Going online then offline restores the store |
| Socket.SetMessagesDelivery | src/middlewares/socketMiddleware.ts:21-51 | Every message of the caller's conversations is delivered afterwards. Messages of other conversations are unchanged |
| Socket.SetMessagesDeliveryIdempotent | src/middlewares/socketMiddleware.ts:25-48 | A second run changes nothing |
| Auth.Respond | src/utils/authHelperFunctions.ts:42-76 | The reply carries the status code, tokens for the user's id, and no secret column |
| Auth.Owner | src/controllers/authController.ts:65-69 | Finds the user holding the value in a unique column (email or username), or reports that none holds it |
| Auth.SignUp | src/controllers/authController.ts:23-53 | A schema failure is the zod error. Otherwise exactly one user with the hashed password and one profile with that user's id are created, or the unique email or username is refused |
| Auth.SignUpKeepsEmailsUnique | src/controllers/authController.ts:35-42 | Sign-up keeps emails unique |
| Auth.SignUpOwner | src/controllers/authController.ts:35-49 | After sign-up the new user owns the email and holds the hash of the password |
| Auth.Login | src/controllers/authController.ts:55-79 | A schema failure is the zod error. An unknown email and a wrong password give the same 401. Success writes nothing to the store |
| Auth.SignUpThenLogin | src/controllers/authController.ts:55-79 | Logging in with the email and password just signed up with succeeds |
| Auth.RefreshToken | src/controllers/authController.ts:81-120 | A missing cookie gives 401, an unverifiable token 401, an unknown user 404, in that order. Then the new access cookie is set: the refresh succeeds exactly when that cookie's expiry (`Tokens.RefreshAccessCookie` of the parsed access setting) is a valid date, and returns the token's user with that expiry; otherwise the cookie serialiser's "option expires is invalid" |
| Auth.RefreshNonNumericSettingFails | src/controllers/authController.ts:104-114 | With a valid token for a stored user, a non-numeric access setting makes the refresh fail with "option expires is invalid" |
| Tokens.RefreshAccessCookie | src/controllers/authController.ts:104-114 | The refresh handler's own access cookie, for the setting as `parseInt` read it: valid exactly when the setting is a number and `now` plus that many minutes is within a `Date`'s range, and then expires at that instant in milliseconds; otherwise "option expires is invalid" |
| Tokens.RefreshCookieAgreesWithLogin | src/controllers/authController.ts:104-114 | For the same setting, the refresh handler's access cookie is valid exactly when the login's is, and expires at the same instant |
| Tokens.NonNumericRefreshFails | src/controllers/authController.ts:104-114 | A non-numeric access setting makes the refresh handler's cookie call throw |
| Auth.RefreshChecksTokenFirst | src/controllers/authController.ts:85-93 | Without a verified token the outcome does not depend on the store and is a 401 |
| Auth.BearerToken | src/middleware/authMiddlewares.ts:22-27 | Gives a non-empty, space-free token only for a header starting with "Bearer" |
| Auth.Protect | src/middleware/authMiddlewares.ts:18-52 | No token gives 401 "You are not logged in", and an unverifiable token gives 401 "Invalid token" before any lookup. It succeeds exactly when the token verifies to a stored user, and yields that user |
| Auth.ProtectChecksTokenFirst | src/middleware/authMiddlewares.ts:29-37 | Without a verified token the outcome does not depend on the store |
| Auth.BearerAgreesWithRfc | src/middleware/authMiddlewares.ts:22-27 | On "Bearer " and a token in the form of section 2.1 of RFC 6750, the header check and the RFC read the same token |
| Auth.BearerLooserThanRfc | src/middleware/authMiddlewares.ts:22-27 | "BearerX " and a token passes the header check but is not a bearer header under RFC 6750 |
| Auth.BearerStricterThanRfc | src/middleware/authMiddlewares.ts:26-31 | Two spaces after the scheme give no token, although RFC 6750 reads one |
| Auth.ForgetPassword | src/controllers/authController.ts:122-165 | An unknown email gives 404 and a failed mail 500, both with nothing stored. On success only the user's reset digest and an expiry ten minutes on are stored, never the token itself |
| Auth.ResetHolder | src/controllers/authController.ts:177-184 | Finds a user holding the digest with an expiry after now, or reports that none exists |
| Auth.ResetPassword | src/controllers/authController.ts:167-205 | Succeeds exactly when some user holds the token's digest unexpired; otherwise 400. It sets the new hash and clears both reset fields |
| Auth.ForgetThenReset | src/controllers/authController.ts:136-201 | The emailed token resets the asker's password within ten minutes |
| Auth.ForgetThenLateReset | src/controllers/authController.ts:172-188 | After ten minutes the same token is refused with 400 |
| Auth.ResetTokenSingleUse | src/controllers/authController.ts:192-201 | A used token is refused the second time |
| Auth.UpdatePassword | src/controllers/authController.ts:207-233 | A wrong current password gives 401. Otherwise only the stored hash of that user changes |
| Auth.UpdatePasswordThenLogin | src/controllers/authController.ts:207-233 | After a password change, login with the new password succeeds |
| Auth.OAuthUsernameBeforeAt | src/middleware/authMiddlewares.ts:79 | The OAuth username is the email up to its first "@", and holds no "@" |
| Auth.UpsertGoogleUser | src/middleware/authMiddlewares.ts:71-84 | An existing email only gets `lastLogin` set. Otherwise one user is created under the email with the derived username |
| Auth.UpsertGoogleProfile | src/middleware/authMiddlewares.ts:86-100 | An existing profile is left as it is. Otherwise one profile with the Google name and picture is created for the user |
| Auth.OAuthLogin | src/middleware/authMiddlewares.ts:62-104 | The callback runs the user upsert then the profile upsert, and fails only on a clashing username |
| Auth.OAuthExistingOnlyLastLogin | src/middleware/authMiddlewares.ts:75-77 | For an existing user with a profile, only `lastLogin` changes |
| Auth.OAuthTwiceSameUser | src/middleware/authMiddlewares.ts:71-84 | A second OAuth login with the same email finds the same user and only sets its `lastLogin` |
| Auth.OAuthOwnerAfter | src/middleware/authMiddlewares.ts:71-100 | After the callback the returned user is stored under its id, owns the email and has a profile, and emails stay unique |
| Tokens.ExcludeKeeps | src/utils/authHelperFunctions.ts:21-28 | The result holds no excluded key and keeps every other entry, with its value and order |
| Tokens.ExcludeNothing | src/utils/authHelperFunctions.ts:21-28 | Excluding no key is the identity |
| Tokens.ExcludeIdempotent | src/utils/authHelperFunctions.ts:21-28 | Excluding twice is excluding once |
| Tokens.ExcludeAppend | src/utils/authHelperFunctions.ts:25-27 | Excluding from a concatenation excludes from each part |
| Tokens.ResponseUserColumns | src/utils/authHelperFunctions.ts:69-73 | The response user carries no password, reset token or reset expiry, and every other column |
| Tokens.ParseIntDecimal | src/utils/authHelperFunctions.ts:53-54 | `parseInt` reads a decimal numeral as its value, whatever non-digit follows it, unless the numeral is "0" followed by "x" |
| Tokens.ParseIntHex | src/utils/authHelperFunctions.ts:53-54 | After "0x", `parseInt` reads the hex digits in base 16, whatever non-hex character follows them |
| Tokens.HexSettingReadsSixteen | src/utils/authHelperFunctions.ts:53-54 | A setting of "0x1A" is read as 26 |
| Tokens.ParseIntShow | src/utils/authHelperFunctions.ts:53-54 | `parseInt` reads back every decimal numeral |
| Tokens.CookieSettingValue | src/utils/authHelperFunctions.ts:53-54 | An unset or empty setting reads as 0, a numeral as its value |
| Tokens.AccessCookieLifetime | src/utils/authHelperFunctions.ts:51-57 | An access cookie set for N minutes expires N times 60 000 ms after now |
| Tokens.RefreshCookieLifetime | src/utils/authHelperFunctions.ts:54-57 | A refresh cookie set for N days expires N times 86 400 000 ms after now |
| Tokens.DateOf | src/utils/authHelperFunctions.ts:57 | `new Date(x)` is valid exactly when x is a number within 8.64e15 ms of the epoch. It then holds x truncated toward zero: the whole number at most x and above x - 1 for x >= 0, at least x and below x + 1 for x < 0 |
| Tokens.DateOfWhole | src/utils/authHelperFunctions.ts:57 | A whole number of milliseconds within range is the time of its date |
| Tokens.SetAuthCookies | src/utils/authHelperFunctions.ts:50-64 | The two cookies are set exactly when both expiry dates are valid, with those dates; otherwise cookie serialisation throws "option expires is invalid" before any reply |
| Tokens.CookiesFor | src/utils/authHelperFunctions.ts:50-64 | The same, for settings already read by `parseInt` |
| Tokens.NonNumericSettingFails | src/utils/authHelperFunctions.ts:53-63 | A non-empty access setting that `parseInt` cannot read makes every cookie-setting response fail |
| Tokens.CookiesForNumbers | src/utils/authHelperFunctions.ts:50-64 | Numeric settings whose expiry stays within range give cookies expiring exactly N minutes and M days after now |
| Tokens.NumeralSettingsExpire | src/utils/authHelperFunctions.ts:50-64 | Settings written as numerals give cookies expiring exactly that many minutes and days after now, while within range |
| Tokens.CreatePasswordResetToken | src/utils/authHelperFunctions.ts:110-118 | The token is 12 hex digits that decode to the 6 random bytes. Its digest is stored and it expires 10 minutes after now |
| Tokens.HexToken | src/utils/authHelperFunctions.ts:111 | Six bytes in hex are twelve hex digits that decode back to the bytes |
| ErrorHandling.StatusOfClassifies | src/controllers/errorController.ts:114-115 | A 4xx code has status "fail", a 5xx code "error" |
| ErrorHandling.MergeLookup | src/controllers/errorController.ts:67-70 | Each key of the merged issue object holds the message of the last issue with that key |
| ErrorHandling.MergeKeys | src/controllers/errorController.ts:67-71 | The merged object has one entry per distinct key |
| ErrorHandling.PutLookup | src/controllers/errorController.ts:70 | Setting a key makes it hold the new value and leaves every other key |
| ErrorHandling.FieldWordCounts | src/controllers/errorController.ts:73-75 | The message says "fields" exactly when more than one distinct key has an issue |
| ErrorHandling.HandleZodError | src/controllers/errorController.ts:66-77 | A zod error becomes a 400 application error |
| ErrorHandling.ZodLaterMessageWins | src/controllers/errorController.ts:67-75 | Two issues on one key leave one key with the later message |
| ErrorHandling.UniqueFields | src/controllers/errorController.ts:33 | The captured list splits into one trimmed, comma-free name per comma-separated part |
| ErrorHandling.UniqueFieldsIdempotent | src/controllers/errorController.ts:33-34 | Splitting the ", "-joined names again gives the same names |
| ErrorHandling.UniqueMessageSingle | src/controllers/errorController.ts:34 | A single trimmed name is shown as it is |
| ErrorHandling.HandlePrismaError | src/controllers/errorController.ts:28-64 | Each ORM error class maps to its code and message. A known-request error lists the unique fields with 400. Anything else falls back to 500 "Unknown Prisma Client Error" |
| ErrorHandling.DevError | src/controllers/errorController.ts:85-92 | In development the reply carries the error's own code (500 when none) and its details |
| ErrorHandling.ProdError | src/controllers/errorController.ts:94-106 | An operational error is echoed. Anything else is answered 500 "Something went wrong" |
| ErrorHandling.GlobalErrorHandler | src/controllers/errorController.ts:108-133 | In production a JWT error gives 401 "Invalid token, please login!", an expired token 401 "Expired token, please login again!", and a zod error 400. An application error, and a TypeError, gives 500 "Unknown Prisma Client Error" |
| ErrorHandling.AppErrorAnswered500 | src/controllers/errorController.ts:121-126 | In production every application error, a 404 included, is answered with 500 |
| ErrorHandling.GlobalErrorHandlerIntended | src/controllers/errorController.ts:108-133 | The corrected handler echoes an application error's own code and message in production, and otherwise agrees |
| ErrorHandling.IntendedEchoesClientErrors | src/controllers/errorController.ts:121-126 | With the correction, a 4xx application error is answered with its own code, "fail" and its message |
| Upload.FileFilter | src/middlewares/multer.ts:15-28 | Admits exactly the MIME types starting with "image" or "video". Others are refused with 400 "Please upload only images" |
| Upload.SaveToDisk | src/middlewares/multer.ts:5-13 | The stored file name is the original name |
| Upload.UploadAllStoresAdmitted | src/middlewares/multer.ts:15-30 | An upload succeeds exactly when every file is admitted, and then stores each file, in order, under its original name |
| Upload.UploadAllAppend | src/middlewares/multer.ts:15-30 | Two batches upload together exactly when each does alone |
| Upload.FilterAdmitsImageAndVideoTypes | src/middlewares/multer.ts:20-21 | Every media type of top-level type "image" or "video" is admitted |
| Upload.FilterAdmitsOtherTopLevelTypes | src/middlewares/multer.ts:20-21 | "imagery/x" is admitted, although its top-level type under RFC 6838 is neither image nor video |
| Validators.ParseComment | src/validators/commentValidator.ts:3-9 | Passes exactly when content has 1 to 255 UTF-16 code units and `postId` and `authorId` are numbers. Image and video stay optional strings |
| Validators.ParseMessage | src/validators/messageValidator.ts:3-8 | Passes exactly when content has 1 to 255 UTF-16 code units and `conversationId` is a number. The media lists stay optional |
| Validators.ParsePost | src/validators/postValidator.ts:3-9 | Passes exactly when content has 1 to 255 UTF-16 code units, privacy is one of the three values or absent, and `authorId` is a number. An absent privacy becomes PUBLIC |
| Validators.ParseStory | src/validators/storyValidator.ts:3-10 | Passes exactly when `authorId` is a number, content has at least 3 UTF-16 code units, privacy is given and valid, `expiryTime` is a date, and present media are URLs |
| Validators.ParseSignUp | src/validators/authValidator.ts:3-9 | Passes exactly when the username has 3 to 20 UTF-16 code units, the email is well formed, the password has 8 to 20, `birthDate` is a date and the full name has 3 to 50 |
| Validators.ParseLogin | src/validators/authValidator.ts:11-14 | Passes exactly when the email is well formed and the password has 8 to 20 UTF-16 code units |
| Validators.PrivacyNameRoundTrip | src/validators/postValidator.ts:5 | Each privacy value's name reads back as that value |
| Validators.KeysAppend | src/validators/postValidator.ts:3-9 | The keys of two issue lists together are the union of their keys |
| Validators.ContentLimitInUnits | src/validators/postValidator.ts:4 | The 255-unit content limit admits up to 255 characters of the Basic Multilingual Plane, but only up to 127 characters outside it |
| Text.SplitJoin | src/controllers/errorController.ts:33 | Splitting a joined list of separator-free parts gives back the parts |
| Text.JoinSplit | src/controllers/errorController.ts:33-34 | Joining the parts of a split gives back the string |
| Text.TrimIdempotent | src/controllers/errorController.ts:33 | Trimming twice is trimming once |
| Text.UnhexHex | src/utils/authHelperFunctions.ts:111 | Hex decoding inverts hex encoding |
| Text.ParseShow | src/controllers/postController.ts:169-170 | Reading a shown number gives the number |
| Text.Utf16Length | src/validators/postValidator.ts:4 | A string's JavaScript length lies between its number of characters and twice that |
| Text.Utf16LengthOfBmp | src/validators/postValidator.ts:4 | The JavaScript length equals the number of characters exactly when no character lies outside the Basic Multilingual Plane |
| Text.Utf16LengthOfAstral | src/validators/postValidator.ts:4 | A string of characters outside the Basic Multilingual Plane has twice their number as its JavaScript length |
| Base.ListLength | src/controllers/commentController.ts:104 | `field.length` is the list's length for a list, and the TypeError JavaScript throws for `undefined` or `null` |
| Store.SortNewestFirst | src/controllers/commentController.ts:281-283 | The result is ordered newest first and is a permutation of the input |
| Store.Page | src/controllers/commentController.ts:261-262 | The page is the window of at most `take` rows that starts at `skip` |
| Store.PageConcat | src/controllers/commentController.ts:261-262 | Two adjacent pages together are the page spanning both |
| Store.RowsAfterInsert | src/controllers/messagesController.ts:105-115 | A row inserted at the fresh id comes last in an id-ordered listing, after every earlier row |
| Store.PageNewestFirst | src/controllers/commentController.ts:260-284 | A page of a newest-first list is newest first |
| Store.NumberOrDefault | src/controllers/postController.ts:169-170 | `Number(q) \|\| d`: a positive digit string gives its value; zero and text that is not a digit string give the default |
| Store.NumberOrDefaultShow | src/controllers/postController.ts:169-170 | A numeral gives its value, except that 0 falls back to the default |
| Store.NumberIfGiven | src/controllers/commentController.ts:261-262 | `q ? Number(q) : d`: absent or empty gives the default, a digit string its value, and other text a value the ORM refuses |
| Store.NumberIfGivenShow | src/controllers/commentController.ts:261-262 | A numeral reads back as its value |

## Left out

- Push notifications (`webPush.sendNotification` and the subscription lookups before it) are left out. The handlers await them, so a failed push would turn a committed write into an error reply; the model treats every push as succeeding.
- Cloudinary uploads are left out. The handlers receive the uploaded URLs as inputs.
- Mail transport is left out. `Auth.ForgetPassword` takes whether the mail was sent as a boolean.
- bcrypt, JWT signing and verification, SHA-256 and random bytes are parameters (`Auth.Crypto`, a byte sequence).
- The Express, socket.io and passport wiring is left out, and so is the Prisma client. `getUser` is replaced by a `Caller` with a user id and a profile id. `src/utils/appError.ts` is not part of this model: an application error's status is taken to be "fail" for 4xx codes and "error" otherwise, and every application error is taken to be operational.
- Passport session serialization and the cron schedule are left out. The sweep is a function of `now`.
- Block and unblock are left out: their implementation is not part of this model.
- `getPost`, `getProfile`, `searchProfiles`, `updateMessage` and `logout` are handlers outside the modelled core.
- Concurrency and partial failure are not modelled. The follow's two writes, the sweep's `forEach(async …)` and the notification callbacks are each one sequential step.
- The `validatedData instanceof Error` branches are dead, since `parse` throws; the model has no such branch.
- Regular expressions are not modelled. zod's email and URL checks are predicates. Of the ORM's error-message parsing, only the split, trim and join of the captured group is modelled.
- The zod messages are reduced to the issue's key and a message string; zod's own wording for type errors is not reproduced.
- `Number()` on a query value is modelled for digit strings only. Other numerals ("-5", " 7", "1e1", "0x10") are not modelled: the model treats them as non-numeric text, which the ORM refuses or which falls back to the default.
- Route ids (`req.params.id` and the like, read through `Number()`) are integers in the model. A route id that is not a number becomes NaN, which the ORM refuses with a validation error; that input is not representable and is not modelled.
- Comments.AddComment: `postId` and `authorId` come from `Number()` on the body and are integers in the model; a NaN id is not representable.
- Comments.AddReply: `postId` and `authorId` come from `Number()` on the body and are integers in the model; a NaN id is not representable.
- Comments.UpdateComment: `postId` and `authorId` come from `Number()` on the body and are integers in the model; a NaN id is not representable.
- Posts.CreatePost: `authorId` comes from `Number()` on the body and is an integer in the model; a NaN id is not representable.
- Stories.AddStory: `authorId` comes from `Number()` on the body and is an integer in the model; a NaN id is not representable.
- Messages.SendMessage: `conversationId` comes from `Number()` on the body and is an integer in the model; a NaN id is not representable.
- Likes.LikePost: `postId` and `profileId` come from `Number()` on the body and are integers in the model; a NaN id, which the ORM refuses, is not representable.
- Likes.UnlikePost: `postId` comes from `Number()` on the body and is an integer in the model; a NaN id, which the ORM refuses, is not representable.
- Likes.LikeComment: `commentId` and `profileId` come from `Number()` on the body and are integers in the model; a NaN id, which the ORM refuses, is not representable.
- Likes.UnlikeComment: `commentId` comes from `Number()` on the body and is an integer in the model; a NaN id, which the ORM refuses, is not representable.
- Conversations.CreateConversation: `profileOneId` comes from `Number()` on the body and is an integer in the model; a NaN id, which the ORM refuses, is not representable.
- Profiles.Subscribe: `profileId` comes from `Number()` on the body and is an integer in the model, and `keys` is always present. A NaN id, which the ORM refuses, and a body without `keys`, on which `keys.auth` throws a TypeError, are not representable.
- Auth.ResetPassword: the body's `password` is always a string in the model. Without it, bcrypt's `hash` rejects after the token lookup, and the reply is 500 with nothing stored; that path is not modelled.
- Auth.UpdatePassword: `currentPassword` and `newPassword` are always strings in the model. Without one of them, bcrypt's `compare` or `hash` rejects, and the reply is 500 with nothing stored; that path is not modelled.
- Auth.OAuthLogin: its failure on a clashing username is not an error reply. In the program it is a rejection of passport's async verify callback, which nothing catches: `done` is never called and no `unhandledRejection` handler is installed, so the request gets no reply. The model only records that the callback fails.
- A `mentions` value that is neither a list, `undefined` nor `null` is not modelled.
- One global counter, `nextId`, hands out the ids of every table. The database has one sequence per table, so the ids differ from the database's (user n gets profile n + 1, say); only their freshness matters to the model.
- The column defaults come from the database schema, which is not part of this model. Posts.CreatePost assumes a new post is PUBLIC unless the body says otherwise, with comments and sharing enabled. Stories.AddStory assumes a new story is visible. Messages.SendMessage assumes a new message is neither delivered nor deleted.
- Which unique index Prisma reports when both the email and the username clash is not modelled: sign-up reports the email first.
- Auth.Login: `lastLogin` is set on the in-memory user only; the model shows that login writes nothing to the store.
- Tokens.AccessCookieLifetime: uses exact `real` arithmetic instead of floating point.
- Tokens.RefreshCookieLifetime: uses exact `real` arithmetic instead of floating point.
- Posts.DeletePost removes only the post row. Its comments, likes and shares stay in their tables. The schema's referential actions, which would either cascade the delete or refuse it with a foreign-key error, are not part of this model: dependents are assumed not to constrain the delete.
- Comments.DeleteComment removes only the comment row. Its replies and likes stay in their tables. As for posts, the schema's referential actions are not part of this model: dependents are assumed not to constrain the delete.
- Profiles.UpdateProfile follows four body fields: `fullName` and the three counters. The handler spreads the whole body into the update (`...req.body`), so any other column the body names, such as `bio` or `userId`, is written too, or refused by the ORM when it is not a column; the model writes none of them. When no file is uploaded the picture is kept; the nested upsert with an undefined URL, which may create an empty picture row for a profile that had none, is not modelled.
- Posts.CreatePost stores media as URL lists. The separate image and video rows of the schema, and the author's `postsCount`, are not modelled.
- Comments.UpdateComment replaces the image or video whenever an upload URL is given. The code's truthiness test would also skip an empty URL, which an upload never yields.
- Stories.AddStory treats the expiry as `now` plus 24 hours in milliseconds. `setHours` on a local date can differ by an hour across a daylight-saving change.
- Messages.GetMessages lists messages in id order, because the query names no order. The database's actual row order is not modelled.
- Posts.GetPostsForProfile lists posts in id order, for the same reason.
- Stories.GetStories lists stories in id order, for the same reason.
- Auth.Respond does not fail on an invalid cookie expiry. Tokens.SetAuthCookies models that failure on its own.
- The multer disk destination and the file I/O are left out.

## Findings

| source | as written | input that shows it | evidently intended | confidence | as-written member | corrected member |
|---|---|---|---|---|---|---|
| src/controllers/commentController.ts:214-232 | the comment's author, a profile id, is compared with the caller's user id | a caller whose user id 1 and profile id 2 differ deletes a comment with authorId 2: 403 | compare with the caller's profile id, as `deletePost` does | high, not executed | Comments.DeleteCommentRefusesAuthor | Comments.DeleteIntendedAdmitsAuthor |
| src/controllers/commentController.ts:234-238 | deleting a top-level comment leaves `commentsCount` untouched | a post with one top-level comment and counter 1 keeps counter 1 after the deletion | lower the counter in the same transaction, as `addComment` raises it | medium, not executed | Comments.DeleteCommentLeavesCount | Comments.DeleteIntendedKeepsConsistent |
| src/controllers/postController.ts:213-227 | the post's author, a profile id, is compared with `req.user.id`, a user id | user id 1, profile id 2, post by profile 2, body authorId 2: 403 | compare with the caller's profile id | high, not executed | Posts.UpdatePostRefusesAuthor | Posts.UpdateIntendedAdmitsAuthor |
| src/controllers/profileController.ts:105-112 | the user deactivated is the one whose id equals the caller's profile id | user 1 with profile 2, where user 2 exists: user 2 is deactivated and user 1 stays active | deactivate the caller's own user record | high, not executed | Profiles.DeleteProfileHitsOtherUser | Profiles.DeactivateAccount |
| src/controllers/profileController.ts:49-56 | the counter guard tests truthiness, so a zero counter is written | body `{ followersCount: 0 }` on a profile with followers resets its counter | refuse any counter key | high, not executed | Profiles.UpdateProfileResetsCounter | Profiles.GuardedUpdateKeepsGraph |
| src/controllers/likeContoller.ts:84-100 | the like is deleted by id, but the counter lowered is the body's post | like 7 is on post 1, and the body names post 2: post 2's counter drops while post 1 keeps a stale count | lower the counter of the deleted like's own target | medium, not executed | Likes.RemoveLikeDrifts | Likes.RemoveOwnLikeKeepsCounters |
| src/controllers/stroryController.ts:113-118 | `"PUBLIC" \|\| "FRIENDS"` evaluates to "PUBLIC" | a visible FRIENDS story is never listed | list public and friends-only stories | high, not executed | Stories.GetStoriesDropsFriends | Stories.IntendedListsFriends |
| src/utils/storyCorn.ts:13-15 | the sweep selects only stories that already have an archive id, which `addStrory` never sets | a story created at t is still visible at t + 2 days after any sweep | select expired visible stories and link them to the archive | high, not executed | Stories.SweepNeverHidesNewStory | Stories.IntendedSweepArchivesNewStory |
| src/controllers/errorController.ts:121-126 | in production every error first goes through `handlePrismaError`, whose fallback makes an application error a 500 | `new AppError("Post not found", 404)` is answered 500 "Unknown Prisma Client Error" | echo an application error's own code and message | high, not executed | ErrorHandling.AppErrorAnswered500 | ErrorHandling.IntendedEchoesClientErrors |

=== FILE: auth.dfy ===
/** Accounts: sign-up, login, the refresh and password-reset flows, password
    change, the `protect` middleware and the Google OAuth callback. bcrypt,
    the JWT secrets and SHA-256 are the parameters in `Crypto`; the clock,
    the random bytes and the mail transport's outcome are parameters too. */
module Auth {
  import opened Base
  import opened Text
  import opened Store
  import opened Validators
  import opened Tokens

  /** The cryptographic primitives the handlers call, as uninterpreted
      functions: `bcrypt.hash(p, 12)`, `bcrypt.compare(p, h)`, the payload id
      of a token that verifies under the access or the refresh secret, and
      SHA-256 in hex. */
  datatype Crypto = Crypto(
    hash: string -> string,
    compare: (string, string) -> bool,
    verifyAccess: string -> Option<int>,
    verifyRefresh: string -> Option<int>,
    sha256: string -> string)

  /** bcrypt accepts a password against its own hash. */
  ghost predicate HashMatches(c: Crypto)
  {
    forall p :: c.compare(p, c.hash(p))
  }

  /** What `responseAndTokens` sends: the status code, the user without its
      secret columns, and the user id both signed tokens carry. */
  datatype Session = Session(statusCode: int, user: seq<(string, Value)>, subject: int)

  function Respond(u: User, code: int): (r: Session)
    ensures r.statusCode == code && r.subject == u.id
    ensures forall i :: 0 <= i < |r.user| ==> r.user[i].0 !in SecretKeys
  {
    ResponseUserColumns(u);
    Session(code, ResponseUser(u), u.id)
  }

  // ---------------------------------------------------------------------------
  // Unique columns

  /** No two users share an email address (the column is unique). */
  ghost predicate EmailsUnique(users: map<int, User>)
  {
    forall j, k :: j in users && k in users && users[j].email == users[k].email ==> j == k
  }

  /** The two unique text columns of the user table. */
  datatype UserColumn = EmailColumn | UsernameColumn

  function ColumnValue(u: User, c: UserColumn): string
  {
    match c
    case EmailColumn => u.email
    case UsernameColumn => u.username
  }

  /** `findUnique` / `findFirst` on a unique column of the user table: the
      user holding `value` there, or none. */
  function Owner(s: State, c: UserColumn, value: string): (r: Option<int>)
    ensures r.Some? ==> r.value in s.users && ColumnValue(s.users[r.value], c) == value
    ensures r.None? && Below(s.users, s.nextId) ==> forall k :: k in s.users ==> ColumnValue(s.users[k], c) != value
  {
    Find(s.users, s.nextId, (u: User) => ColumnValue(u, c) == value)
  }

  /** `findUnique({ where: { userId } })` on profiles. */
  function ProfileOf(profiles: map<int, Profile>, n: int, userId: int): (r: Option<int>)
    ensures r.Some? ==> r.value in profiles && profiles[r.value].userId == userId
    ensures r.None? && Below(profiles, n) ==> forall k :: k in profiles ==> profiles[k].userId != userId
  {
    Find(profiles, n, (p: Profile) => p.userId == userId)
  }

  /** Every user record carries the id it is stored under. */
  ghost predicate UserIdsMatch(users: map<int, User>)
  {
    forall k :: k in users ==> users[k].id == k
  }

  /** A new profile: no picture, no follow edges, zero counters, offline. */
  function NewProfile(id: int, userId: int, fullName: string, picture: Option<string>): Profile
  {
    Profile(id, userId, fullName, picture, {}, {}, 0, 0, 0, false)
  }

  // ---------------------------------------------------------------------------
  // signUp and login

  /** `signUp`: the body passes `signUpSchema`; then one user is created with
      the bcrypt hash of the password, and one profile whose `userId` is the
      new user's id. A taken email (checked first) or username is the ORM's
      unique-constraint error. */
  function SignUp(s: State, i: SignUpInput, f: Formats, c: Crypto): (r: Result<(State, Session)>)
    ensures ParseSignUp(i, f).Fail? ==> r == Fail(ParseSignUp(i, f).error)
    ensures ParseSignUp(i, f).Ok? ==>
              var d := ParseSignUp(i, f).value;
              (r.Ok? <==> Owner(s, EmailColumn, d.email).None? && Owner(s, UsernameColumn, d.username).None?)
              && (Owner(s, EmailColumn, d.email).Some? ==> r == Fail(UniqueViolation("`email`")))
              && (Owner(s, EmailColumn, d.email).None? && Owner(s, UsernameColumn, d.username).Some? ==>
                    r == Fail(UniqueViolation("`username`")))
    ensures r.Ok? ==>
              var d := ParseSignUp(i, f).value;
              var u := User(s.nextId, d.username, d.email, c.hash(d.password), d.birthDate, true, None, None, None);
              && r.value.0 == s.(users := s.users[s.nextId := u],
                                 profiles := s.profiles[s.nextId + 1 := NewProfile(s.nextId + 1, s.nextId, d.fullName, None)],
                                 nextId := s.nextId + 2)
              && r.value.1 == Respond(u, 201)
  {
    match ParseSignUp(i, f)
    case Fail(e) => Fail(e)
    case Ok(d) =>
      if Owner(s, EmailColumn, d.email).Some? then Fail(UniqueViolation("`email`"))
      else if Owner(s, UsernameColumn, d.username).Some? then Fail(UniqueViolation("`username`"))
      else
        var u := User(s.nextId, d.username, d.email, c.hash(d.password), d.birthDate, true, None, None, None);
        var p := NewProfile(s.nextId + 1, u.id, d.fullName, None);
        Ok((s.(users := s.users[u.id := u], profiles := s.profiles[p.id := p], nextId := s.nextId + 2), Respond(u, 201)))
  }

  /** Sign-up keeps emails unique. */
  lemma SignUpKeepsEmailsUnique(s: State, i: SignUpInput, f: Formats, c: Crypto)
    requires Below(s.users, s.nextId) && EmailsUnique(s.users)
    requires SignUp(s, i, f, c).Ok?
    ensures EmailsUnique(SignUp(s, i, f, c).value.0.users)
  {
    var d := ParseSignUp(i, f).value;
    var users := SignUp(s, i, f, c).value.0.users;
    assert forall k :: k in s.users ==> s.users[k].email != d.email;
    assert users == s.users[s.nextId := users[s.nextId]] && users[s.nextId].email == d.email;
    FreshEmailKeepsUnique(s.users, s.nextId, users[s.nextId]);
  }

  /** Storing a user whose email nobody has keeps emails unique. */
  lemma FreshEmailKeepsUnique(users: map<int, User>, k: int, u: User)
    requires EmailsUnique(users) && forall j :: j in users ==> users[j].email != u.email
    ensures EmailsUnique(users[k := u])
  {
  }

  /** `login`: the body passes `loginSchema`; an unknown email and a wrong
      password give the same 401. On success the response carries the user
      with `lastLogin` set to now, but nothing is written: the result holds
      no new state. */
  function Login(s: State, i: LoginInput, f: Formats, c: Crypto, now: int): (r: Result<Session>)
    ensures ParseLogin(i, f).Fail? ==> r == Fail(ParseLogin(i, f).error)
    ensures ParseLogin(i, f).Ok? ==>
              var d := ParseLogin(i, f).value;
              var k := Owner(s, EmailColumn, d.email);
              && (r.Ok? <==> k.Some? && c.compare(d.password, s.users[k.value].password))
              && (r.Fail? ==> r.error == AppError(401, "Invalid email or password"))
              && (r.Ok? ==> r.value == Respond(s.users[k.value].(lastLogin := Some(now)), 200))
  {
    match ParseLogin(i, f)
    case Fail(e) => Fail(e)
    case Ok(d) =>
      match Owner(s, EmailColumn, d.email)
      case None => Fail(AppError(401, "Invalid email or password"))
      case Some(k) =>
        if !c.compare(d.password, s.users[k].password) then Fail(AppError(401, "Invalid email or password"))
        else Ok(Respond(s.users[k].(lastLogin := Some(now)), 200))
  }

  /** Signing up and then logging in with the same email and password
      succeeds, for the new user. */
  lemma SignUpThenLogin(s: State, i: SignUpInput, f: Formats, c: Crypto, now: int)
    requires WellFormed(s) && HashMatches(c)
    requires SignUp(s, i, f, c).Ok?
    ensures var l := Login(SignUp(s, i, f, c).value.0, LoginInput(i.email, i.password), f, c, now);
      l.Ok? && l.value.subject == s.nextId
  {
    var d := ParseSignUp(i, f).value;
    var s1 := SignUp(s, i, f, c).value.0;
    SignUpOwner(s, i, f, c);
    assert ParseLogin(LoginInput(i.email, i.password), f).Ok?;
    assert c.compare(d.password, c.hash(d.password));
  }

  /** After a sign-up the new user owns the email and holds the hash of the
      password. */
  lemma SignUpOwner(s: State, i: SignUpInput, f: Formats, c: Crypto)
    requires Below(s.users, s.nextId)
    requires SignUp(s, i, f, c).Ok?
    ensures var s1 := SignUp(s, i, f, c).value.0;
      var d := ParseSignUp(i, f).value;
      && Owner(s1, EmailColumn, d.email) == Some(s.nextId)
      && s1.users[s.nextId].password == c.hash(d.password) && s1.users[s.nextId].id == s.nextId
  {
    var d := ParseSignUp(i, f).value;
    var u := User(s.nextId, d.username, d.email, c.hash(d.password), d.birthDate, true, None, None, None);
    var s1 := SignUp(s, i, f, c).value.0;
    assert s1.users == s.users[s.nextId := u] && s1.nextId == s.nextId + 2;
    NewEmailOwner(s, s1, u);
  }

  /** A user stored under the next id with an email nobody had is that
      email's owner. */
  lemma NewEmailOwner(s: State, s1: State, u: User)
    requires Below(s.users, s.nextId) && Owner(s, EmailColumn, u.email).None?
    requires s1.users == s.users[s.nextId := u] && s1.nextId == s.nextId + 2
    ensures Owner(s1, EmailColumn, u.email) == Some(s.nextId)
  {
    assert Below(s1.users, s1.nextId);
    OnlyOwner(s1, s.nextId, u.email);
  }

  /** The only user with an email is the one `findUnique` finds. */
  lemma OnlyOwner(s: State, k: int, email: string)
    requires Below(s.users, s.nextId) && k in s.users && s.users[k].email == email
    requires forall j :: j in s.users && j != k ==> s.users[j].email != email
    ensures Owner(s, EmailColumn, email) == Some(k)
  {
  }

  // ---------------------------------------------------------------------------
  // refreshToken and protect

  /** `refreshToken`: a missing cookie, a token the refresh secret does not
      verify, and an unknown user fail in that order. Then the handler sets a
      new access cookie for the token's user, whose `expires` comes from the
      access setting read at the clock `now`; an invalid date makes that call
      throw. On success, the user id and the cookie's expiry. */
  function RefreshToken(s: State, cookie: Option<string>, c: Crypto, now: int, accessSetting: Option<string>)
    : (r: Result<(int, int)>)
    ensures cookie.None? || cookie.value == "" ==> r == Fail(AppError(401, "You are not logged in"))
    ensures cookie.Some? && cookie.value != "" && c.verifyRefresh(cookie.value).None? ==>
              r == Fail(AppError(401, "Invalid token"))
    ensures cookie.Some? && cookie.value != "" && c.verifyRefresh(cookie.value).Some? ==>
              var id := c.verifyRefresh(cookie.value).value;
              && (r.Ok? <==> id in s.users && RefreshAccessCookie(now, CookieSetting(accessSetting)).Ok?)
              && (id !in s.users ==> r == Fail(AppError(404, "User not found")))
              && (id in s.users && RefreshAccessCookie(now, CookieSetting(accessSetting)).Fail? ==> r == Fail(InvalidExpires))
              && (r.Ok? ==> r.value == (id, RefreshAccessCookie(now, CookieSetting(accessSetting)).value))
  {
    if cookie.None? || cookie.value == "" then Fail(AppError(401, "You are not logged in"))
    else
      match c.verifyRefresh(cookie.value)
      case None => Fail(AppError(401, "Invalid token"))
      case Some(id) =>
        if id !in s.users then Fail(AppError(404, "User not found"))
        else
          match RefreshAccessCookie(now, CookieSetting(accessSetting))
          case Fail(e) => Fail(e)
          case Ok(expires) => Ok((id, expires))
  }

  /** The refresh flow looks at the store only once the token verifies. */
  lemma RefreshChecksTokenFirst(s: State, t: State, cookie: Option<string>, c: Crypto, now: int, setting: Option<string>)
    requires cookie.None? || cookie.value == "" || c.verifyRefresh(cookie.value).None?
    ensures RefreshToken(s, cookie, c, now, setting) == RefreshToken(t, cookie, c, now, setting)
    ensures RefreshToken(s, cookie, c, now, setting).Fail? && RefreshToken(s, cookie, c, now, setting).error.statusCode == 401
  {
  }

  /** With a valid token for a stored user, a non-numeric access setting
      turns the refresh into the cookie serialiser's error. */
  lemma RefreshNonNumericSettingFails(s: State, cookie: string, c: Crypto, now: int, setting: string)
    requires cookie != "" && c.verifyRefresh(cookie).Some? && c.verifyRefresh(cookie).value in s.users
    requires setting != "" && ParseInt(setting).None?
    ensures RefreshToken(s, Some(cookie), c, now, Some(setting)) == Fail(InvalidExpires)
  {
    NonNumericRefreshFails(now, setting);
  }

  /** The token `protect` reads: the second space-separated field of an
      Authorization header that starts with "Bearer"; an empty field is no
      token (`!token`). */
  function BearerToken(header: Option<string>): (r: Option<string>)
    ensures r.Some? ==> header.Some? && StartsWith(header.value, "Bearer") && r.value != "" && ' ' !in r.value
    ensures header.None? || !StartsWith(header.value, "Bearer") ==> r.None?
  {
    if header.None? || !StartsWith(header.value, "Bearer") then None
    else
      var parts := Split(header.value, ' ');
      if |parts| < 2 || parts[1] == "" then None else Some(parts[1])
  }

  /** `protect`: no token, a token the access secret does not verify, and a
      verified id with no user are three 401s, in that order; otherwise the
      user becomes `req.user`. */
  function Protect(s: State, header: Option<string>, c: Crypto): (r: Result<User>)
    ensures BearerToken(header).None? ==> r == Fail(AppError(401, "You are not logged in"))
    ensures BearerToken(header).Some? && c.verifyAccess(BearerToken(header).value).None? ==>
              r == Fail(AppError(401, "Invalid token"))
    ensures r.Ok? <==> BearerToken(header).Some? && c.verifyAccess(BearerToken(header).value).Some?
                       && c.verifyAccess(BearerToken(header).value).value in s.users
    ensures r.Ok? ==> r.value == s.users[c.verifyAccess(BearerToken(header).value).value]
    ensures r.Fail? ==> r.error.AppError? && r.error.statusCode == 401
  {
    match BearerToken(header)
    case None => Fail(AppError(401, "You are not logged in"))
    case Some(token) =>
      match c.verifyAccess(token)
      case None => Fail(AppError(401, "Invalid token"))
      case Some(id) => if id !in s.users then Fail(AppError(401, "No user found for the given token")) else Ok(s.users[id])
  }

  /** `protect` looks at the store only once the token verifies. */
  lemma ProtectChecksTokenFirst(s: State, t: State, header: Option<string>, c: Crypto)
    requires BearerToken(header).None? || c.verifyAccess(BearerToken(header).value).None?
    ensures Protect(s, header, c) == Protect(t, header, c)
  {
  }

  // Section 2.1 of RFC 6750: credentials = "Bearer" 1*SP b64token, where
  // b64token = 1*( ALPHA / DIGIT / "-" / "." / "_" / "~" / "+" / "/" ) *"=".

  predicate IsB64Char(ch: char)
  {
    ('a' <= ch <= 'z') || ('A' <= ch <= 'Z') || ('0' <= ch <= '9')
    || ch == '-' || ch == '.' || ch == '_' || ch == '~' || ch == '+' || ch == '/'
  }

  /** Length of the longest prefix of `s` all of whose characters satisfy `p`. */
  function PrefixWhere(s: string, p: char -> bool): (n: nat)
    ensures n <= |s|
    ensures forall i :: 0 <= i < n ==> p(s[i])
    ensures n < |s| ==> !p(s[n])
  {
    if |s| == 0 || !p(s[0]) then 0 else 1 + PrefixWhere(s[1..], p)
  }

  predicate IsB64Token(t: string)
  {
    var n := PrefixWhere(t, IsB64Char);
    n >= 1 && forall i :: n <= i < |t| ==> t[i] == '='
  }

  /** The token section 2.1 of RFC 6750 reads from an Authorization header. */
  function RfcBearer(header: string): (r: Option<string>)
    ensures r.Some? ==> IsB64Token(r.value) && StartsWith(header, "Bearer")
    ensures r.Some? ==> 6 + |r.value| < |header| && header[|header| - |r.value|..] == r.value
  {
    if |header| < 6 || header[..6] != "Bearer" then None
    else
      var rest := header[6..];
      var n := PrefixWhere(rest, (ch: char) => ch == ' ');
      if n == 0 || !IsB64Token(rest[n..]) then None else Some(rest[n..])
  }

  lemma BearerSplit(scheme: string, t: string)
    requires ' ' !in scheme && ' ' !in t
    ensures Split(scheme + " " + t, ' ') == [scheme, t]
  {
    JoinCons(scheme, [t], " ");
    assert [scheme] + [t] == [scheme, t];
    assert Join([t], " ") == t;
    SplitJoin([scheme, t], ' ');
  }

  lemma B64TokenHasNoSpace(t: string)
    requires IsB64Token(t)
    ensures ' ' !in t
  {
    var n := PrefixWhere(t, IsB64Char);
    forall i | 0 <= i < |t| ensures t[i] != ' ' {
      if i < n { assert IsB64Char(t[i]); }
    }
  }

  /** On a header of the RFC's form with a single space, `protect` and the
      RFC read the same token. */
  lemma BearerAgreesWithRfc(t: string)
    requires IsB64Token(t)
    ensures BearerToken(Some("Bearer " + t)) == Some(t)
    ensures RfcBearer("Bearer " + t) == Some(t)
  {
    var h := "Bearer " + t;
    B64TokenHasNoSpace(t);
    BearerSplit("Bearer", t);
    assert h == "Bearer" + " " + t;
    assert h[..6] == "Bearer";
    assert StartsWith(h, "Bearer");
    var rest := h[6..];
    assert rest == " " + t;
    assert rest[1..] == t;
    assert PrefixWhere(rest[1..], (ch: char) => ch == ' ') == 0 by {
      assert PrefixWhere(t, IsB64Char) >= 1;
      assert t[0] != ' ';
    }
  }

  /** The header check is looser than the RFC: a scheme that only starts
      with "Bearer" is accepted, which the RFC rejects. */
  lemma BearerLooserThanRfc(t: string)
    requires IsB64Token(t)
    ensures BearerToken(Some("BearerX " + t)) == Some(t)
    ensures RfcBearer("BearerX " + t) == None
  {
    var h := "BearerX " + t;
    B64TokenHasNoSpace(t);
    BearerSplit("BearerX", t);
    assert h == "BearerX" + " " + t;
    assert h[..6] == "Bearer";
    assert StartsWith(h, "Bearer");
    assert h[6..][0] == 'X';
  }

  /** And stricter in one place: two spaces after the scheme leave an empty
      second field, so `protect` sees no token where the RFC reads one. */
  lemma BearerStricterThanRfc(t: string)
    requires IsB64Token(t)
    ensures BearerToken(Some("Bearer  " + t)) == None
    ensures RfcBearer("Bearer  " + t) == Some(t)
  {
    var h := "Bearer  " + t;
    B64TokenHasNoSpace(t);
    assert h == "Bearer" + " " + ("" + " " + t);
    BearerSplit("", t);
    JoinCons("Bearer", ["", t], " ");
    assert Join(["", t], " ") == " " + t;
    assert ["Bearer"] + ["", t] == ["Bearer", "", t];
    SplitJoin(["Bearer", "", t], ' ');
    assert h[..6] == "Bearer";
    var rest := h[6..];
    assert rest == "  " + t && rest[2..] == t;
    assert t[0] != ' ' by { assert PrefixWhere(t, IsB64Char) >= 1; }
    assert PrefixWhere(rest[2..], (ch: char) => ch == ' ') == 0;
    assert PrefixWhere(rest[1..], (ch: char) => ch == ' ') == 1 by { assert rest[1..][1..] == rest[2..]; }
    assert PrefixWhere(rest, (ch: char) => ch == ' ') == 2 by { assert rest[1..] == rest[1..]; }
  }

  // ---------------------------------------------------------------------------
  // Password reset and change

  const ResetMailFailed: string := "There was an error sending the email. Try again later!"

  /** `forgetPassword`: the user is looked up by the body's email (an absent
      email is no unique selector, which the ORM rejects); a new token is
      emailed, and only once the mail went out is its SHA-256 digest stored
      with an expiry ten minutes ahead. The result carries the emailed
      plain token. */
  function ForgetPassword(s: State, email: Option<string>, random: seq<byte>, c: Crypto, now: int, mailSent: bool)
    : (r: Result<(State, string)>)
    requires |random| == 6
    ensures email.None? ==> r == Fail(PrismaValidation(None))
    ensures email.Some? && Owner(s, EmailColumn, email.value).None? ==> r == Fail(AppError(404, "User not found"))
    ensures email.Some? && Owner(s, EmailColumn, email.value).Some? && !mailSent ==> r == Fail(AppError(500, ResetMailFailed))
    ensures r.Ok? <==> email.Some? && Owner(s, EmailColumn, email.value).Some? && mailSent
    ensures r.Ok? ==>
              var k := Owner(s, EmailColumn, email.value).value;
              && |r.value.1| == 12
              && r.value.0 == s.(users := s.users[k := s.users[k].(passwordResetToken := Some(c.sha256(r.value.1)),
                                                                   passwordResetTokenExpiry := Some(now + 600000))])
  {
    if email.None? then Fail(PrismaValidation(None))
    else
      match Owner(s, EmailColumn, email.value)
      case None => Fail(AppError(404, "User not found"))
      case Some(k) =>
        var token := CreatePasswordResetToken(random, c.sha256, now);
        if !mailSent then Fail(AppError(500, ResetMailFailed))
        else
          var u := s.users[k].(passwordResetToken := Some(token.hashed), passwordResetTokenExpiry := Some(token.expiresAt));
          Ok((s.(users := s.users[k := u]), token.plain))
  }

  /** The user holds an unexpired reset token with this digest. */
  predicate HoldsLiveToken(u: User, digest: string, now: int)
  {
    u.passwordResetToken == Some(digest) && u.passwordResetTokenExpiry.Some? && u.passwordResetTokenExpiry.value > now
  }

  /** `findFirst` over users by stored digest and `expiry > now`. */
  function ResetHolder(s: State, digest: string, now: int): (r: Option<int>)
    ensures r.Some? ==> r.value in s.users && HoldsLiveToken(s.users[r.value], digest, now)
    ensures r.None? && Below(s.users, s.nextId) ==> forall k :: k in s.users ==> !HoldsLiveToken(s.users[k], digest, now)
  {
    Find(s.users, s.nextId, (u: User) => HoldsLiveToken(u, digest, now))
  }

  /** `resetPassword`: the route's token is hashed and matched against a
      stored, unexpired digest; the match gets the new password and loses
      both reset fields. */
  function ResetPassword(s: State, token: string, password: string, c: Crypto, now: int): (r: Result<(State, Session)>)
    ensures r.Ok? <==> ResetHolder(s, c.sha256(token), now).Some?
    ensures r.Fail? ==> r.error == AppError(400, "Token is invalid or has expired")
    ensures r.Ok? ==>
              var k := ResetHolder(s, c.sha256(token), now).value;
              && r.value.0 == s.(users := s.users[k := s.users[k].(password := c.hash(password),
                                                                   passwordResetToken := None,
                                                                   passwordResetTokenExpiry := None)])
              && r.value.1 == Respond(s.users[k], 200)
  {
    match ResetHolder(s, c.sha256(token), now)
    case None => Fail(AppError(400, "Token is invalid or has expired"))
    case Some(k) =>
      var u := s.users[k].(password := c.hash(password), passwordResetToken := None, passwordResetTokenExpiry := None);
      Ok((s.(users := s.users[k := u]), Respond(s.users[k], 200)))
  }

  /** No user other than `k` holds a reset token with this digest. */
  ghost predicate OnlyHolder(s: State, k: int, digest: string)
  {
    forall j :: j in s.users && j != k ==> s.users[j].passwordResetToken != Some(digest)
  }

  /** The emailed token resets the password of the user who asked for it,
      at any time in the ten minutes before it expires. */
  lemma ForgetThenReset(s: State, email: string, random: seq<byte>, c: Crypto, now: int, later: int, password: string)
    requires WellFormed(s) && |random| == 6
    requires ForgetPassword(s, Some(email), random, c, now, true).Ok?
    requires later < now + 600000
    requires OnlyHolder(s, Owner(s, EmailColumn, email).value, c.sha256(ForgetPassword(s, Some(email), random, c, now, true).value.1))
    ensures var s1 := ForgetPassword(s, Some(email), random, c, now, true).value.0;
      var token := ForgetPassword(s, Some(email), random, c, now, true).value.1;
      var r := ResetPassword(s1, token, password, c, later);
      r.Ok? && r.value.1.subject == s.users[Owner(s, EmailColumn, email).value].id
  {
    var s1 := ForgetPassword(s, Some(email), random, c, now, true).value.0;
    var token := ForgetPassword(s, Some(email), random, c, now, true).value.1;
    var k := Owner(s, EmailColumn, email).value;
    var digest := c.sha256(token);
    assert s1.users == s.users[k := s1.users[k]] && s1.nextId == s.nextId;
    assert HoldsLiveToken(s1.users[k], digest, later);
    assert OnlyHolder(s1, k, digest);
    OnlyLiveHolder(s1, k, digest, later);
  }

  /** The one user holding a live token with this digest is the one the
      reset finds. */
  lemma OnlyLiveHolder(s: State, k: int, digest: string, now: int)
    requires Below(s.users, s.nextId) && k in s.users && HoldsLiveToken(s.users[k], digest, now)
    requires OnlyHolder(s, k, digest)
    ensures ResetHolder(s, digest, now) == Some(k)
  {
  }

  /** Once the ten minutes are over, the emailed token no longer resets
      anything. */
  lemma ForgetThenLateReset(s: State, email: string, random: seq<byte>, c: Crypto, now: int, later: int, password: string)
    requires WellFormed(s) && |random| == 6
    requires ForgetPassword(s, Some(email), random, c, now, true).Ok?
    requires later >= now + 600000
    requires OnlyHolder(s, Owner(s, EmailColumn, email).value, c.sha256(ForgetPassword(s, Some(email), random, c, now, true).value.1))
    ensures var s1 := ForgetPassword(s, Some(email), random, c, now, true).value.0;
      var token := ForgetPassword(s, Some(email), random, c, now, true).value.1;
      ResetPassword(s1, token, password, c, later) == Fail(AppError(400, "Token is invalid or has expired"))
  {
    var s1 := ForgetPassword(s, Some(email), random, c, now, true).value.0;
    var token := ForgetPassword(s, Some(email), random, c, now, true).value.1;
    var k := Owner(s, EmailColumn, email).value;
    var digest := c.sha256(token);
    assert forall j :: j in s1.users ==> !HoldsLiveToken(s1.users[j], digest, later);
  }

  /** A reset token works once: after a successful reset, when no other user
      held the same digest, the same token is refused. */
  lemma ResetTokenSingleUse(s: State, token: string, p1: string, p2: string, c: Crypto, now: int, later: int)
    requires WellFormed(s)
    requires ResetPassword(s, token, p1, c, now).Ok?
    requires OnlyHolder(s, ResetHolder(s, c.sha256(token), now).value, c.sha256(token))
    ensures ResetPassword(ResetPassword(s, token, p1, c, now).value.0, token, p2, c, later)
              == Fail(AppError(400, "Token is invalid or has expired"))
  {
    var s1 := ResetPassword(s, token, p1, c, now).value.0;
    assert forall j :: j in s1.users ==> !HoldsLiveToken(s1.users[j], c.sha256(token), later);
  }

  /** `updatePassword`: `me` is the user `protect` loaded. The stored user
      must exist and accept the current password; the answer is built from
      `me` as loaded, before the change. */
  function UpdatePassword(s: State, me: User, current: string, newPassword: string, c: Crypto): (r: Result<(State, Session)>)
    ensures r.Ok? <==> me.id in s.users && c.compare(current, s.users[me.id].password)
    ensures r.Fail? ==> r.error == AppError(401, "Invalid current password")
    ensures r.Ok? ==> r.value.0 == s.(users := s.users[me.id := s.users[me.id].(password := c.hash(newPassword))])
    ensures r.Ok? ==> r.value.1 == Respond(me, 200)
  {
    if me.id !in s.users || !c.compare(current, s.users[me.id].password) then
      Fail(AppError(401, "Invalid current password"))
    else
      Ok((s.(users := s.users[me.id := s.users[me.id].(password := c.hash(newPassword))]), Respond(me, 200)))
  }

  /** After a password change, logging in with the new password succeeds. */
  lemma UpdatePasswordThenLogin(s: State, me: User, current: string, newPassword: string, c: Crypto,
                                i: LoginInput, f: Formats, now: int)
    requires Below(s.users, s.nextId) && EmailsUnique(s.users) && HashMatches(c)
    requires UpdatePassword(s, me, current, newPassword, c).Ok?
    requires ParseLogin(i, f) == Ok(LoginData(s.users[me.id].email, newPassword))
    ensures var l := Login(UpdatePassword(s, me, current, newPassword, c).value.0, i, f, c, now);
      l.Ok? && l.value.subject == s.users[me.id].id
  {
    var s1 := UpdatePassword(s, me, current, newPassword, c).value.0;
    var k := Owner(s1, EmailColumn, s.users[me.id].email);
    assert me.id in s1.users && s1.users[me.id].email == s.users[me.id].email;
    assert Below(s1.users, s1.nextId);
    assert k.Some?;
    assert s1.users[k.value].email == s.users[k.value].email;
    assert c.compare(newPassword, c.hash(newPassword));
  }

  // ---------------------------------------------------------------------------
  // Google OAuth callback

  /** The fields of the Google profile the callback reads. */
  datatype GoogleProfile = GoogleProfile(email: string, name: string, picture: string)

  /** The username an OAuth account gets: the email up to its first "@". */
  function OAuthUsername(email: string): string
  {
    Split(email, '@')[0]
  }

  /** That username holds no "@" and is the start of the email, followed by
      the first "@" when there is one. */
  lemma OAuthUsernameBeforeAt(email: string)
    ensures '@' !in OAuthUsername(email)
    ensures OAuthUsername(email) <= email
    ensures |OAuthUsername(email)| < |email| ==> email[|OAuthUsername(email)|] == '@'
  {
    var parts := Split(email, '@');
    JoinSplit(email, '@');
    if |parts| > 1 {
      assert parts == [parts[0]] + parts[1..];
      JoinCons(parts[0], parts[1..], "@");
    }
  }

  /** The user upsert of the OAuth callback, keyed by email: an existing user
      only gets `lastLogin`; a new one gets the email's local part as
      username and the SHA-256 of random hex as password. */
  function UpsertGoogleUser(s: State, g: GoogleProfile, randomHex: string, c: Crypto, now: int): (r: Result<(State, User)>)
    ensures Owner(s, EmailColumn, g.email).Some? ==>
              var k := Owner(s, EmailColumn, g.email).value;
              r == Ok((s.(users := s.users[k := s.users[k].(lastLogin := Some(now))]), s.users[k].(lastLogin := Some(now))))
    ensures Owner(s, EmailColumn, g.email).None? ==>
              (r.Ok? <==> Owner(s, UsernameColumn, OAuthUsername(g.email)).None?)
              && (r.Fail? ==> r.error == UniqueViolation("`username`"))
              && (r.Ok? ==>
                    var u := User(s.nextId, OAuthUsername(g.email), g.email, c.sha256(randomHex), now, true, None, None, None);
                    r.value == (s.(users := s.users[s.nextId := u], nextId := s.nextId + 1), u))
  {
    match Owner(s, EmailColumn, g.email)
    case Some(k) =>
      var u := s.users[k].(lastLogin := Some(now));
      Ok((s.(users := s.users[k := u]), u))
    case None =>
      if Owner(s, UsernameColumn, OAuthUsername(g.email)).Some? then Fail(UniqueViolation("`username`"))
      else
        var u := User(s.nextId, OAuthUsername(g.email), g.email, c.sha256(randomHex), now, true, None, None, None);
        Ok((s.(users := s.users[s.nextId := u], nextId := s.nextId + 1), u))
  }

  /** The profile upsert of the OAuth callback, keyed by `userId`, with an
      empty update: an existing profile is left as it is. */
  function UpsertGoogleProfile(s: State, u: User, g: GoogleProfile): (r: State)
    ensures ProfileOf(s.profiles, s.nextId, u.id).Some? ==> r == s
    ensures ProfileOf(s.profiles, s.nextId, u.id).None? ==>
              r == s.(profiles := s.profiles[s.nextId := NewProfile(s.nextId, u.id, g.name, Some(g.picture))],
                      nextId := s.nextId + 1)
    ensures r.users == s.users && r.nextId >= s.nextId
    ensures Below(s.profiles, s.nextId) ==> Below(r.profiles, r.nextId) && ProfileOf(r.profiles, r.nextId, u.id).Some?
  {
    match ProfileOf(s.profiles, s.nextId, u.id)
    case Some(_) => s
    case None =>
      var p := NewProfile(s.nextId, u.id, g.name, Some(g.picture));
      var r := s.(profiles := s.profiles[s.nextId := p], nextId := s.nextId + 1);
      assert s.nextId in r.profiles && r.profiles[s.nextId].userId == u.id;
      r
  }

  /** The OAuth verify callback: the user upsert, then the profile upsert. */
  function OAuthLogin(s: State, g: GoogleProfile, randomHex: string, c: Crypto, now: int): (r: Result<(State, User)>)
    ensures r.Ok? <==> UpsertGoogleUser(s, g, randomHex, c, now).Ok?
    ensures r.Ok? ==>
              var s1 := UpsertGoogleUser(s, g, randomHex, c, now).value.0;
              var u := UpsertGoogleUser(s, g, randomHex, c, now).value.1;
              r.value == (UpsertGoogleProfile(s1, u, g), u)
    ensures r.Fail? ==> r.error == UniqueViolation("`username`")
  {
    match UpsertGoogleUser(s, g, randomHex, c, now)
    case Fail(e) => Fail(e)
    case Ok((s1, u)) => Ok((UpsertGoogleProfile(s1, u, g), u))
  }

  /** For a user who already has an account and a profile, the callback only
      sets `lastLogin`. */
  lemma OAuthExistingOnlyLastLogin(s: State, g: GoogleProfile, randomHex: string, c: Crypto, now: int)
    requires Owner(s, EmailColumn, g.email).Some?
    requires ProfileOf(s.profiles, s.nextId, s.users[Owner(s, EmailColumn, g.email).value].id).Some?
    ensures var k := Owner(s, EmailColumn, g.email).value;
      OAuthLogin(s, g, randomHex, c, now) == Ok((s.(users := s.users[k := s.users[k].(lastLogin := Some(now))]),
                                                  s.users[k].(lastLogin := Some(now))))
  {
    var k := Owner(s, EmailColumn, g.email).value;
    var s1 := UpsertGoogleUser(s, g, randomHex, c, now).value.0;
    var u := UpsertGoogleUser(s, g, randomHex, c, now).value.1;
    assert s1.profiles == s.profiles && s1.nextId == s.nextId;
    assert ProfileOf(s1.profiles, s1.nextId, u.id) == ProfileOf(s.profiles, s.nextId, s.users[k].id);
  }

  /** The user upsert leaves the user stored under its id, the only one with
      that email, and the profiles untouched. */
  lemma UpsertGoogleUserStores(s: State, g: GoogleProfile, h: string, c: Crypto, now: int)
    requires Below(s.users, s.nextId) && EmailsUnique(s.users) && UserIdsMatch(s.users)
    requires UpsertGoogleUser(s, g, h, c, now).Ok?
    ensures var s1 := UpsertGoogleUser(s, g, h, c, now).value.0;
      var u := UpsertGoogleUser(s, g, h, c, now).value.1;
      && u.id in s1.users && s1.users[u.id] == u && u.email == g.email
      && EmailsUnique(s1.users) && UserIdsMatch(s1.users) && Below(s1.users, s1.nextId)
      && s1.profiles == s.profiles && s.nextId <= s1.nextId
  {
    var owner := Owner(s, EmailColumn, g.email);
    if owner.None? {
      var u := User(s.nextId, OAuthUsername(g.email), g.email, c.sha256(h), now, true, None, None, None);
      AddUserKeeps(s.users, s.nextId, u);
    } else {
      var k := owner.value;
      TouchUserKeeps(s.users, s.nextId, k, s.users[k].(lastLogin := Some(now)));
    }
  }

  /** Storing a user with a fresh id and an unused email keeps the user
      invariants. */
  lemma AddUserKeeps(users: map<int, User>, n: nat, u: User)
    requires Below(users, n) && EmailsUnique(users) && UserIdsMatch(users)
    requires u.id == n && forall k :: k in users ==> users[k].email != u.email
    ensures EmailsUnique(users[n := u]) && UserIdsMatch(users[n := u]) && Below(users[n := u], n + 1)
  {
  }

  /** Rewriting a stored user without touching its id or email keeps the
      user invariants. */
  lemma TouchUserKeeps(users: map<int, User>, n: int, k: int, u: User)
    requires Below(users, n) && EmailsUnique(users) && UserIdsMatch(users)
    requires k in users && u.id == users[k].id && u.email == users[k].email
    ensures EmailsUnique(users[k := u]) && UserIdsMatch(users[k := u]) && Below(users[k := u], n)
  {
  }

  /** A unique email is found under the one key that holds it. */
  lemma EmailOwnerUnique(s: State, k: int)
    requires Below(s.users, s.nextId) && EmailsUnique(s.users) && k in s.users
    ensures Owner(s, EmailColumn, s.users[k].email) == Some(k)
  {
  }

  /** After the callback the user is the one stored under its email, and it
      has a profile. */
  lemma OAuthOwnerAfter(s: State, g: GoogleProfile, h: string, c: Crypto, now: int)
    requires WellFormed(s) && EmailsUnique(s.users) && UserIdsMatch(s.users)
    requires OAuthLogin(s, g, h, c, now).Ok?
    ensures var s2 := OAuthLogin(s, g, h, c, now).value.0;
      var u := OAuthLogin(s, g, h, c, now).value.1;
      && u.id in s2.users && s2.users[u.id] == u
      && Owner(s2, EmailColumn, g.email) == Some(u.id)
      && ProfileOf(s2.profiles, s2.nextId, u.id).Some?
      && EmailsUnique(s2.users) && UserIdsMatch(s2.users) && Below(s2.users, s2.nextId) && Below(s2.profiles, s2.nextId)
  {
    var s1 := UpsertGoogleUser(s, g, h, c, now).value.0;
    var u := UpsertGoogleUser(s, g, h, c, now).value.1;
    UpsertGoogleUserStores(s, g, h, c, now);
    var s2 := UpsertGoogleProfile(s1, u, g);
    assert Below(s1.profiles, s1.nextId);
    assert s2.users == s1.users && s1.nextId <= s2.nextId;
    EmailOwnerUnique(s2, u.id);
  }

  /** Logging in with Google twice gives the same user and adds no row the
      second time: only `lastLogin` moves. */
  lemma OAuthTwiceSameUser(s: State, g: GoogleProfile, h1: string, h2: string, c: Crypto, t1: int, t2: int)
    requires WellFormed(s) && EmailsUnique(s.users) && UserIdsMatch(s.users)
    requires OAuthLogin(s, g, h1, c, t1).Ok?
    ensures var s1 := OAuthLogin(s, g, h1, c, t1).value.0;
      var u1 := OAuthLogin(s, g, h1, c, t1).value.1;
      OAuthLogin(s1, g, h2, c, t2) == Ok((s1.(users := s1.users[u1.id := u1.(lastLogin := Some(t2))]),
                                          u1.(lastLogin := Some(t2))))
  {
    var s1 := OAuthLogin(s, g, h1, c, t1).value.0;
    var u1 := OAuthLogin(s, g, h1, c, t1).value.1;
    OAuthOwnerAfter(s, g, h1, c, t1);
    OAuthExistingOnlyLastLogin(s1, g, h2, c, t2);
  }
}

=== FILE: base.dfy ===
/** Shared vocabulary: optional values, the errors a handler can raise, and the
    result type every handler returns. */
module Base {

  datatype Option<+T> = None | Some(value: T)

  /** One zod issue, reduced to what the error handler reads from it: the first
      element of the issue's path and its message. */
  datatype Issue = Issue(key: string, message: string)

  /** Everything a handler passes to `next(err)` or throws, i.e. the input of the
      global error handler. `AppError` is the application's own error class;
      the Prisma variants carry only what the handler extracts from them. */
  datatype Thrown =
    | AppError(statusCode: int, message: string)
    | ZodError(issues: seq<Issue>)
    | JsonWebTokenError
    | TokenExpiredError
    | PrismaKnownRequest(capturedFields: Option<string>)
    | PrismaUnknownRequest(message: string)
    | PrismaInitialization(errorCode: string)
    | PrismaRustPanic(message: string)
    | PrismaValidation(missingField: Option<string>)
    | TypeError(message: string)

  /** A handler either commits a new value or stops with an error. */
  datatype Result<+T> = Ok(value: T) | Fail(error: Thrown)

  /** A list field of the request body: absent (`undefined`), `null`, or a list. */
  datatype ListField<+T> = Missing | NullList | Listed(items: seq<T>)

  /** `field.length`: the length of a list, or the TypeError JavaScript throws
      when the field is `undefined` or `null`. */
  function ListLength<T>(v: ListField<T>): (r: Result<nat>)
    ensures r.Ok? <==> v.Listed?
    ensures v.Listed? ==> r.value == |v.items|
    ensures v.Missing? ==> r == Fail(TypeError("Cannot read properties of undefined (reading 'length')"))
    ensures v.NullList? ==> r == Fail(TypeError("Cannot read properties of null (reading 'length')"))
  {
    match v
    case Missing => Result<nat>.Fail(TypeError("Cannot read properties of undefined (reading 'length')"))
    case NullList => Result<nat>.Fail(TypeError("Cannot read properties of null (reading 'length')"))
    case Listed(xs) => Ok(|xs|)
  }

  /** What the ORM raises when a row named in an update, delete or foreign key
      does not exist: a known-request error whose message carries no
      unique-constraint field list. */
  const RecordMissing: Thrown := PrismaKnownRequest(None)

  /** The ORM's unique-constraint violation on the given columns. */
  function UniqueViolation(fields: string): Thrown
  {
    PrismaKnownRequest(Some(fields))
  }

  /** A request field as the handler reads it. `NaN` is what `Number()`
      yields for a non-numeric text; `Date(None)` is an invalid `Date`. An
      absent field (`undefined`) is `None` in an `Option<Value>`. */
  datatype Value = Num(n: int) | NaN | Str(text: string) | Bool(b: bool) | Null | Date(time: Option<int>)

  /** JavaScript truthiness of a possibly absent field. */
  predicate Truthy(v: Option<Value>)
  {
    match v
    case None => false
    case Some(Num(n)) => n != 0
    case Some(NaN) => false
    case Some(Str(t)) => t != ""
    case Some(Bool(b)) => b
    case Some(Null) => false
    case Some(Date(_)) => true
  }

  /** The handler stopped with an application error carrying `code`. */
  predicate FailsWith<T>(r: Result<T>, code: int)
  {
    r.Fail? && r.error.AppError? && r.error.statusCode == code
  }
}

=== FILE: comments.dfy ===
/** Comment handlers: top-level comments and their post's `commentsCount`,
    replies and their parent's `repliesCount`, the authorship checks of edit
    and delete, and the newest-first listing of a post's comments. */
module Comments {
  import opened Base
  import opened Text
  import opened Store
  import opened Validators
  import opened ErrorHandling

  /** The body of a comment request. `postId` and `authorId` are the numbers
      the handler passes on; `image` and `video` are the uploaded files' URLs. */
  datatype CommentRequest = CommentRequest(
    content: Option<Value>, postId: int, authorId: int, image: Option<string>, video: Option<string>)

  function SchemaInput(req: CommentRequest): CommentInput
  {
    CommentInput(req.content, Some(Num(req.postId)), Some(Num(req.authorId)), req.image, req.video)
  }

  /** The row `comment.create` writes at the next id. */
  function NewComment(s: State, d: CommentData, parent: Option<int>, now: int): Comment
  {
    Comment(s.nextId, d.postId, d.authorId, parent, d.content, d.image, d.video, false, now, 0, 0)
  }

  /** `commentsCount: { increment: delta }` on post `p`. */
  function BumpComments(posts: map<int, Post>, p: int, delta: int): map<int, Post>
    requires p in posts
  {
    posts[p := posts[p].(commentsCount := posts[p].commentsCount + delta)]
  }

  /** `repliesCount: { increment: delta }` on comment `c`. */
  function BumpReplies(comments: map<int, Comment>, c: int, delta: int): map<int, Comment>
    requires c in comments
  {
    comments[c := comments[c].(repliesCount := comments[c].repliesCount + delta)]
  }

  /** `addComment`: the post must exist and accept comments, the body must
      pass `commentSchema`, and then the comment and the counter are written
      in one transaction (the author's profile must exist). */
  function AddComment(s: State, req: CommentRequest, now: int, f: Formats): (r: Result<State>)
    ensures req.postId !in s.posts ==> r == Fail(AppError(404, "Post not found"))
    ensures req.postId in s.posts && !s.posts[req.postId].commentsEnabled
            ==> r == Fail(AppError(403, "Comments are not enabled for this post"))
    ensures req.postId in s.posts && s.posts[req.postId].commentsEnabled && !TextBetween(req.content, 1, 255)
            ==> r.Fail? && r.error.ZodError?
    ensures r.Ok? <==> req.postId in s.posts && s.posts[req.postId].commentsEnabled
                       && TextBetween(req.content, 1, 255) && req.authorId in s.profiles
    ensures r.Ok? ==>
      && r.value.comments == s.comments[s.nextId := Comment(s.nextId, req.postId, req.authorId, None,
                                          req.content.value.text, req.image, req.video, false, now, 0, 0)]
      && r.value.posts == BumpComments(s.posts, req.postId, 1)
      && r.value == s.(comments := r.value.comments, posts := r.value.posts, nextId := s.nextId + 1)
  {
    if req.postId !in s.posts then Fail(AppError(404, "Post not found"))
    else if !s.posts[req.postId].commentsEnabled then Fail(AppError(403, "Comments are not enabled for this post"))
    else match ParseComment(SchemaInput(req), f)
      case Fail(e) => Fail(e)
      case Ok(d) =>
        if d.authorId !in s.profiles then Fail(RecordMissing)
        else
          Ok(s.(comments := s.comments[s.nextId := NewComment(s, d, None, now)],
                posts := BumpComments(s.posts, d.postId, 1),
                nextId := s.nextId + 1))
  }

  /** `addComment` as a whole: the transaction, then `mentions.length`,
      which throws once the comment is stored when the body carries no
      `mentions` list. The pushes to the post's author and to mentioned
      profiles are taken to succeed. The reply is the stored comment. */
  function AddCommentRequest(s: State, req: CommentRequest, mentions: ListField<int>, now: int, f: Formats)
    : (r: Outcome<Comment>)
    ensures AddComment(s, req, now, f).Fail? ==> r == Outcome(s, Fail(AddComment(s, req, now, f).error))
    ensures AddComment(s, req, now, f).Ok? ==> r.store == AddComment(s, req, now, f).value
    ensures r.reply.Ok? <==> AddComment(s, req, now, f).Ok? && mentions.Listed?
    ensures r.reply.Ok? ==> s.nextId in r.store.comments && r.reply.value == r.store.comments[s.nextId]
    ensures r.reply.Fail? && AddComment(s, req, now, f).Ok? ==> r.reply.error.TypeError?
  {
    match AddComment(s, req, now, f)
    case Fail(e) => Outcome(s, Fail(e))
    case Ok(s') =>
      match ListLength(mentions)
      case Fail(e) => Outcome(s', Fail(e))
      case Ok(_) => Outcome(s', Ok(s'.comments[s.nextId]))
  }

  /** A valid comment without `mentions` is stored and counted on its post,
      yet the client is answered with a 500. */
  lemma MissingMentionsStoredYetFails(s: State, req: CommentRequest, now: int, f: Formats, development: bool)
    requires AddComment(s, req, now, f).Ok?
    ensures var r := AddCommentRequest(s, req, NullList, now, f);
      && s.nextId in r.store.comments && r.store.comments[s.nextId].content == req.content.value.text
      && r.store.posts[req.postId].commentsCount == s.posts[req.postId].commentsCount + 1
      && r.reply.Fail? && GlobalErrorHandler(r.reply.error, development).statusCode == 500
  {
  }

  /** `addReplyToComment`: the parent must exist and the body must pass
      `commentSchema`; the reply (carrying the body's `postId`) and the
      parent's counter are written in one transaction. */
  function AddReply(s: State, parentId: int, req: CommentRequest, now: int, f: Formats): (r: Result<State>)
    ensures parentId !in s.comments ==> r == Fail(AppError(404, "Parent comment not found"))
    ensures parentId in s.comments && !TextBetween(req.content, 1, 255) ==> r.Fail? && r.error.ZodError?
    ensures r.Ok? <==> parentId in s.comments && TextBetween(req.content, 1, 255)
                       && req.postId in s.posts && req.authorId in s.profiles
    ensures r.Ok? ==>
      && r.value.comments == BumpReplies(s.comments, parentId, 1)[s.nextId := Comment(s.nextId, req.postId, req.authorId,
                                Some(parentId), req.content.value.text, req.image, req.video, false, now, 0, 0)]
      && r.value == s.(comments := r.value.comments, nextId := s.nextId + 1)
  {
    if parentId !in s.comments then Fail(AppError(404, "Parent comment not found"))
    else match ParseComment(SchemaInput(req), f)
      case Fail(e) => Fail(e)
      case Ok(d) =>
        if d.postId !in s.posts || d.authorId !in s.profiles then Fail(RecordMissing)
        else
          Ok(s.(comments := BumpReplies(s.comments, parentId, 1)[s.nextId := NewComment(s, d, Some(parentId), now)],
                nextId := s.nextId + 1))
  }

  /** `updateComment`: 404 for a missing comment, 403 unless the body's
      `authorId` is the comment's author, then the schema; the update sets
      the content, marks the comment edited, moves it to the body's `postId`
      and replaces image and video only when a file was uploaded. */
  function UpdateComment(s: State, id: int, req: CommentRequest, f: Formats): (r: Result<State>)
    ensures id !in s.comments ==> r == Fail(AppError(404, "Comment not found"))
    ensures id in s.comments && s.comments[id].authorId != req.authorId
            ==> r == Fail(AppError(403, "You are not allowed to edit this comment"))
    ensures r.Ok? <==> id in s.comments && s.comments[id].authorId == req.authorId
                       && TextBetween(req.content, 1, 255) && req.postId in s.posts
    ensures r.Ok? ==> id in r.value.comments && r.value == s.(comments := s.comments[id := r.value.comments[id]])
    ensures r.Ok? ==>
      var c := s.comments[id];
      r.value.comments[id] == c.(content := req.content.value.text, isEdited := true, postId := req.postId,
                                 image := if req.image.Some? then req.image else c.image,
                                 video := if req.video.Some? then req.video else c.video)
  {
    if id !in s.comments then Fail(AppError(404, "Comment not found"))
    else if s.comments[id].authorId != req.authorId then Fail(AppError(403, "You are not allowed to edit this comment"))
    else match ParseComment(SchemaInput(req), f)
      case Fail(e) => Fail(e)
      case Ok(d) =>
        if req.postId !in s.posts then Fail(RecordMissing)
        else
          var c := s.comments[id];
          var c' := c.(content := d.content, isEdited := true, postId := req.postId,
                       image := if d.image.Some? then d.image else c.image,
                       video := if d.video.Some? then d.video else c.video);
          Ok(s.(comments := s.comments[id := c']))
  }

  /** `deleteComment` as written: the comment's author (a profile id) is
      compared with the id of the caller's USER record, and no counter is
      lowered. */
  function DeleteComment(s: State, caller: Caller, id: int): (r: Result<State>)
    ensures id !in s.comments ==> r == Fail(AppError(404, "Comment not found"))
    ensures id in s.comments && s.comments[id].authorId != caller.userId
            ==> r == Fail(AppError(403, "You are not allowed to delete this comment"))
    ensures r.Ok? <==> id in s.comments && s.comments[id].authorId == caller.userId
    ensures r.Ok? ==> r.value == s.(comments := s.comments - {id})
  {
    if id !in s.comments then Fail(AppError(404, "Comment not found"))
    else if s.comments[id].authorId != caller.userId then Fail(AppError(403, "You are not allowed to delete this comment"))
    else Ok(s.(comments := s.comments - {id}))
  }

  /** When the caller's user and profile ids differ, the author of a comment
      is refused the deletion of their own comment. */
  lemma DeleteCommentRefusesAuthor(s: State, caller: Caller, id: int)
    requires id in s.comments && s.comments[id].authorId == caller.profileId
    requires caller.userId != caller.profileId
    ensures DeleteComment(s, caller, id) == Fail(AppError(403, "You are not allowed to delete this comment"))
  {
  }

  /** Deleting a top-level comment as written leaves its post's
      `commentsCount` one above the number of its top-level comments. */
  lemma DeleteCommentLeavesCount(s: State, caller: Caller, id: int)
    requires CommentCountersConsistent(s)
    requires DeleteComment(s, caller, id).Ok?
    requires s.comments[id].parentId == None && s.comments[id].postId in s.posts
    ensures var s' := DeleteComment(s, caller, id).value; var p := s.comments[id].postId;
      s'.posts[p].commentsCount == |TopLevelOf(s'.comments, p)| + 1
  {
    var p := s.comments[id].postId;
    TopLevelRemove(s.comments, id, p);
    CardRemove(TopLevelOf(s.comments, p), id);
  }

  /** The row whose counter caches comment `id` exists: its post when it is
      top-level, otherwise its parent, which is another comment. */
  predicate CacheRowExists(s: State, id: int)
    requires id in s.comments
  {
    match s.comments[id].parentId
    case None => s.comments[id].postId in s.posts
    case Some(parent) => parent in s.comments && parent != id
  }

  /** Deletion as intended: the author is identified by the caller's profile
      id, and the counter that cached the comment is lowered with it. */
  function DeleteCommentIntended(s: State, caller: Caller, id: int): (r: Result<State>)
    ensures id !in s.comments ==> r == Fail(AppError(404, "Comment not found"))
    ensures id in s.comments && s.comments[id].authorId != caller.profileId
            ==> r == Fail(AppError(403, "You are not allowed to delete this comment"))
    ensures r.Ok? <==> id in s.comments && s.comments[id].authorId == caller.profileId
                       && CacheRowExists(s, id)
    ensures r.Ok? ==> r.value.comments.Keys == s.comments.Keys - {id}
    ensures r.Ok? ==> r.value == s.(comments := r.value.comments, posts := r.value.posts)
  {
    if id !in s.comments then Fail(AppError(404, "Comment not found"))
    else if s.comments[id].authorId != caller.profileId then Fail(AppError(403, "You are not allowed to delete this comment"))
    else
      var c := s.comments[id];
      match c.parentId
      case None =>
        if c.postId !in s.posts then Fail(RecordMissing)
        else Ok(s.(comments := s.comments - {id}, posts := BumpComments(s.posts, c.postId, -1)))
      case Some(parent) =>
        if parent !in s.comments || parent == id then Fail(RecordMissing)
        else Ok(s.(comments := BumpReplies(s.comments, parent, -1) - {id}))
  }

  // ---------------------------------------------------------------------------
  // The counter invariant, table by table.

  /** Every post's `commentsCount` is the number of its top-level comments. */
  ghost predicate TopCountsExact(posts: map<int, Post>, comments: map<int, Comment>)
  {
    forall p :: p in posts ==> posts[p].commentsCount == |TopLevelOf(comments, p)|
  }

  /** Every comment's `repliesCount` is the number of its direct replies. */
  ghost predicate ReplyCountsExact(comments: map<int, Comment>)
  {
    forall x :: x in comments ==> comments[x].repliesCount == |RepliesOf(comments, x)|
  }

  /** No row of the table names the fresh id `n` as its parent. */
  lemma NoRepliesToFresh(comments: map<int, Comment>, n: int)
    requires forall x :: x in comments && comments[x].parentId.Some? ==> comments[x].parentId.value < n
    ensures RepliesOf(comments, n) == {}
  {
    forall x | x in comments ensures comments[x].parentId != Some(n) {
    }
  }

  /** No like row names the fresh id `n` as its comment. */
  lemma NoLikesOnFresh(likes: map<int, Like>, n: int)
    requires forall x :: x in likes ==> TargetId(likes[x].target) < n
    ensures LikesOn(likes, OnComment(n)) == {}
  {
    forall x | x in likes ensures likes[x].target != OnComment(n) {
    }
  }

  /** Raising or lowering a reply counter moves no comment between posts or parents. */
  lemma BumpRepliesKeepsSets(comments: map<int, Comment>, c: int, delta: int, q: int)
    requires c in comments
    ensures TopLevelOf(BumpReplies(comments, c, delta), q) == TopLevelOf(comments, q)
    ensures RepliesOf(BumpReplies(comments, c, delta), q) == RepliesOf(comments, q)
  {
    SamePlace(comments, c, BumpReplies(comments, c, delta)[c], q);
  }

  /** Inserting a comment, and raising its post's counter when it is top-level,
      keeps the post counters exact. */
  lemma TopCountsAfterInsert(posts: map<int, Post>, comments: map<int, Comment>, k: int, c: Comment)
    requires k !in comments && c.postId in posts
    requires TopCountsExact(posts, comments)
    ensures TopCountsExact(if c.parentId == None then BumpComments(posts, c.postId, 1) else posts, comments[k := c])
  {
    var posts' := if c.parentId == None then BumpComments(posts, c.postId, 1) else posts;
    forall p | p in posts' ensures posts'[p].commentsCount == |TopLevelOf(comments[k := c], p)| {
      TopLevelInsert(comments, k, c, p);
      if p == c.postId && c.parentId == None {
        CardInsert(TopLevelOf(comments, p), k);
      }
    }
  }

  /** Inserting a comment with no replies yet, and raising its parent's
      counter when it is a reply, keeps the reply counters exact. */
  lemma ReplyCountsAfterInsert(comments: map<int, Comment>, k: int, c: Comment)
    requires k !in comments && c.repliesCount == 0 && RepliesOf(comments, k) == {}
    requires c.parentId.Some? ==> c.parentId.value in comments
    requires ReplyCountsExact(comments)
    ensures ReplyCountsExact((if c.parentId.Some? then BumpReplies(comments, c.parentId.value, 1) else comments)[k := c])
  {
    var m := if c.parentId.Some? then BumpReplies(comments, c.parentId.value, 1) else comments;
    var m' := m[k := c];
    forall x | x in m' ensures m'[x].repliesCount == |RepliesOf(m', x)| {
      RepliesInsert(m, k, c, x);
      if c.parentId.Some? {
        BumpRepliesKeepsSets(comments, c.parentId.value, 1, x);
        if x == c.parentId.value {
          CardInsert(RepliesOf(comments, x), k);
        }
      }
    }
  }

  /** Removing a comment, and lowering the post counter that cached it when
      it is top-level, keeps the post counters exact. */
  lemma TopCountsAfterRemove(posts: map<int, Post>, comments: map<int, Comment>, k: int)
    requires k in comments && (comments[k].parentId == None ==> comments[k].postId in posts)
    requires TopCountsExact(posts, comments)
    ensures TopCountsExact(if comments[k].parentId == None then BumpComments(posts, comments[k].postId, -1) else posts,
                           comments - {k})
  {
    var c := comments[k];
    var posts' := if c.parentId == None then BumpComments(posts, c.postId, -1) else posts;
    forall p | p in posts' ensures posts'[p].commentsCount == |TopLevelOf(comments - {k}, p)| {
      TopLevelRemove(comments, k, p);
      if p == c.postId && c.parentId == None {
        CardRemove(TopLevelOf(comments, p), k);
      }
    }
  }

  /** Removing a comment, and lowering its parent's counter when it is a
      reply, keeps the reply counters of the remaining comments exact. */
  lemma ReplyCountsAfterRemove(comments: map<int, Comment>, k: int)
    requires k in comments
    requires comments[k].parentId.Some? ==> comments[k].parentId.value in comments && comments[k].parentId.value != k
    requires ReplyCountsExact(comments)
    ensures ReplyCountsExact((if comments[k].parentId.Some? then BumpReplies(comments, comments[k].parentId.value, -1)
                              else comments) - {k})
  {
    var c := comments[k];
    var m := if c.parentId.Some? then BumpReplies(comments, c.parentId.value, -1) else comments;
    var m' := m - {k};
    forall x | x in m' ensures m'[x].repliesCount == |RepliesOf(m', x)| {
      RepliesRemove(m, k, x);
      if c.parentId.Some? {
        BumpRepliesKeepsSets(comments, c.parentId.value, -1, x);
        if x == c.parentId.value {
          CardRemove(RepliesOf(comments, x), k);
        }
      }
    }
  }

  /** Changes that touch only comment rows other than like counters keep the
      like counters exact, provided a new comment starts with no likes. */
  lemma LikeCountersAfterComments(s: State, s': State)
    requires LikeCountersConsistent(s)
    requires s'.likes == s.likes
    requires forall p :: p in s'.posts ==> p in s.posts && s'.posts[p].likesCount == s.posts[p].likesCount
    requires forall x :: x in s'.comments && x in s.comments ==> s'.comments[x].likesCount == s.comments[x].likesCount
    requires forall x :: x in s'.comments && x !in s.comments ==>
               s'.comments[x].likesCount == 0 && LikesOn(s.likes, OnComment(x)) == {}
    ensures LikeCountersConsistent(s')
  {
  }

  /** Inserting a comment at the fresh id, with the counter that caches it
      raised, keeps every counter exact. */
  lemma InsertKeepsConsistent(s: State, s': State, c: Comment)
    requires WellFormed(s) && Consistent(s)
    requires c.postId in s.posts && c.repliesCount == 0 && c.likesCount == 0
    requires c.parentId.Some? ==> c.parentId.value in s.comments
    requires s' == s.(comments := (if c.parentId.Some? then BumpReplies(s.comments, c.parentId.value, 1)
                                   else s.comments)[s.nextId := c],
                      posts := if c.parentId == None then BumpComments(s.posts, c.postId, 1) else s.posts,
                      nextId := s.nextId + 1)
    ensures Consistent(s')
  {
    InsertKeepsCommentCounters(s, s', c);
    InsertKeepsLikeCounters(s, s', c);
    assert s'.profiles == s.profiles;
  }

  /** The comment and reply counters stay exact under the insertion. */
  lemma InsertKeepsCommentCounters(s: State, s': State, c: Comment)
    requires WellFormed(s) && CommentCountersConsistent(s)
    requires c.postId in s.posts && c.repliesCount == 0
    requires c.parentId.Some? ==> c.parentId.value in s.comments
    requires s' == s.(comments := (if c.parentId.Some? then BumpReplies(s.comments, c.parentId.value, 1)
                                   else s.comments)[s.nextId := c],
                      posts := if c.parentId == None then BumpComments(s.posts, c.postId, 1) else s.posts,
                      nextId := s.nextId + 1)
    ensures CommentCountersConsistent(s')
  {
    var k := s.nextId;
    var mid := if c.parentId.Some? then BumpReplies(s.comments, c.parentId.value, 1) else s.comments;
    forall p ensures TopLevelOf(mid, p) == TopLevelOf(s.comments, p) {
      if c.parentId.Some? {
        BumpRepliesKeepsSets(s.comments, c.parentId.value, 1, p);
      }
    }
    assert TopCountsExact(s.posts, mid);
    TopCountsAfterInsert(s.posts, mid, k, c);
    NoRepliesToFresh(s.comments, k);
    ReplyCountsAfterInsert(s.comments, k, c);
  }

  /** The like counters stay exact: the new comment has no likes, and no
      existing counter moves. */
  lemma InsertKeepsLikeCounters(s: State, s': State, c: Comment)
    requires WellFormed(s) && LikeCountersConsistent(s)
    requires c.postId in s.posts && c.likesCount == 0
    requires c.parentId.Some? ==> c.parentId.value in s.comments
    requires s' == s.(comments := (if c.parentId.Some? then BumpReplies(s.comments, c.parentId.value, 1)
                                   else s.comments)[s.nextId := c],
                      posts := if c.parentId == None then BumpComments(s.posts, c.postId, 1) else s.posts,
                      nextId := s.nextId + 1)
    ensures LikeCountersConsistent(s')
  {
    NoLikesOnFresh(s.likes, s.nextId);
    LikeCountersAfterComments(s, s');
  }

  /** The same insertion keeps every id below the counter. */
  lemma InsertKeepsWellFormed(s: State, s': State, c: Comment)
    requires WellFormed(s)
    requires c.postId in s.posts && (c.parentId.Some? ==> c.parentId.value in s.comments)
    requires s'.comments.Keys == s.comments.Keys + {s.nextId} && s'.comments[s.nextId] == c
    requires forall x :: x in s.comments ==>
               s'.comments[x].postId == s.comments[x].postId && s'.comments[x].parentId == s.comments[x].parentId
    requires s' == s.(comments := s'.comments, posts := s'.posts, nextId := s.nextId + 1)
    requires s'.posts.Keys == s.posts.Keys
    ensures WellFormed(s')
  {
    assert Below(s'.comments, s'.nextId);
    assert Below(s'.posts, s'.nextId);
  }

  /** The store after a new top-level comment, with the row spelled out. */
  lemma AddCommentShape(s: State, req: CommentRequest, now: int, f: Formats)
    requires AddComment(s, req, now, f).Ok?
    ensures req.postId in s.posts && req.content.Some?
    ensures AddComment(s, req, now, f).value
              == s.(comments := s.comments[s.nextId := Comment(s.nextId, req.postId, req.authorId, None,
                                                               req.content.value.text, req.image, req.video,
                                                               false, now, 0, 0)],
                    posts := BumpComments(s.posts, req.postId, 1),
                    nextId := s.nextId + 1)
  {
  }

  /** The store after a new reply, with the row spelled out. */
  lemma AddReplyShape(s: State, parentId: int, req: CommentRequest, now: int, f: Formats)
    requires AddReply(s, parentId, req, now, f).Ok?
    ensures parentId in s.comments && req.postId in s.posts && req.content.Some?
    ensures AddReply(s, parentId, req, now, f).value
              == s.(comments := BumpReplies(s.comments, parentId, 1)[s.nextId := Comment(s.nextId, req.postId,
                                   req.authorId, Some(parentId), req.content.value.text, req.image, req.video,
                                   false, now, 0, 0)],
                    nextId := s.nextId + 1)
  {
  }

  /** A new top-level comment, with its post's counter raised, keeps every
      counter exact. */
  lemma AddCommentKeepsConsistent(s: State, req: CommentRequest, now: int, f: Formats)
    requires WellFormed(s) && Consistent(s)
    requires AddComment(s, req, now, f).Ok?
    ensures Consistent(AddComment(s, req, now, f).value)
  {
    AddCommentShape(s, req, now, f);
    var c := Comment(s.nextId, req.postId, req.authorId, None, req.content.value.text,
                     req.image, req.video, false, now, 0, 0);
    InsertKeepsConsistent(s, AddComment(s, req, now, f).value, c);
  }

  /** A new top-level comment keeps every id, and every post a comment
      names, below the id counter. */
  lemma AddCommentKeepsWellFormed(s: State, req: CommentRequest, now: int, f: Formats)
    requires WellFormed(s)
    requires AddComment(s, req, now, f).Ok?
    ensures WellFormed(AddComment(s, req, now, f).value)
  {
    AddCommentShape(s, req, now, f);
    var c := Comment(s.nextId, req.postId, req.authorId, None, req.content.value.text,
                     req.image, req.video, false, now, 0, 0);
    InsertKeepsWellFormed(s, AddComment(s, req, now, f).value, c);
  }

  /** A new reply, with its parent's counter raised, keeps every counter
      exact. */
  lemma AddReplyKeepsConsistent(s: State, parentId: int, req: CommentRequest, now: int, f: Formats)
    requires WellFormed(s) && Consistent(s)
    requires AddReply(s, parentId, req, now, f).Ok?
    ensures Consistent(AddReply(s, parentId, req, now, f).value)
  {
    AddReplyShape(s, parentId, req, now, f);
    var c := Comment(s.nextId, req.postId, req.authorId, Some(parentId), req.content.value.text,
                     req.image, req.video, false, now, 0, 0);
    InsertKeepsConsistent(s, AddReply(s, parentId, req, now, f).value, c);
  }

  /** A new reply keeps every id, and every post and parent a comment
      names, below the id counter. */
  lemma AddReplyKeepsWellFormed(s: State, parentId: int, req: CommentRequest, now: int, f: Formats)
    requires WellFormed(s)
    requires AddReply(s, parentId, req, now, f).Ok?
    ensures WellFormed(AddReply(s, parentId, req, now, f).value)
  {
    AddReplyShape(s, parentId, req, now, f);
    var c := Comment(s.nextId, req.postId, req.authorId, Some(parentId), req.content.value.text,
                     req.image, req.video, false, now, 0, 0);
    InsertKeepsWellFormed(s, AddReply(s, parentId, req, now, f).value, c);
  }

  /** Removing comment `k`, with the counter that cached it lowered, keeps
      every counter exact. */
  lemma RemoveKeepsConsistent(s: State, s': State, k: int)
    requires Consistent(s) && k in s.comments
    requires s.comments[k].parentId == None ==> s.comments[k].postId in s.posts
    requires s.comments[k].parentId.Some? ==>
               s.comments[k].parentId.value in s.comments && s.comments[k].parentId.value != k
    requires var c := s.comments[k];
      s' == s.(comments := (if c.parentId.Some? then BumpReplies(s.comments, c.parentId.value, -1) else s.comments) - {k},
               posts := if c.parentId == None then BumpComments(s.posts, c.postId, -1) else s.posts)
    ensures Consistent(s')
  {
    var c := s.comments[k];
    var mid := if c.parentId.Some? then BumpReplies(s.comments, c.parentId.value, -1) else s.comments;
    forall p ensures TopLevelOf(mid, p) == TopLevelOf(s.comments, p) {
      if c.parentId.Some? {
        BumpRepliesKeepsSets(s.comments, c.parentId.value, -1, p);
      }
    }
    assert TopCountsExact(s.posts, mid);
    assert mid[k].parentId == c.parentId && mid[k].postId == c.postId;
    TopCountsAfterRemove(s.posts, mid, k);
    ReplyCountsAfterRemove(s.comments, k);
    assert CommentCountersConsistent(s');
    LikeCountersAfterComments(s, s');
    assert s'.profiles == s.profiles;
  }

  /** Under the correction the author of a comment may delete it: when the
      comment's post or parent exists, the author's request removes exactly
      that comment. */
  lemma DeleteIntendedAdmitsAuthor(s: State, caller: Caller, id: int)
    requires id in s.comments && CacheRowExists(s, id)
    requires s.comments[id].authorId == caller.profileId
    ensures DeleteCommentIntended(s, caller, id).Ok?
    ensures DeleteCommentIntended(s, caller, id).value.comments.Keys == s.comments.Keys - {id}
  {
  }

  /** The intended deletion keeps every counter exact. */
  lemma DeleteIntendedKeepsConsistent(s: State, caller: Caller, id: int)
    requires Consistent(s)
    requires DeleteCommentIntended(s, caller, id).Ok?
    ensures Consistent(DeleteCommentIntended(s, caller, id).value)
  {
    RemoveKeepsConsistent(s, DeleteCommentIntended(s, caller, id).value, id);
  }

  /** An edit that keeps the comment where it was (same post, or a reply)
      keeps every counter exact. */
  lemma UpdateCommentKeepsConsistent(s: State, id: int, req: CommentRequest, f: Formats)
    requires Consistent(s)
    requires UpdateComment(s, id, req, f).Ok?
    requires req.postId == s.comments[id].postId || s.comments[id].parentId.Some?
    ensures Consistent(UpdateComment(s, id, req, f).value)
  {
    var c' := UpdateComment(s, id, req, f).value.comments[id];
    EditInPlaceKeepsConsistent(s, id, c');
  }

  /** Rewriting a comment without changing its counters or parent, and
      without moving it when it is top-level, keeps every counter exact. */
  lemma EditInPlaceKeepsConsistent(s: State, id: int, c': Comment)
    requires Consistent(s) && id in s.comments
    requires c'.parentId == s.comments[id].parentId && c'.likesCount == s.comments[id].likesCount
    requires c'.repliesCount == s.comments[id].repliesCount
    requires c'.postId == s.comments[id].postId || c'.parentId.Some?
    ensures Consistent(s.(comments := s.comments[id := c']))
  {
    var s' := s.(comments := s.comments[id := c']);
    var c := s.comments[id];
    forall p ensures TopLevelOf(s'.comments, p) == TopLevelOf(s.comments, p) {
      if c'.postId == c.postId {
        SamePlace(s.comments, id, c', p);
      }
    }
    forall x ensures RepliesOf(s'.comments, x) == RepliesOf(s.comments, x) {
      if c'.postId == c.postId {
        SamePlace(s.comments, id, c', x);
      }
    }
    LikeCountersAfterComments(s, s');
  }

  /** Moving a top-level comment to another post leaves the new post's
      counter one below its number of top-level comments. */
  lemma UpdateCommentMovesCount(s: State, id: int, req: CommentRequest, f: Formats)
    requires CommentCountersConsistent(s)
    requires UpdateComment(s, id, req, f).Ok?
    requires s.comments[id].parentId == None && req.postId != s.comments[id].postId
    ensures var s' := UpdateComment(s, id, req, f).value;
      s'.posts[req.postId].commentsCount == |TopLevelOf(s'.comments, req.postId)| - 1
  {
    var s' := UpdateComment(s, id, req, f).value;
    var p := req.postId;
    TopLevelGains(s.comments, id, s'.comments[id], p);
    CardInsert(TopLevelOf(s.comments, p), id);
  }

  /** Moving a top-level comment onto post `p` adds its id to `p`'s
      top-level comments. */
  lemma TopLevelGains(comments: map<int, Comment>, id: int, c: Comment, p: int)
    requires id in comments && comments[id].postId != p
    requires c.postId == p && c.parentId == None
    ensures id !in TopLevelOf(comments, p)
    ensures TopLevelOf(comments[id := c], p) == TopLevelOf(comments, p) + {id}
  {
  }

  // ---------------------------------------------------------------------------
  // getPostComments

  predicate IsTopLevelOf(c: Comment, postId: int)
  {
    c.postId == postId && c.parentId == None
  }

  function PublishedAt(c: Comment): int { c.publishedAt }

  /** The top-level comments of a post, newest first. */
  function TopLevelNewestFirst(s: State, postId: int): (r: seq<Comment>)
    ensures NewestFirst(r, PublishedAt)
    ensures forall i :: 0 <= i < |r| ==> IsTopLevelOf(r[i], postId) && r[i] in s.comments.Values
    ensures Below(s.comments, s.nextId) ==>
              forall k :: k in s.comments && IsTopLevelOf(s.comments[k], postId) ==> s.comments[k] in r
  {
    NewestRows(s.comments, s.nextId, c => IsTopLevelOf(c, postId), PublishedAt)
  }

  /** `getPostComments`: 404 for a missing post, otherwise the window
      `skip`..`skip + limit` (defaults 0 and 10) of the post's top-level
      comments, newest first. */
  function GetPostComments(s: State, postId: int, limit: Query, skip: Query): (r: Result<seq<Comment>>)
    ensures postId !in s.posts ==> r == Fail(AppError(404, "Post not found"))
    ensures r.Ok? ==> NewestFirst(r.value, PublishedAt)
    ensures r.Ok? ==> forall i :: 0 <= i < |r.value| ==> IsTopLevelOf(r.value[i], postId) && r.value[i] in s.comments.Values
    ensures r.Fail? && postId in s.posts ==> r.error == PrismaValidation(None)
    ensures r.Ok? <==> postId in s.posts && NumberIfGiven(limit, 10).Ok? && NumberIfGiven(skip, 0).Ok?
    ensures r.Ok? ==> |r.value| <= NumberIfGiven(limit, 10).value
    ensures r.Ok? ==> r.value == Page(TopLevelNewestFirst(s, postId), NumberIfGiven(skip, 0).value,
                                      NumberIfGiven(limit, 10).value)
    ensures r.Ok? && limit.Absent? && skip.Absent? ==> r.value == Page(TopLevelNewestFirst(s, postId), 0, 10)
  {
    if postId !in s.posts then Fail(AppError(404, "Post not found"))
    else match (NumberIfGiven(limit, 10), NumberIfGiven(skip, 0))
      case (Ok(take), Ok(from)) =>
        var all := TopLevelNewestFirst(s, postId);
        var page := Page(all, from, take);
        PageNewestFirst(all, from, take, PublishedAt);
        Ok(page)
      case (Fail(e), _) => Fail(e)
      case (_, Fail(e)) => Fail(e)
  }

  /** Paging through a post's comments misses and repeats nothing: the page
      of `n` comments after `from` followed by the page of `m` after
      `from + n` is the page of `n + m` after `from`. */
  lemma CommentPagesTile(s: State, postId: int, from: nat, n: nat, m: nat)
    requires postId in s.posts
    ensures GetPostComments(s, postId, Given(ShowNat(n)), Given(ShowNat(from))).Ok?
    ensures GetPostComments(s, postId, Given(ShowNat(m)), Given(ShowNat(from + n))).Ok?
    ensures GetPostComments(s, postId, Given(ShowNat(n + m)), Given(ShowNat(from))).Ok?
    ensures GetPostComments(s, postId, Given(ShowNat(n)), Given(ShowNat(from))).value
            + GetPostComments(s, postId, Given(ShowNat(m)), Given(ShowNat(from + n))).value
            == GetPostComments(s, postId, Given(ShowNat(n + m)), Given(ShowNat(from))).value
  {
    var all := TopLevelNewestFirst(s, postId);
    var first := GetPostComments(s, postId, Given(ShowNat(n)), Given(ShowNat(from)));
    var second := GetPostComments(s, postId, Given(ShowNat(m)), Given(ShowNat(from + n)));
    var both := GetPostComments(s, postId, Given(ShowNat(n + m)), Given(ShowNat(from)));
    ShownPage(s, postId, from, n);
    ShownPage(s, postId, from + n, m);
    ShownPage(s, postId, from, n + m);
    PageConcat(all, from, n, m);
    JoinedReplies(first, second, both, Page(all, from, n), Page(all, from + n, m));
  }

  lemma JoinedReplies(first: Result<seq<Comment>>, second: Result<seq<Comment>>, both: Result<seq<Comment>>,
                      p: seq<Comment>, q: seq<Comment>)
    requires first == Ok(p) && second == Ok(q) && both == Ok(p + q)
    ensures first.value + second.value == both.value
  {
  }

  /** The query `?limit=n&skip=from` selects the window `from..from + n`. */
  lemma ShownPage(s: State, postId: int, from: nat, n: nat)
    requires postId in s.posts
    ensures GetPostComments(s, postId, Given(ShowNat(n)), Given(ShowNat(from)))
            == Ok(Page(TopLevelNewestFirst(s, postId), from, n))
  {
    NumberIfGivenShow(n, 10);
    NumberIfGivenShow(from, 0);
  }
}

=== FILE: conversations.dfy ===
/** Conversations: one row per ordered pair of profiles, created by an upsert
    with an empty update and looked up by the same ordered pair. */
module Conversations {
  import opened Base
  import opened Store

  /** The conversation's unique key, in the order the columns name it. */
  predicate HasKey(c: Conversation, one: int, two: int)
  {
    c.profileOneId == one && c.profileTwoId == two
  }

  /** The conversation stored under (one, two), if any. */
  function FindConversation(s: State, one: int, two: int): (r: Option<int>)
    ensures r.Some? ==> r.value in s.conversations && HasKey(s.conversations[r.value], one, two)
    ensures r.None? && Below(s.conversations, s.nextId) ==>
              forall k :: k in s.conversations ==> !HasKey(s.conversations[k], one, two)
  {
    Find(s.conversations, s.nextId, (c: Conversation) => HasKey(c, one, two))
  }

  /** No two conversations share an ordered pair. */
  ghost predicate ConversationKeysUnique(cs: map<int, Conversation>)
  {
    forall j, k :: j in cs && k in cs && HasKey(cs[k], cs[j].profileOneId, cs[j].profileTwoId) ==> j == k
  }

  /** `createConversation`: the key is the body's `profileOneId` followed by
      the caller's profile id. An existing conversation is returned as it is
      (the update is empty); otherwise one is created, which needs both
      profiles to exist. */
  function CreateConversation(s: State, caller: Caller, profileOneId: int): (r: Result<(State, Conversation)>)
    ensures FindConversation(s, profileOneId, caller.profileId).Some? ==>
              r == Ok((s, s.conversations[FindConversation(s, profileOneId, caller.profileId).value]))
    ensures r.Ok? ==> HasKey(r.value.1, profileOneId, caller.profileId) && r.value.1 in r.value.0.conversations.Values
    ensures r.Ok? <==> FindConversation(s, profileOneId, caller.profileId).Some?
                       || (profileOneId in s.profiles && caller.profileId in s.profiles)
    ensures r.Fail? ==> r.error == RecordMissing
    ensures r.Ok? && FindConversation(s, profileOneId, caller.profileId).None? ==>
              r.value.0 == s.(conversations := s.conversations[s.nextId := r.value.1], nextId := s.nextId + 1)
              && r.value.1.id == s.nextId
  {
    match FindConversation(s, profileOneId, caller.profileId)
    case Some(k) => Ok((s, s.conversations[k]))
    case None =>
      if profileOneId !in s.profiles || caller.profileId !in s.profiles then Fail(RecordMissing)
      else
        var c := Conversation(s.nextId, profileOneId, caller.profileId);
        assert s.conversations[s.nextId := c][s.nextId] == c;
        Ok((s.(conversations := s.conversations[s.nextId := c], nextId := s.nextId + 1), c))
  }

  /** Creating a conversation keeps the keys unique, so a repeated request
      never adds a second row for its pair. */
  lemma CreateKeepsKeysUnique(s: State, caller: Caller, profileOneId: int)
    requires WellFormed(s) && ConversationKeysUnique(s.conversations)
    requires CreateConversation(s, caller, profileOneId).Ok?
    ensures ConversationKeysUnique(CreateConversation(s, caller, profileOneId).value.0.conversations)
  {
    if FindConversation(s, profileOneId, caller.profileId).None? {
      var cs := CreateConversation(s, caller, profileOneId).value.0.conversations;
      var k := s.nextId;
      assert k !in s.conversations;
      assert forall j :: j in s.conversations ==> !HasKey(s.conversations[j], profileOneId, caller.profileId);
    }
  }

  /** A second identical request changes nothing and returns the same
      conversation. */
  lemma CreateConversationIdempotent(s: State, caller: Caller, profileOneId: int)
    requires WellFormed(s)
    requires CreateConversation(s, caller, profileOneId).Ok?
    ensures var s1 := CreateConversation(s, caller, profileOneId).value.0;
      var c1 := CreateConversation(s, caller, profileOneId).value.1;
      CreateConversation(s1, caller, profileOneId) == Ok((s1, c1))
  {
    var s1 := CreateConversation(s, caller, profileOneId).value.0;
    var c1 := CreateConversation(s, caller, profileOneId).value.1;
    if FindConversation(s, profileOneId, caller.profileId).None? {
      var k := s.nextId;
      assert Below(s1.conversations, s1.nextId);
      var found := FindConversation(s1, profileOneId, caller.profileId);
      assert k in s1.conversations && HasKey(s1.conversations[k], profileOneId, caller.profileId);
      assert found.Some?;
      assert forall j :: j in s.conversations ==> !HasKey(s.conversations[j], profileOneId, caller.profileId);
      assert found.value == k;
    }
  }

  /** `getConversation`: the conversation keyed by the caller's profile id
      followed by the route's `profileTwoId`; none (answered with status 200
      and `null`) when there is no such row. */
  function GetConversation(s: State, caller: Caller, profileTwoId: int): (r: Option<Conversation>)
    ensures r.Some? ==> r.value in s.conversations.Values && HasKey(r.value, caller.profileId, profileTwoId)
    ensures r.None? && Below(s.conversations, s.nextId) ==>
              forall k :: k in s.conversations ==> !HasKey(s.conversations[k], caller.profileId, profileTwoId)
  {
    match FindConversation(s, caller.profileId, profileTwoId)
    case Some(k) => Some(s.conversations[k])
    case None => None
  }

  /** The pair is ordered: when profile `a` creates a conversation with
      profile `b` and no conversation keyed (a, b) exists, `b` finds it by
      asking for `a`, while `a` asking for `b` gets nothing. */
  lemma LookupIsOrdered(s: State, a: Caller, b: Caller)
    requires Below(s.conversations, s.nextId)
    requires a.profileId != b.profileId
    requires FindConversation(s, a.profileId, b.profileId).None?
    requires CreateConversation(s, a, b.profileId).Ok?
    ensures var s1 := CreateConversation(s, a, b.profileId).value.0;
      && GetConversation(s1, b, a.profileId) == Some(CreateConversation(s, a, b.profileId).value.1)
      && GetConversation(s1, a, b.profileId) == None
  {
    var c := Conversation(s.nextId, b.profileId, a.profileId);
    var found := FindConversation(s, b.profileId, a.profileId);
    if found.Some? {
      // An existing (b, a) row is returned as it is, and the state is unchanged.
      assert CreateConversation(s, a, b.profileId) == Ok((s, s.conversations[found.value]));
    } else {
      assert CreateConversation(s, a, b.profileId) == Ok((s.(conversations := s.conversations[s.nextId := c], nextId := s.nextId + 1), c));
      NewPairFound(s, c);
      NewPairHidesReverse(s, c);
    }
  }

  /** Storing a conversation under a fresh id makes its pair findable, and
      the lookup returns that id. */
  lemma NewPairFound(s: State, c: Conversation)
    requires Below(s.conversations, s.nextId)
    requires forall k :: k in s.conversations ==> !HasKey(s.conversations[k], c.profileOneId, c.profileTwoId)
    ensures FindConversation(s.(conversations := s.conversations[s.nextId := c], nextId := s.nextId + 1),
                             c.profileOneId, c.profileTwoId) == Some(s.nextId)
  {
    var s1 := s.(conversations := s.conversations[s.nextId := c], nextId := s.nextId + 1);
    assert Below(s1.conversations, s1.nextId);
    assert HasKey(s1.conversations[s.nextId], c.profileOneId, c.profileTwoId);
  }

  /** Storing the conversation keyed (b, a) does not make (a, b) findable. */
  lemma NewPairHidesReverse(s: State, c: Conversation)
    requires Below(s.conversations, s.nextId)
    requires c.profileOneId != c.profileTwoId
    requires forall k :: k in s.conversations ==> !HasKey(s.conversations[k], c.profileTwoId, c.profileOneId)
    ensures FindConversation(s.(conversations := s.conversations[s.nextId := c], nextId := s.nextId + 1),
                             c.profileTwoId, c.profileOneId) == None
  {
  }
}

=== FILE: errorhandling.dfy ===
/** The global error handler: how every error a handler raises becomes the
    JSON reply, in development and in production, with the formatters for
    zod issues and ORM errors. */
module ErrorHandling {
  import opened Base
  import opened Text
  import opened Validators

  /** What the reply carries besides its status: a message, or (in
      development) the error object itself, with its message and stack. */
  datatype Body = Message(text: string) | Details(error: Thrown)

  datatype Reply = Reply(statusCode: int, status: string, body: Body)

  /** An application error's `status`: "fail" when its code's decimal form
      starts with "4", otherwise "error". */
  function StatusOf(code: int): string
  {
    if code >= 0 && ShowNat(code)[0] == '4' then "fail" else "error"
  }

  /** Client-error codes read as "fail", server-error codes as "error". */
  lemma StatusOfClassifies(code: int)
    ensures 400 <= code < 600 ==> StatusOf(code) == (if code < 500 then "fail" else "error")
  {
    if 400 <= code < 600 {
      StatusDigits(code);
    }
  }

  lemma StatusDigits(code: int)
    requires 400 <= code < 600
    ensures ShowNat(code)[0] == ShowNat(code / 100)[0]
  {
    var h := ShowNat(code / 100);
    assert ShowNat(code / 10) == h + [('0' as int + (code / 10) % 10) as char];
    assert ShowNat(code) == ShowNat(code / 10) + [('0' as int + code % 10) as char];
    assert ShowNat(code)[0] == h[0];
  }

  // ---------------------------------------------------------------------------
  // zod issues

  /** Sets `key` in an ordered object: an existing key keeps its place and
      takes the new value; a new key goes last. */
  function Put(entries: seq<(string, string)>, key: string, value: string): seq<(string, string)>
  {
    if |entries| == 0 then [(key, value)]
    else if entries[0].0 == key then [(key, value)] + entries[1..]
    else [entries[0]] + Put(entries[1..], key, value)
  }

  /** The value an ordered object holds under `key`. */
  function Lookup(entries: seq<(string, string)>, key: string): Option<string>
  {
    if |entries| == 0 then None
    else if entries[0].0 == key then Some(entries[0].1)
    else Lookup(entries[1..], key)
  }

  function KeySet(entries: seq<(string, string)>): set<string>
  {
    set i | 0 <= i < |entries| :: entries[i].0
  }

  predicate DistinctKeys(entries: seq<(string, string)>)
  {
    forall i, j :: 0 <= i < j < |entries| ==> entries[i].0 != entries[j].0
  }

  /** `Object.assign({}, ...issues.map(i => ({ [i.path[0]]: i.message })))`. */
  function Merge(issues: seq<Issue>): seq<(string, string)>
  {
    if |issues| == 0 then []
    else Put(Merge(issues[..|issues| - 1]), issues[|issues| - 1].key, issues[|issues| - 1].message)
  }

  /** The message of the last issue with this key. */
  function LastMessage(issues: seq<Issue>, key: string): (r: Option<string>)
    ensures r.Some? ==> exists i :: 0 <= i < |issues| && issues[i].key == key && issues[i].message == r.value
                                    && forall j :: i < j < |issues| ==> issues[j].key != key
    ensures r.None? ==> key !in Keys(issues)
  {
    if |issues| == 0 then None
    else if issues[|issues| - 1].key == key then Some(issues[|issues| - 1].message)
    else
      var r := LastMessage(issues[..|issues| - 1], key);
      assert forall j :: 0 <= j < |issues| - 1 ==> issues[..|issues| - 1][j] == issues[j];
      r
  }

  lemma {:induction false} PutLookup(entries: seq<(string, string)>, key: string, value: string, other: string)
    ensures Lookup(Put(entries, key, value), other) == if other == key then Some(value) else Lookup(entries, other)
  {
    if |entries| > 0 && entries[0].0 != key {
      PutLookup(entries[1..], key, value, other);
      assert Put(entries, key, value)[1..] == Put(entries[1..], key, value);
    }
  }

  lemma KeySetCons(x: (string, string), p: seq<(string, string)>)
    ensures KeySet([x] + p) == {x.0} + KeySet(p)
  {
    var r := [x] + p;
    forall k | k in KeySet(r) ensures k in {x.0} + KeySet(p) {
      var i :| 0 <= i < |r| && r[i].0 == k;
      if i > 0 { assert r[i] == p[i - 1]; }
    }
    forall k | k in {x.0} + KeySet(p) ensures k in KeySet(r) {
      if k == x.0 {
        assert r[0] == x;
      } else {
        var i :| 0 <= i < |p| && p[i].0 == k;
        assert r[i + 1] == p[i];
      }
    }
  }

  /** Distinct keys: the head's key is not among the tail's, and the tail's
      keys are distinct. */
  lemma DistinctTail(entries: seq<(string, string)>)
    requires DistinctKeys(entries) && |entries| > 0
    ensures DistinctKeys(entries[1..])
    ensures entries[0].0 !in KeySet(entries[1..])
    ensures entries == [entries[0]] + entries[1..]
  {
    var tail := entries[1..];
    forall i, j | 0 <= i < j < |tail| ensures tail[i].0 != tail[j].0 {
      assert tail[i] == entries[i + 1] && tail[j] == entries[j + 1];
    }
    forall i | 0 <= i < |tail| ensures tail[i].0 != entries[0].0 {
      assert tail[i] == entries[i + 1];
    }
  }

  lemma {:induction false} PutKeys(entries: seq<(string, string)>, key: string, value: string)
    requires DistinctKeys(entries)
    ensures DistinctKeys(Put(entries, key, value))
    ensures KeySet(Put(entries, key, value)) == KeySet(entries) + {key}
  {
    if |entries| > 0 {
      var tail := entries[1..];
      DistinctTail(entries);
      KeySetCons(entries[0], tail);
      if entries[0].0 != key {
        PutKeys(tail, key, value);
        var p := Put(tail, key, value);
        var r := [entries[0]] + p;
        KeySetCons(entries[0], p);
        forall i, j | 0 <= i < j < |r| ensures r[i].0 != r[j].0 {
          assert r[j] == p[j - 1];
          if i > 0 {
            assert r[i] == p[i - 1];
          } else {
            assert p[j - 1].0 in KeySet(p);
          }
        }
      } else {
        var r := [(key, value)] + tail;
        KeySetCons((key, value), tail);
        forall i, j | 0 <= i < j < |r| ensures r[i].0 != r[j].0 {
          assert r[j] == entries[j];
          if i > 0 { assert r[i] == entries[i]; }
        }
      }
    } else {
      KeySetCons((key, value), []);
      assert Put(entries, key, value) == [(key, value)] + [];
    }
  }

  /** Each key of the merged object holds the message of the last issue with
      that key. */
  lemma {:induction false} MergeLookup(issues: seq<Issue>, key: string)
    ensures Lookup(Merge(issues), key) == LastMessage(issues, key)
  {
    if |issues| > 0 {
      var n := |issues| - 1;
      MergeLookup(issues[..n], key);
      PutLookup(Merge(issues[..n]), issues[n].key, issues[n].message, key);
    }
  }

  /** The merged object has one entry per distinct key. */
  lemma {:induction false} MergeKeys(issues: seq<Issue>)
    ensures DistinctKeys(Merge(issues))
    ensures KeySet(Merge(issues)) == Keys(issues)
  {
    if |issues| > 0 {
      var n := |issues| - 1;
      MergeKeys(issues[..n]);
      PutKeys(Merge(issues[..n]), issues[n].key, issues[n].message);
      assert issues == issues[..n] + [issues[n]];
      KeysAppend(issues[..n], [issues[n]]);
      assert Keys([issues[n]]) == {issues[n].key};
    }
  }

  lemma {:induction false} DistinctCount(entries: seq<(string, string)>)
    requires DistinctKeys(entries)
    ensures |KeySet(entries)| == |entries|
  {
    if |entries| > 0 {
      DistinctTail(entries);
      DistinctCount(entries[1..]);
      KeySetCons(entries[0], entries[1..]);
    }
  }

  function Names(entries: seq<(string, string)>): (r: seq<string>)
    ensures |r| == |entries| && forall i :: 0 <= i < |r| ==> r[i] == entries[i].0
  {
    seq(|entries|, i requires 0 <= i < |entries| => entries[i].0)
  }

  function Texts(entries: seq<(string, string)>): (r: seq<string>)
    ensures |r| == |entries| && forall i :: 0 <= i < |r| ==> r[i] == entries[i].1
  {
    seq(|entries|, i requires 0 <= i < |entries| => entries[i].1)
  }

  /** The word before the key list. */
  function FieldWord(issues: seq<Issue>): string
  {
    if |Merge(issues)| > 1 then "fields" else "field"
  }

  /** "fields" exactly when the issues name more than one distinct key. */
  lemma FieldWordCounts(issues: seq<Issue>)
    ensures FieldWord(issues) == "fields" <==> |Keys(issues)| > 1
  {
    MergeKeys(issues);
    DistinctCount(Merge(issues));
  }

  /** `handleZodError`: one key per distinct first path element, each with
      the message of its last issue; status 400. */
  function HandleZodError(issues: seq<Issue>): (r: Thrown)
    ensures r.AppError? && r.statusCode == 400
  {
    var m := Merge(issues);
    AppError(400, "Invalid " + FieldWord(issues) + ":{ " + Join(Names(m), ", ") + "} - {" + Join(Texts(m), ", ") + "}.")
  }

  /** Two issues on the same key leave one key, with the later message. */
  lemma ZodLaterMessageWins(a: Issue, b: Issue)
    requires a.key == b.key
    ensures Merge([a, b]) == [(b.key, b.message)]
    ensures HandleZodError([a, b]).message == "Invalid field:{ " + b.key + "} - {" + b.message + "}."
  {
    assert [a, b][..1] == [a];
    assert [a][..0] == [];
    assert Merge([a]) == [(a.key, a.message)];
    assert Merge([a, b]) == Put([(a.key, a.message)], b.key, b.message);
  }

  // ---------------------------------------------------------------------------
  // ORM errors

  const UniquePrefix: string := "This fields need to be unique: ("

  /** `fields.map(field => field.trim())`. */
  function TrimEach(parts: seq<string>): (r: seq<string>)
    ensures |r| == |parts| && forall i :: 0 <= i < |r| ==> r[i] == Trim(parts[i])
  {
    seq(|parts|, i requires 0 <= i < |parts| => Trim(parts[i]))
  }

  /** The field names of a unique-constraint message: the captured list split
      on commas, each name trimmed. */
  function UniqueFields(captured: string): (r: seq<string>)
    ensures |r| == Count(captured, ',') + 1
    ensures forall i :: 0 <= i < |r| ==> ',' !in r[i] && Trim(r[i]) == r[i]
  {
    var parts := Split(captured, ',');
    SplitLength(captured, ',');
    var r := TrimEach(parts);
    forall i | 0 <= i < |r| ensures ',' !in r[i] && Trim(r[i]) == r[i] {
      TrimIdempotent(parts[i]);
      TrimKeepsOut(parts[i], ',');
    }
    r
  }

  /** The message for a known-request error: the trimmed names joined with
      ", ", or "undefined" when the message named no fields. */
  function UniqueMessage(captured: Option<string>): string
  {
    UniquePrefix + (if captured.None? then "undefined" else Join(UniqueFields(captured.value), ", ")) + ")."
  }

  lemma TrimSpaceCons(x: string)
    ensures Trim(" " + x) == Trim(x)
  {
    assert (" " + x)[1..] == x;
    assert IsSpace((" " + x)[0]);
  }

  lemma TrimAfterSpace(x: string, y: string)
    requires Trim(x) == x && y == " " + x
    ensures Trim(y) == x
  {
    TrimSpaceCons(x);
  }

  function Spaced(xs: seq<string>): (r: seq<string>)
    ensures |r| == |xs| && forall i :: 0 <= i < |r| ==> r[i] == " " + xs[i]
  {
    seq(|xs|, i requires 0 <= i < |xs| => " " + xs[i])
  }

  /** Joining with ", " is joining with "," after a space before every name
      but the first. */
  lemma JoinCommaSpace(ns: seq<string>)
    requires |ns| >= 1
    ensures Join(ns, ", ") == Join([ns[0]] + Spaced(ns[1..]), ",")
  {
    if |ns| == 1 {
      JoinCommaSpaceOne(ns[0]);
      assert ns == [ns[0]];
    } else {
      JoinCommaSpaceMore(ns[0], ns[1..]);
      assert ns == [ns[0]] + ns[1..];
    }
  }

  lemma JoinCommaSpaceOne(n: string)
    ensures Join([n], ", ") == Join([n] + Spaced([]), ",")
  {
    assert [n] + Spaced([]) == [n];
  }

  lemma JoinCommaSpaceMore(n: string, tail: seq<string>)
    requires |tail| >= 1
    ensures Join([n] + tail, ", ") == Join([n] + Spaced(tail), ",")
  {
    JoinCons(n, tail, ", ");
    SpacedJoin(tail);
    JoinCons(n, Spaced(tail), ",");
    CommaSpace(n, Join(tail, ", "));
  }

  lemma CommaSpace(n: string, j: string)
    ensures n + ", " + j == n + "," + (" " + j)
  {
    assert ", " == "," + " ";
  }

  /** Joining the spaced names with "," is a space, then the names joined
      with ", ". */
  lemma {:induction false} SpacedJoin(xs: seq<string>)
    requires |xs| >= 1
    ensures Join(Spaced(xs), ",") == " " + Join(xs, ", ")
    decreases |xs|
  {
    var sp := Spaced(xs);
    if |xs| > 1 {
      var tail := xs[1..];
      calc {
        Join(sp, ",");
        { assert sp == [sp[0]] + Spaced(tail); JoinCons(sp[0], Spaced(tail), ","); }
        (" " + xs[0]) + "," + Join(Spaced(tail), ",");
        { SpacedJoin(tail); }
        (" " + xs[0]) + "," + (" " + Join(tail, ", "));
        " " + (xs[0] + ", " + Join(tail, ", "));
        { assert xs == [xs[0]] + tail; JoinCons(xs[0], tail, ", "); }
        " " + Join(xs, ", ");
      }
    }
  }

  /** Splitting a ", "-joined list of comma-free names on "," gives the
      names, each after the first with its leading space. */
  lemma SplitJoinedNames(ns: seq<string>)
    requires |ns| >= 1 && forall i :: 0 <= i < |ns| ==> ',' !in ns[i]
    ensures Split(Join(ns, ", "), ',') == [ns[0]] + Spaced(ns[1..])
  {
    var ms := [ns[0]] + Spaced(ns[1..]);
    JoinCommaSpace(ns);
    forall i | 0 <= i < |ms| ensures ',' !in ms[i] {
      if i > 0 { assert ms[i] == " " + ns[i]; }
    }
    SplitJoin(ms, ',');
  }

  /** Reading the listed names back gives the same names: the list the
      message shows is already normalised. */
  lemma UniqueFieldsIdempotent(captured: string)
    ensures UniqueFields(Join(UniqueFields(captured), ", ")) == UniqueFields(captured)
  {
    var ns := UniqueFields(captured);
    SplitJoinedNames(ns);
    UniqueFieldsSplit(Join(ns, ", "));
    TrimSpacedNames(ns);
  }

  lemma UniqueFieldsSplit(x: string)
    ensures UniqueFields(x) == TrimEach(Split(x, ','))
  {
  }

  /** Trimming names that are already trimmed, each after the first with a
      leading space, gives the names. */
  lemma TrimSpacedNames(ns: seq<string>)
    requires |ns| >= 1 && forall i :: 0 <= i < |ns| ==> Trim(ns[i]) == ns[i]
    ensures TrimEach([ns[0]] + Spaced(ns[1..])) == ns
  {
    var ms := [ns[0]] + Spaced(ns[1..]);
    forall i | 0 < i < |ns| ensures ms[i] == " " + ns[i] {
      assert ms[i] == Spaced(ns[1..])[i - 1];
    }
    TrimPadded(ns, ms);
  }

  lemma TrimPadded(ns: seq<string>, ms: seq<string>)
    requires |ns| >= 1 && forall i :: 0 <= i < |ns| ==> Trim(ns[i]) == ns[i]
    requires |ms| == |ns| && ms[0] == ns[0] && forall i :: 0 < i < |ns| ==> ms[i] == " " + ns[i]
    ensures TrimEach(ms) == ns
  {
    forall i | 0 <= i < |ns| ensures Trim(ms[i]) == ns[i] {
      if i > 0 {
        TrimAfterSpace(ns[i], ms[i]);
      }
    }
    TrimEachIs(ms, ns);
  }

  lemma TrimEachIs(ms: seq<string>, ns: seq<string>)
    requires |ms| == |ns| && forall i :: 0 <= i < |ms| ==> Trim(ms[i]) == ns[i]
    ensures TrimEach(ms) == ns
  {
  }

  /** A single trimmed name is shown as it is. */
  lemma UniqueMessageSingle(field: string)
    requires ',' !in field && Trim(field) == field
    ensures UniqueMessage(Some(field)) == UniquePrefix + field + ")."
  {
    assert Join([field], [',']) == field;
    SplitJoin([field], ',');
  }

  /** `handlePrismaError`: the AppError each kind of ORM error becomes; any
      other error falls through to a 500. */
  function HandlePrismaError(err: Thrown): (r: Thrown)
    ensures r.AppError?
    ensures err.PrismaKnownRequest? ==> r == AppError(400, UniqueMessage(err.capturedFields))
    ensures err.PrismaUnknownRequest? ==> r == AppError(500, err.message)
    ensures err.PrismaInitialization? ==>
              r.statusCode == 500 && (r.message == "Unable to connect to the database" <==> err.errorCode == "P1012")
    ensures err.PrismaRustPanic? ==>
              r.statusCode == 500 && r.message != "" && (err.message != "" ==> r.message == err.message)
    ensures err.PrismaValidation? ==> r.statusCode == 400
    ensures err.AppError? || err.ZodError? || err.JsonWebTokenError? || err.TokenExpiredError? || err.TypeError? ==>
              r == AppError(500, "Unknown Prisma Client Error")
  {
    match err
    case PrismaKnownRequest(fields) => AppError(400, UniqueMessage(fields))
    case PrismaUnknownRequest(m) => AppError(500, m)
    case PrismaInitialization(code) =>
      AppError(500, if code == "P1012" then "Unable to connect to the database" else "Prisma Client Initialization Error")
    case PrismaRustPanic(m) => AppError(500, if m != "" then m else "Panic Error")
    case PrismaValidation(field) =>
      AppError(400, "Missing required field: '" + (if field.None? then "undefined" else field.value) + "'.")
    case _ => AppError(500, "Unknown Prisma Client Error")
  }

  // ---------------------------------------------------------------------------
  // The handler

  /** `devError`: the error's own code (500 when it has none) and status
      ("error" when it has none), with the error itself. */
  function DevError(err: Thrown): (r: Reply)
    ensures r.body == Details(err)
    ensures r.statusCode == (if err.AppError? && err.statusCode != 0 then err.statusCode else 500)
    ensures !err.AppError? ==> r.status == "error"
    ensures err.AppError? && 400 <= err.statusCode < 600 ==> r.status == (if err.statusCode < 500 then "fail" else "error")
  {
    if err.AppError? then
      StatusOfClassifies(err.statusCode);
      Reply(if err.statusCode != 0 then err.statusCode else 500, StatusOf(err.statusCode), Details(err))
    else Reply(500, "error", Details(err))
  }

  /** `prodError`: an operational error is echoed; anything else is a bare
      500. */
  function ProdError(e: Thrown, operational: bool): (r: Reply)
    requires e.AppError?
    ensures operational ==> r == Reply(e.statusCode, StatusOf(e.statusCode), Message(e.message))
    ensures !operational ==> r == Reply(500, "error", Message("Something went wrong"))
  {
    if operational then Reply(e.statusCode, StatusOf(e.statusCode), Message(e.message))
    else Reply(500, "error", Message("Something went wrong"))
  }

  const InvalidToken: Thrown := AppError(401, "Invalid token, please login!")
  const ExpiredToken: Thrown := AppError(401, "Expired token, please login again!")

  /** `globalErrorHandler` as written. In production every error first goes
      through the ORM formatter; token and zod errors are then replaced by
      their own replies, and everything else, an application error
      included, is answered with what the ORM formatter made of it. */
  function GlobalErrorHandler(err: Thrown, development: bool): (r: Reply)
    ensures development ==> r == DevError(err)
    ensures !development && err.JsonWebTokenError? ==> r == Reply(401, "fail", Message("Invalid token, please login!"))
    ensures !development && err.TokenExpiredError? ==> r == Reply(401, "fail", Message("Expired token, please login again!"))
    ensures !development && err.ZodError? ==> r.statusCode == 400 && r.status == "fail"
    ensures !development && (err.AppError? || err.TypeError?) ==> r == Reply(500, "error", Message("Unknown Prisma Client Error"))
    ensures !development && !err.AppError? ==> r.body.Message? && r.status == StatusOf(r.statusCode)
  {
    if development then DevError(err)
    else
      var error := HandlePrismaError(err);
      StatusOfClassifies(401);
      StatusOfClassifies(400);
      StatusOfClassifies(500);
      if err.JsonWebTokenError? then ProdError(InvalidToken, true)
      else if err.TokenExpiredError? then ProdError(ExpiredToken, true)
      else if err.ZodError? then ProdError(HandleZodError(err.issues), true)
      else ProdError(error, true)
  }

  /** In production an application error loses its code and message: a 404
      "Post not found" reaches the client as a 500. */
  lemma AppErrorAnswered500(code: int, message: string)
    ensures GlobalErrorHandler(AppError(code, message), false).statusCode == 500
    ensures code == 404 ==> GlobalErrorHandler(AppError(code, message), false) != Reply(404, "fail", Message(message))
  {
  }

  /** The handler with application errors echoed in production, as the
      operational-error branch of `prodError` is evidently meant for. */
  function GlobalErrorHandlerIntended(err: Thrown, development: bool): (r: Reply)
    ensures !development && err.AppError? ==> r == Reply(err.statusCode, StatusOf(err.statusCode), Message(err.message))
    ensures development || !err.AppError? ==> r == GlobalErrorHandler(err, development)
  {
    if !development && err.AppError? then ProdError(err, true)
    else GlobalErrorHandler(err, development)
  }

  /** The corrected handler answers a client error with its own code, a
      "fail" status and its own message. */
  lemma IntendedEchoesClientErrors(code: int, message: string)
    requires 400 <= code < 500
    ensures GlobalErrorHandlerIntended(AppError(code, message), false) == Reply(code, "fail", Message(message))
  {
    StatusOfClassifies(code);
  }
}

=== FILE: likes.dfy ===
/** Like handlers: a like row and its target's `likesCount`, written together
    in one transaction. The push notification sent after a like is not part
    of this model. */
module Likes {
  import opened Base
  import opened Store

  /** The post or comment a like names is in the store. */
  predicate TargetExists(s: State, t: LikeTarget)
  {
    match t
    case OnPost(p) => p in s.posts
    case OnComment(c) => c in s.comments
  }

  /** The cached like counter of an existing target. */
  function LikesCount(s: State, t: LikeTarget): int
    requires TargetExists(s, t)
  {
    match t
    case OnPost(p) => s.posts[p].likesCount
    case OnComment(c) => s.comments[c].likesCount
  }

  /** `likesCount: { increment | decrement }` on the target's row. */
  function Bump(s: State, t: LikeTarget, delta: int): (r: State)
    requires TargetExists(s, t)
    ensures TargetExists(r, t) && LikesCount(r, t) == LikesCount(s, t) + delta
    ensures r.likes == s.likes && r.nextId == s.nextId && OnlyTargetCounterMoved(s, r, t)
  {
    match t
    case OnPost(p) => s.(posts := s.posts[p := s.posts[p].(likesCount := s.posts[p].likesCount + delta)])
    case OnComment(c) => s.(comments := s.comments[c := s.comments[c].(likesCount := s.comments[c].likesCount + delta)])
  }

  /** Between `s` and `s'` only the like table, the id counter and the
      `likesCount` of target `t` may differ. */
  ghost predicate OnlyTargetCounterMoved(s: State, s': State, t: LikeTarget)
  {
    && s' == s.(likes := s'.likes, posts := s'.posts, comments := s'.comments, nextId := s'.nextId)
    && s'.posts.Keys == s.posts.Keys && s'.comments.Keys == s.comments.Keys
    && (forall p :: p in s.posts ==>
          s'.posts[p] == s.posts[p].(likesCount := s'.posts[p].likesCount)
          && (OnPost(p) != t ==> s'.posts[p] == s.posts[p]))
    && (forall c :: c in s.comments ==>
          s'.comments[c] == s.comments[c].(likesCount := s'.comments[c].likesCount)
          && (OnComment(c) != t ==> s'.comments[c] == s.comments[c]))
  }

  /** The transaction of `likePost`/`likeComment`: create the like row (both
      foreign keys must resolve) and raise the target's counter by one. */
  function AddLike(s: State, t: LikeTarget, profileId: int): (r: Result<State>)
    ensures r.Ok? <==> TargetExists(s, t) && profileId in s.profiles
    ensures r.Fail? ==> r.error == RecordMissing
    ensures r.Ok? ==> r.value.likes == s.likes[s.nextId := Like(s.nextId, profileId, t)]
                      && r.value.nextId == s.nextId + 1
    ensures r.Ok? ==> TargetExists(r.value, t) && LikesCount(r.value, t) == LikesCount(s, t) + 1
    ensures r.Ok? ==> OnlyTargetCounterMoved(s, r.value, t)
  {
    if !TargetExists(s, t) || profileId !in s.profiles then Fail(RecordMissing)
    else
      var id := s.nextId;
      Ok(Bump(s.(likes := s.likes[id := Like(id, profileId, t)], nextId := id + 1), t, 1))
  }

  /** The transaction of `unlikePost`/`unlikeComment` as written: delete the
      like with id `likeId` and lower the counter of the target named in the
      body. Nothing relates the two. */
  function RemoveLike(s: State, likeId: int, t: LikeTarget): (r: Result<State>)
    ensures r.Ok? <==> likeId in s.likes && TargetExists(s, t)
    ensures r.Fail? ==> r.error == RecordMissing
    ensures r.Ok? ==> r.value.likes == s.likes - {likeId} && r.value.nextId == s.nextId
    ensures r.Ok? ==> TargetExists(r.value, t) && LikesCount(r.value, t) == LikesCount(s, t) - 1
    ensures r.Ok? ==> OnlyTargetCounterMoved(s, r.value, t)
  {
    if likeId !in s.likes || !TargetExists(s, t) then Fail(RecordMissing)
    else Ok(Bump(s.(likes := s.likes - {likeId}), t, -1))
  }

  /** `likePost`: body `postId` and `profileId`. */
  function LikePost(s: State, postId: int, profileId: int): (r: Result<State>)
    ensures r.Ok? <==> postId in s.posts && profileId in s.profiles
    ensures r.Ok? ==> postId in r.value.posts && r.value.posts[postId].likesCount == s.posts[postId].likesCount + 1
                      && r.value.comments == s.comments
                      && s.nextId in r.value.likes && r.value.likes[s.nextId].target == OnPost(postId)
  {
    AddLike(s, OnPost(postId), profileId)
  }

  /** `unlikePost`: route parameter `id` names the like, body `postId` the post. */
  function UnlikePost(s: State, likeId: int, postId: int): (r: Result<State>)
    ensures r.Ok? <==> likeId in s.likes && postId in s.posts
    ensures r.Ok? ==> postId in r.value.posts && r.value.posts[postId].likesCount == s.posts[postId].likesCount - 1
                      && r.value.comments == s.comments && likeId !in r.value.likes
  {
    RemoveLike(s, likeId, OnPost(postId))
  }

  /** `likeComment`: body `commentId` and `profileId`. */
  function LikeComment(s: State, commentId: int, profileId: int): (r: Result<State>)
    ensures r.Ok? <==> commentId in s.comments && profileId in s.profiles
    ensures r.Ok? ==> commentId in r.value.comments && r.value.comments[commentId].likesCount == s.comments[commentId].likesCount + 1
                      && r.value.posts == s.posts
                      && s.nextId in r.value.likes && r.value.likes[s.nextId].target == OnComment(commentId)
  {
    AddLike(s, OnComment(commentId), profileId)
  }

  /** `unlikeComment`: route parameter `id` names the like, body `commentId` the comment. */
  function UnlikeComment(s: State, likeId: int, commentId: int): (r: Result<State>)
    ensures r.Ok? <==> likeId in s.likes && commentId in s.comments
    ensures r.Ok? ==> commentId in r.value.comments && r.value.comments[commentId].likesCount == s.comments[commentId].likesCount - 1
                      && r.value.posts == s.posts && likeId !in r.value.likes
  {
    RemoveLike(s, likeId, OnComment(commentId))
  }

  // ---------------------------------------------------------------------------
  // The counter invariant.

  /** Moving one target's like rows and its counter by the same amount keeps
      every counter equal to its row count. */
  lemma CountersAfterMove(s: State, s': State, t: LikeTarget)
    requires LikeCountersConsistent(s) && TargetExists(s, t) && OnlyTargetCounterMoved(s, s', t)
    requires forall u :: u != t ==> LikesOn(s'.likes, u) == LikesOn(s.likes, u)
    requires |LikesOn(s'.likes, t)| - |LikesOn(s.likes, t)| == LikesCount(s', t) - LikesCount(s, t)
    ensures LikeCountersConsistent(s')
  {
    forall p | p in s'.posts ensures s'.posts[p].likesCount == |LikesOn(s'.likes, OnPost(p))| {
      assert p in s.posts;
    }
    forall c | c in s'.comments ensures s'.comments[c].likesCount == |LikesOn(s'.likes, OnComment(c))| {
      assert c in s.comments;
    }
  }

  /** A like keeps every like counter equal to the number of like rows on its
      target. */
  lemma AddLikeKeepsCounters(s: State, t: LikeTarget, profileId: int)
    requires Below(s.likes, s.nextId) && LikeCountersConsistent(s)
    requires AddLike(s, t, profileId).Ok?
    ensures LikeCountersConsistent(AddLike(s, t, profileId).value)
  {
    var s' := AddLike(s, t, profileId).value;
    var k := s.nextId;
    var l := Like(k, profileId, t);
    forall u ensures LikesOn(s'.likes, u) == if t == u then LikesOn(s.likes, u) + {k} else LikesOn(s.likes, u) {
      LikesOnInsert(s.likes, k, l, u);
    }
    assert k !in LikesOn(s.likes, t);
    CardInsert(LikesOn(s.likes, t), k);
    CountersAfterMove(s, s', t);
  }

  /** A like keeps the store well formed: the new row's id is fresh and its
      target is an existing row. */
  lemma AddLikeKeepsWellFormed(s: State, t: LikeTarget, profileId: int)
    requires WellFormed(s)
    requires AddLike(s, t, profileId).Ok?
    ensures WellFormed(AddLike(s, t, profileId).value)
  {
    assert TargetId(t) < s.nextId by {
      match t
      case OnPost(p) => assert p in s.posts;
      case OnComment(c) => assert c in s.comments;
    }
  }

  /** An unlike keeps the counters exact when the deleted like is on the
      target whose counter is lowered, which the handler does not check. */
  lemma RemoveLikeKeepsCounters(s: State, likeId: int, t: LikeTarget)
    requires WellFormed(s) && LikeCountersConsistent(s)
    requires RemoveLike(s, likeId, t).Ok?
    requires s.likes[likeId].target == t
    ensures WellFormed(RemoveLike(s, likeId, t).value)
    ensures LikeCountersConsistent(RemoveLike(s, likeId, t).value)
  {
    var s' := RemoveLike(s, likeId, t).value;
    forall u ensures LikesOn(s'.likes, u) == if t == u then LikesOn(s.likes, u) - {likeId} else LikesOn(s.likes, u) {
      LikesOnRemove(s.likes, likeId, u);
    }
    CardRemove(LikesOn(s.likes, t), likeId);
    CountersAfterMove(s, s', t);
  }

  /** Unliking with a like that sits on another target leaves the named
      target's counter one below its row count. */
  lemma RemoveLikeDrifts(s: State, likeId: int, t: LikeTarget)
    requires LikeCountersConsistent(s)
    requires RemoveLike(s, likeId, t).Ok?
    requires s.likes[likeId].target != t
    ensures var s' := RemoveLike(s, likeId, t).value;
      LikesCount(s', t) == |LikesOn(s'.likes, t)| - 1
  {
    var s' := RemoveLike(s, likeId, t).value;
    LikesOnRemove(s.likes, likeId, t);
    match t
    case OnPost(p) => assert s.posts[p].likesCount == |LikesOn(s.likes, t)|;
    case OnComment(c) => assert s.comments[c].likesCount == |LikesOn(s.likes, t)|;
  }

  /** Unlike as intended: the counter lowered is the one of the target the
      like row itself names. */
  function RemoveOwnLike(s: State, likeId: int): (r: Result<State>)
    ensures r.Ok? <==> likeId in s.likes && TargetExists(s, s.likes[likeId].target)
    ensures r.Ok? ==> r == RemoveLike(s, likeId, s.likes[likeId].target)
  {
    if likeId !in s.likes then Fail(RecordMissing)
    else RemoveLike(s, likeId, s.likes[likeId].target)
  }

  /** With the intended unlike, the counters stay exact for every input. */
  lemma RemoveOwnLikeKeepsCounters(s: State, likeId: int)
    requires WellFormed(s) && LikeCountersConsistent(s)
    requires RemoveOwnLike(s, likeId).Ok?
    ensures WellFormed(RemoveOwnLike(s, likeId).value)
    ensures LikeCountersConsistent(RemoveOwnLike(s, likeId).value)
  {
    RemoveLikeKeepsCounters(s, likeId, s.likes[likeId].target);
  }

  /** Liking and then removing that like restores every table; only the id
      counter has moved on. */
  lemma LikeThenUnlike(s: State, t: LikeTarget, profileId: int)
    requires Below(s.likes, s.nextId)
    requires AddLike(s, t, profileId).Ok?
    ensures RemoveLike(AddLike(s, t, profileId).value, s.nextId, t) == Ok(s.(nextId := s.nextId + 1))
  {
    var k := s.nextId;
    var x := s.(likes := s.likes[k := Like(k, profileId, t)], nextId := k + 1);
    var s1 := Bump(x, t, 1);
    assert AddLike(s, t, profileId) == Ok(s1);
    assert s1.likes - {k} == s.likes by {
      assert k !in s.likes;
    }
    BumpBack(x, t, s.likes);
  }

  /** Raising a counter and lowering it again restores it. */
  lemma BumpBack(x: State, t: LikeTarget, likes: map<int, Like>)
    requires TargetExists(x, t)
    ensures Bump(Bump(x, t, 1).(likes := likes), t, -1) == x.(likes := likes)
  {
    match t
    case OnPost(p) =>
      assert Bump(Bump(x, t, 1).(likes := likes), t, -1).posts == x.posts;
    case OnComment(c) =>
      assert Bump(Bump(x, t, 1).(likes := likes), t, -1).comments == x.comments;
  }
}

=== FILE: messages.dfy ===
/** Messages: sending (with the uploaded media lists), the soft delete, and
    the per-conversation listing. */
module Messages {
  import opened Base
  import opened Store
  import opened Validators

  /** The body of `sendMessage`, with the uploaded media URLs. */
  datatype MessageRequest = MessageRequest(
    content: Option<Value>, conversationId: int, images: Option<seq<string>>, videos: Option<seq<string>>)

  /** `sendMessage`: the body passes `messageSchema` before anything is
      written; the message is created undelivered and not deleted, with one
      image row per uploaded photo and one video row per uploaded video, in
      upload order. */
  function SendMessage(s: State, req: MessageRequest, f: Formats): (r: Result<State>)
    ensures !TextBetween(req.content, 1, 255) ==> r.Fail? && r.error.ZodError? && Keys(r.error.issues) == {"content"}
    ensures r.Ok? <==> TextBetween(req.content, 1, 255) && req.conversationId in s.conversations
    ensures r.Fail? && TextBetween(req.content, 1, 255) ==> r.error == RecordMissing
    ensures r.Ok? ==> r.value == s.(messages := r.value.messages, nextId := s.nextId + 1)
    ensures r.Ok? ==> r.value.messages == s.messages[s.nextId := Message(s.nextId, req.conversationId, req.content.value.text,
                                          MediaOrNone(req.images), MediaOrNone(req.videos), false, false)]
  {
    match ParseMessage(MessageInput(req.content, Some(Num(req.conversationId)), req.images, req.videos), f)
    case Fail(e) => Fail(e)
    case Ok(d) =>
      if d.conversationId !in s.conversations then Fail(RecordMissing)
      else
        var m := Message(s.nextId, d.conversationId, d.content, MediaOrNone(d.images), MediaOrNone(d.videos), false, false);
        Ok(s.(messages := s.messages[s.nextId := m], nextId := s.nextId + 1))
  }

  /** `deleteMessage`: a soft delete that only raises `isDeleted`; updating
      a missing row is an ORM error. */
  function DeleteMessage(s: State, id: int): (r: Result<State>)
    ensures id !in s.messages ==> r == Fail(RecordMissing)
    ensures id in s.messages ==> r.Ok? && r.value == s.(messages := s.messages[id := s.messages[id].(isDeleted := true)])
  {
    if id !in s.messages then Fail(RecordMissing)
    else Ok(s.(messages := s.messages[id := s.messages[id].(isDeleted := true)]))
  }

  /** The row stays, marked deleted, with everything else it holds kept, and
      deleting it again changes nothing. */
  lemma DeleteMessageIdempotent(s: State, id: int)
    requires id in s.messages
    ensures var s1 := DeleteMessage(s, id).value;
      && id in s1.messages && s1.messages[id].isDeleted
      && s1.messages[id].content == s.messages[id].content
      && DeleteMessage(s1, id) == Ok(s1)
  {
    var s1 := DeleteMessage(s, id).value;
    assert s1.messages[id := s1.messages[id].(isDeleted := true)] == s1.messages;
  }

  /** The `where: { conversationId }` filter of `getMessages`. */
  function InConversation(conversationId: int): Message -> bool
  {
    (m: Message) => m.conversationId == conversationId
  }

  /** `getMessages`: the conversation's messages in id order (the query
      names no order), paged with `Number(q) || default`. */
  function GetMessages(s: State, conversationId: int, limit: Query, skip: Query): (r: seq<Message>)
    ensures |r| <= NumberOrDefault(limit, 10)
    ensures forall i :: 0 <= i < |r| ==> r[i] in s.messages.Values && r[i].conversationId == conversationId
    ensures r == Page(Rows(s.messages, s.nextId, InConversation(conversationId)),
                      NumberOrDefault(skip, 0), NumberOrDefault(limit, 10))
  {
    var all := Rows(s.messages, s.nextId, InConversation(conversationId));
    Page(all, NumberOrDefault(skip, 0), NumberOrDefault(limit, 10))
  }

  /** With no paging parameters, a conversation of at most ten messages is
      listed whole. */
  lemma GetMessagesListsSmallConversation(s: State, conversationId: int, k: int)
    requires WellFormed(s)
    requires k in s.messages && s.messages[k].conversationId == conversationId
    requires |Rows(s.messages, s.nextId, InConversation(conversationId))| <= 10
    ensures s.messages[k] in GetMessages(s, conversationId, Absent, Absent)
  {
    var all := Rows(s.messages, s.nextId, InConversation(conversationId));
    assert Page(all, 0, 10) == all;
  }

  /** A sent message is the newest of its conversation: listing the
      conversation afterwards gives the earlier messages, then this one. */
  lemma SendAppendsToConversation(s: State, req: MessageRequest, f: Formats)
    requires Below(s.messages, s.nextId)
    requires SendMessage(s, req, f).Ok?
    ensures var s1 := SendMessage(s, req, f).value;
      && s.nextId in s1.messages
      && s1.messages[s.nextId].content == req.content.value.text
      && Rows(s1.messages, s1.nextId, InConversation(req.conversationId))
         == Rows(s.messages, s.nextId, InConversation(req.conversationId)) + [s1.messages[s.nextId]]
  {
    var s1 := SendMessage(s, req, f).value;
    RowsAfterInsert(s.messages, s.nextId, s1.messages[s.nextId], InConversation(req.conversationId));
  }

  /** Deleting a message just sent keeps it in the table, marked deleted,
      with the text it was sent with. */
  lemma SendThenDelete(s: State, req: MessageRequest, f: Formats)
    requires SendMessage(s, req, f).Ok?
    ensures var s1 := SendMessage(s, req, f).value;
      && DeleteMessage(s1, s.nextId).Ok?
      && var s2 := DeleteMessage(s1, s.nextId).value;
      && s2.messages[s.nextId].isDeleted
      && s2.messages[s.nextId].content == req.content.value.text
      && s2.messages[s.nextId].conversationId == req.conversationId
      && s2.messages - {s.nextId} == s.messages - {s.nextId}
  {
  }
}

=== FILE: posts.dfy ===
/** Post handlers: creation with its media lists, the authorship checks of
    update and delete, sharing and the `shares` counter, and the two
    listings (a profile's posts, the caller's feed). */
module Posts {
  import opened Base
  import opened Text
  import opened Store
  import opened Validators
  import opened ErrorHandling

  /** The body of `createPost`, with the uploaded media URLs. */
  datatype PostRequest = PostRequest(
    content: Option<Value>, authorId: int, images: Option<seq<string>>, videos: Option<seq<string>>)

  /** `createPost`: the body passes `postSchema` (no privacy is sent, so the
      schema's default applies), then the post is created with one image row
      per uploaded photo and one video row per uploaded video. The create
      names no privacy, so the column's default, PUBLIC, is stored. */
  function CreatePost(s: State, req: PostRequest, now: int, f: Formats): (r: Result<State>)
    ensures !TextBetween(req.content, 1, 255) ==> r.Fail? && r.error.ZodError? && Keys(r.error.issues) == {"content"}
    ensures r.Ok? <==> TextBetween(req.content, 1, 255) && req.authorId in s.profiles
    ensures r.Fail? && TextBetween(req.content, 1, 255) ==> r.error == RecordMissing
    ensures r.Ok? ==> s.nextId in r.value.posts
    ensures r.Ok? ==>
      && r.value == s.(posts := s.posts[s.nextId := r.value.posts[s.nextId]], nextId := s.nextId + 1)
      && var p := r.value.posts[s.nextId];
         && p.id == s.nextId && p.authorId == req.authorId && p.content == req.content.value.text
         && p.privacy == Public && p.publishedAt == now
         && p.images == MediaOrNone(req.images) && p.videos == MediaOrNone(req.videos)
         && p.likesCount == 0 && p.commentsCount == 0 && p.shares == 0
  {
    match ParsePost(PostInput(req.content, None, Some(Num(req.authorId)), req.images, req.videos), f)
    case Fail(e) => Fail(e)
    case Ok(d) =>
      if d.authorId !in s.profiles then Fail(RecordMissing)
      else
        var p := Post(s.nextId, d.authorId, d.content, Public, now, MediaOrNone(d.images), MediaOrNone(d.videos),
                      true, true, 0, 0, 0);
        Ok(s.(posts := s.posts[s.nextId := p], nextId := s.nextId + 1))
  }

  /** `createPost` as a whole: the create, then `mentions.length`, which
      throws once the post is stored when the body carries no `mentions`
      list. The pushes to mentioned profiles are taken to succeed. The reply
      is the stored post. */
  function CreatePostRequest(s: State, req: PostRequest, mentions: ListField<int>, now: int, f: Formats)
    : (r: Outcome<Post>)
    ensures CreatePost(s, req, now, f).Fail? ==> r == Outcome(s, Fail(CreatePost(s, req, now, f).error))
    ensures CreatePost(s, req, now, f).Ok? ==> r.store == CreatePost(s, req, now, f).value
    ensures r.reply.Ok? <==> CreatePost(s, req, now, f).Ok? && mentions.Listed?
    ensures r.reply.Ok? ==> s.nextId in r.store.posts && r.reply.value == r.store.posts[s.nextId]
    ensures r.reply.Fail? && CreatePost(s, req, now, f).Ok? ==> r.reply.error.TypeError?
  {
    match CreatePost(s, req, now, f)
    case Fail(e) => Outcome(s, Fail(e))
    case Ok(s') =>
      match ListLength(mentions)
      case Fail(e) => Outcome(s', Fail(e))
      case Ok(_) => Outcome(s', Ok(s'.posts[s.nextId]))
  }

  /** A valid body without `mentions` stores the post, yet the client is
      answered with a server error: a 500 in development and in production. */
  lemma MissingMentionsStoredYetFails(s: State, req: PostRequest, now: int, f: Formats, development: bool)
    requires CreatePost(s, req, now, f).Ok?
    ensures var r := CreatePostRequest(s, req, Missing, now, f);
      && s.nextId in r.store.posts && r.store.posts[s.nextId].content == req.content.value.text
      && r.reply.Fail? && GlobalErrorHandler(r.reply.error, development).statusCode == 500
  {
  }

  /** `deletePost`: 404 for a missing post, 403 unless the caller's profile
      wrote it; then the row is deleted. */
  function DeletePost(s: State, caller: Caller, id: int): (r: Result<State>)
    ensures id !in s.posts ==> r == Fail(AppError(404, "No post found with that ID"))
    ensures id in s.posts && s.posts[id].authorId != caller.profileId
            ==> r == Fail(AppError(403, "You are not authorized to delete this post"))
    ensures r.Ok? <==> id in s.posts && s.posts[id].authorId == caller.profileId
    ensures r.Ok? ==> r.value == s.(posts := s.posts - {id})
  {
    if id !in s.posts then Fail(AppError(404, "No post found with that ID"))
    else if s.posts[id].authorId != caller.profileId then Fail(AppError(403, "You are not authorized to delete this post"))
    else Ok(s.(posts := s.posts - {id}))
  }

  /** Creating a post and deleting it as its author restores every table;
      only the id counter has moved on. */
  lemma CreateThenDelete(s: State, req: PostRequest, now: int, f: Formats)
    requires WellFormed(s)
    requires CreatePost(s, req, now, f).Ok?
    ensures DeletePost(CreatePost(s, req, now, f).value, Caller(0, req.authorId), s.nextId) == Ok(s.(nextId := s.nextId + 1))
  {
    var s1 := CreatePost(s, req, now, f).value;
    assert s.nextId !in s.posts;
    assert s1.posts - {s.nextId} == s.posts;
  }

  /** The body of `updatePost`. */
  datatype UpdateRequest = UpdateRequest(
    content: Option<string>, authorId: int, images: Option<seq<string>>, videos: Option<seq<string>>)

  /** The update `updatePost` writes: the content when one is sent (the ORM
      skips an undefined field), and the uploaded media appended to the
      post's own. */
  function Edited(p: Post, req: UpdateRequest): Post
  {
    p.(content := if req.content.Some? then req.content.value else p.content,
       images := p.images + MediaOrNone(req.images),
       videos := p.videos + MediaOrNone(req.videos))
  }

  /** `updatePost` as written: 404, then 403 unless the body's `authorId` is
      the author, then 403 unless the caller's USER id is the author (a
      profile id). The response carries the post as read before the update. */
  function UpdatePost(s: State, caller: Caller, id: int, req: UpdateRequest): (r: Result<(State, Post)>)
    ensures id !in s.posts ==> r == Fail(AppError(404, "No post found with that ID"))
    ensures r.Ok? <==> id in s.posts && s.posts[id].authorId == req.authorId && s.posts[id].authorId == caller.userId
    ensures r.Fail? && id in s.posts ==> r == Fail(AppError(403, "You are not authorized to update this post"))
    ensures r.Ok? ==> r.value.1 == s.posts[id]
    ensures r.Ok? ==> id in r.value.0.posts
    ensures r.Ok? ==> var p := r.value.0.posts[id];
      && r.value.0 == s.(posts := s.posts[id := p])
      && p == s.posts[id].(content := p.content, images := p.images, videos := p.videos)
      && (req.content.Some? ==> p.content == req.content.value)
      && (req.content.None? ==> p.content == s.posts[id].content)
      && p.images == s.posts[id].images + MediaOrNone(req.images)
      && p.videos == s.posts[id].videos + MediaOrNone(req.videos)
  {
    if id !in s.posts then Fail(AppError(404, "No post found with that ID"))
    else if s.posts[id].authorId != req.authorId then Fail(AppError(403, "You are not authorized to update this post"))
    else if s.posts[id].authorId != caller.userId then Fail(AppError(403, "You are not authorized to update this post"))
    else
      var before := s.posts[id];
      var p := Edited(before, req);
      Ok((s.(posts := s.posts[id := p]), before))
  }

  /** When the caller's user and profile ids differ, the author, sending
      their own profile id as `authorId`, may not update their post. */
  lemma UpdatePostRefusesAuthor(s: State, caller: Caller, id: int, req: UpdateRequest)
    requires id in s.posts && s.posts[id].authorId == caller.profileId && req.authorId == caller.profileId
    requires caller.userId != caller.profileId
    ensures UpdatePost(s, caller, id, req) == Fail(AppError(403, "You are not authorized to update this post"))
  {
  }

  /** `updatePost` as intended: the author is the caller's profile. */
  function UpdatePostIntended(s: State, caller: Caller, id: int, req: UpdateRequest): (r: Result<(State, Post)>)
    ensures r.Ok? <==> id in s.posts && s.posts[id].authorId == req.authorId && s.posts[id].authorId == caller.profileId
    ensures r.Ok? ==> r.value.1 == s.posts[id] && r.value.0 == s.(posts := s.posts[id := Edited(s.posts[id], req)])
  {
    if id !in s.posts then Fail(AppError(404, "No post found with that ID"))
    else if s.posts[id].authorId != req.authorId then Fail(AppError(403, "You are not authorized to update this post"))
    else if s.posts[id].authorId != caller.profileId then Fail(AppError(403, "You are not authorized to update this post"))
    else Ok((s.(posts := s.posts[id := Edited(s.posts[id], req)]), s.posts[id]))
  }

  /** With the intended check, a caller whose profile wrote the post and who
      names it as `authorId` may update it, whatever their user id. */
  lemma UpdateIntendedAdmitsAuthor(s: State, caller: Caller, id: int, req: UpdateRequest)
    requires id in s.posts && s.posts[id].authorId == caller.profileId && req.authorId == caller.profileId
    ensures UpdatePostIntended(s, caller, id, req).Ok?
  {
  }

  /** An update edits only the post's content and media: counters and
      settings are kept, and an update without content or uploads rewrites
      nothing. */
  lemma EmptyUpdateChangesNothing(s: State, caller: Caller, id: int, authorId: int)
    requires UpdatePost(s, caller, id, UpdateRequest(None, authorId, None, None)).Ok?
    ensures UpdatePost(s, caller, id, UpdateRequest(None, authorId, None, None)).value == (s, s.posts[id])
  {
    var p := Edited(s.posts[id], UpdateRequest(None, authorId, None, None));
    assert p == s.posts[id];
    assert s.posts[id := p] == s.posts;
  }

  // ---------------------------------------------------------------------------
  // Sharing

  /** Ids of the share rows of one post. */
  function SharesOf(shares: map<int, Share>, postId: int): set<int>
  {
    set k | k in shares && shares[k].postId == postId
  }

  /** Every post's `shares` counter equals its number of share rows. */
  ghost predicate ShareCountsExact(s: State)
  {
    forall p :: p in s.posts ==> s.posts[p].shares == |SharesOf(s.shares, p)|
  }

  /** `sharePost`: 404 for a missing post, 403 when sharing is off; then a
      share row for the profile and `shares + 1`, in one transaction. */
  function SharePost(s: State, profileId: int, postId: int): (r: Result<State>)
    ensures postId !in s.posts ==> r == Fail(AppError(404, "No post found with that ID"))
    ensures postId in s.posts && !s.posts[postId].sharesEnabled ==> r == Fail(AppError(403, "This post cannot be shared"))
    ensures r.Ok? <==> postId in s.posts && s.posts[postId].sharesEnabled && profileId in s.profiles
    ensures r.Ok? ==>
      && r.value.shares == s.shares[s.nextId := Share(s.nextId, profileId, postId)]
      && postId in r.value.posts && r.value.posts[postId] == s.posts[postId].(shares := s.posts[postId].shares + 1)
      && r.value == s.(shares := r.value.shares, posts := s.posts[postId := r.value.posts[postId]], nextId := s.nextId + 1)
  {
    if postId !in s.posts then Fail(AppError(404, "No post found with that ID"))
    else if !s.posts[postId].sharesEnabled then Fail(AppError(403, "This post cannot be shared"))
    else if profileId !in s.profiles then Fail(RecordMissing)
    else
      var p := s.posts[postId];
      Ok(s.(shares := s.shares[s.nextId := Share(s.nextId, profileId, postId)],
            posts := s.posts[postId := p.(shares := p.shares + 1)],
            nextId := s.nextId + 1))
  }

  /** A share keeps every `shares` counter exact. */
  lemma SharePostKeepsShareCounts(s: State, profileId: int, postId: int)
    requires Below(s.shares, s.nextId) && ShareCountsExact(s)
    requires SharePost(s, profileId, postId).Ok?
    ensures ShareCountsExact(SharePost(s, profileId, postId).value)
  {
    var s' := SharePost(s, profileId, postId).value;
    var k := s.nextId;
    assert k !in s.shares;
    forall p | p in s'.posts ensures s'.posts[p].shares == |SharesOf(s'.shares, p)| {
      SharesOfInsert(s.shares, k, Share(k, profileId, postId), p);
      if p == postId {
        CardInsert(SharesOf(s.shares, p), k);
      }
    }
  }

  /** A new share row adds its id to the shares of its post only. */
  lemma SharesOfInsert(shares: map<int, Share>, k: int, sh: Share, p: int)
    requires k !in shares
    ensures SharesOf(shares[k := sh], p) == if sh.postId == p then SharesOf(shares, p) + {k} else SharesOf(shares, p)
  {
  }

  // ---------------------------------------------------------------------------
  // Listings

  /** `req.query.privacy` as a filter: absent means no filter; a value that
      is not an enum member is refused by the ORM. */
  function PrivacyFilter(q: Query): (r: Result<Option<Privacy>>)
    ensures q.Absent? ==> r == Ok(None)
    ensures r.Ok? && r.value.Some? ==> q == Given(PrivacyName(r.value.value))
    ensures q.Given? ==> (r.Ok? <==> PrivacyOf(q.text).Some?)
  {
    match q
    case Absent => Ok(None)
    case Given(t) =>
      match PrivacyOf(t)
      case Some(p) => Ok(Some(p))
      case None => Fail(PrismaValidation(None))
  }

  predicate ByAuthor(p: Post, authorId: int, privacy: Option<Privacy>)
  {
    p.authorId == authorId && (privacy.Some? ==> p.privacy == privacy.value)
  }

  /** `getPostsForProfile`: the profile's posts, of the requested privacy if
      one is given, in id order (the query names no order), paged with
      `Number(q) || default`. */
  function GetPostsForProfile(s: State, profileId: int, limit: Query, skip: Query, privacy: Query): (r: Result<seq<Post>>)
    ensures r.Ok? <==> PrivacyFilter(privacy).Ok?
    ensures r.Ok? ==> |r.value| <= NumberOrDefault(limit, 10)
    ensures r.Ok? ==> forall i :: 0 <= i < |r.value| ==>
              r.value[i] in s.posts.Values && ByAuthor(r.value[i], profileId, PrivacyFilter(privacy).value)
    ensures r.Ok? ==> var all := Rows(s.posts, s.nextId, p => ByAuthor(p, profileId, PrivacyFilter(privacy).value));
              r.value == Page(all, NumberOrDefault(skip, 0), NumberOrDefault(limit, 10))
  {
    match PrivacyFilter(privacy)
    case Fail(e) => Fail(e)
    case Ok(filter) =>
      var all := Rows(s.posts, s.nextId, p => ByAuthor(p, profileId, filter));
      Ok(Page(all, NumberOrDefault(skip, 0), NumberOrDefault(limit, 10)))
  }

  /** A post the feed may show: by a followed profile, and not private. */
  predicate InFeed(p: Post, following: set<int>)
  {
    p.authorId in following && (p.privacy == Public || p.privacy == Friends)
  }

  function PostPublishedAt(p: Post): int { p.publishedAt }

  /** The profiles the caller follows; none when the caller has no profile. */
  function FollowingOf(s: State, caller: Caller): set<int>
  {
    if caller.profileId in s.profiles then s.profiles[caller.profileId].following else {}
  }

  /** Every post the caller's feed may show, newest first. */
  function FeedPosts(s: State, caller: Caller): (r: seq<Post>)
    ensures NewestFirst(r, PostPublishedAt)
    ensures forall i :: 0 <= i < |r| ==> InFeed(r[i], FollowingOf(s, caller)) && r[i] in s.posts.Values
    ensures Below(s.posts, s.nextId) ==>
              forall k :: k in s.posts && InFeed(s.posts[k], FollowingOf(s, caller)) ==> s.posts[k] in r
  {
    NewestRows(s.posts, s.nextId, p => InFeed(p, FollowingOf(s, caller)), PostPublishedAt)
  }

  /** `getFeed`: one page of the followed profiles' public and friends-only
      posts, newest first. */
  function GetFeed(s: State, caller: Caller, limit: Query, skip: Query): (r: seq<Post>)
    ensures NewestFirst(r, PostPublishedAt)
    ensures |r| <= NumberOrDefault(limit, 10)
    ensures forall i :: 0 <= i < |r| ==> InFeed(r[i], FollowingOf(s, caller)) && r[i] in s.posts.Values
    ensures r == Page(FeedPosts(s, caller), NumberOrDefault(skip, 0), NumberOrDefault(limit, 10))
  {
    var all := FeedPosts(s, caller);
    var page := Page(all, NumberOrDefault(skip, 0), NumberOrDefault(limit, 10));
    PageNewestFirst(all, NumberOrDefault(skip, 0), NumberOrDefault(limit, 10), PostPublishedAt);
    page
  }

  /** A query value that is absent, zero or not a numeral gives the default
      page: the first ten posts. */
  lemma FeedDefaultPage(s: State, caller: Caller, limit: Query, skip: Query)
    requires limit.Absent? || !IsDecimal(limit.text) || ParseDecimal(limit.text) == 0
    requires skip.Absent? || !IsDecimal(skip.text) || ParseDecimal(skip.text) == 0
    ensures GetFeed(s, caller, limit, skip) == Page(FeedPosts(s, caller), 0, 10)
  {
  }

  /** A private post never reaches any feed, and neither does a post by a
      profile the caller does not follow. */
  lemma FeedExcludes(s: State, caller: Caller, limit: Query, skip: Query, p: Post)
    requires p.privacy == Private || p.authorId !in FollowingOf(s, caller)
    ensures p !in GetFeed(s, caller, limit, skip)
  {
    var r := GetFeed(s, caller, limit, skip);
    forall i | 0 <= i < |r| ensures r[i] != p {
      assert InFeed(r[i], FollowingOf(s, caller));
    }
  }
}

=== FILE: profiles.dfy ===
/** Profile handlers: follow, unfollow, the counter guard of profile updates,
    deactivation and push-subscription upsert. */
module Profiles {
  import opened Base
  import opened Store

  /** The caller's profile, when the store has one. */
  predicate HasProfile(s: State, c: Caller)
  {
    c.profileId in s.profiles
  }

  /** `followProfile`: the three guards in the code's order, then the two
      mirrored counter-and-edge updates, applied together. */
  function Follow(s: State, caller: Caller, targetId: int): (r: Result<State>)
    ensures targetId !in s.profiles ==> FailsWith(r, 404) && r.error.message == "No profile found with that ID"
    ensures targetId in s.profiles && caller.profileId == targetId ==> FailsWith(r, 400)
    ensures targetId in s.profiles && HasProfile(s, caller) && caller.profileId != targetId
            && targetId in s.profiles[caller.profileId].following
            ==> FailsWith(r, 400) && r.error.message == "You already follow this profile"
    ensures r.Ok? <==> targetId in s.profiles && HasProfile(s, caller) && caller.profileId != targetId
                       && targetId !in s.profiles[caller.profileId].following
    ensures r.Ok? ==>
      var ps := r.value.profiles;
      var a := caller.profileId;
      && r.value == s.(profiles := ps)
      && ps.Keys == s.profiles.Keys
      && ps[a] == s.profiles[a].(following := s.profiles[a].following + {targetId},
                                  followingCount := s.profiles[a].followingCount + 1)
      && ps[targetId] == s.profiles[targetId].(followers := s.profiles[targetId].followers + {a},
                                                followersCount := s.profiles[targetId].followersCount + 1)
      && (forall p :: p in ps && p != a && p != targetId ==> ps[p] == s.profiles[p])
  {
    if targetId !in s.profiles then
      Fail(AppError(404, "No profile found with that ID"))
    else if HasProfile(s, caller) && caller.profileId == targetId then
      Fail(AppError(400, "You can't follow yourself"))
    else if HasProfile(s, caller) && targetId in s.profiles[caller.profileId].following then
      Fail(AppError(400, "You already follow this profile"))
    else if !HasProfile(s, caller) then
      Fail(RecordMissing)
    else
      Ok(s.(profiles := AddEdge(s.profiles, caller.profileId, targetId)))
  }

  /** `unfollowProfile`: the inverse of `Follow`, behind its own three guards. */
  function Unfollow(s: State, caller: Caller, targetId: int): (r: Result<State>)
    ensures targetId !in s.profiles ==> FailsWith(r, 404)
    ensures targetId in s.profiles && caller.profileId == targetId ==> FailsWith(r, 400)
    ensures targetId in s.profiles && caller.profileId != targetId
            && (!HasProfile(s, caller) || targetId !in s.profiles[caller.profileId].following)
            ==> FailsWith(r, 400) && r.error.message == "You don't follow this profile"
    ensures r.Ok? <==> targetId in s.profiles && HasProfile(s, caller) && caller.profileId != targetId
                       && targetId in s.profiles[caller.profileId].following
    ensures r.Ok? ==>
      var ps := r.value.profiles;
      var a := caller.profileId;
      && r.value == s.(profiles := ps)
      && ps.Keys == s.profiles.Keys
      && ps[a] == s.profiles[a].(following := s.profiles[a].following - {targetId},
                                  followingCount := s.profiles[a].followingCount - 1)
      && ps[targetId] == s.profiles[targetId].(followers := s.profiles[targetId].followers - {a},
                                                followersCount := s.profiles[targetId].followersCount - 1)
      && (forall p :: p in ps && p != a && p != targetId ==> ps[p] == s.profiles[p])
  {
    if targetId !in s.profiles then
      Fail(AppError(404, "No profile found with that ID"))
    else if HasProfile(s, caller) && caller.profileId == targetId then
      Fail(AppError(400, "You can't unfollow yourself"))
    else if !HasProfile(s, caller) || targetId !in s.profiles[caller.profileId].following then
      Fail(AppError(400, "You don't follow this profile"))
    else
      Ok(s.(profiles := RemoveEdge(s.profiles, caller.profileId, targetId)))
  }

  /** Profile `a` follows `t` in `ps`: edge, mirror and both counters. */
  function AddEdge(ps: map<int, Profile>, a: int, t: int): map<int, Profile>
    requires a in ps && t in ps
  {
    ps[a := ps[a].(following := ps[a].following + {t}, followingCount := ps[a].followingCount + 1)]
      [t := ps[t].(followers := ps[t].followers + {a}, followersCount := ps[t].followersCount + 1)]
  }

  /** Profile `a` stops following `t` in `ps`. */
  function RemoveEdge(ps: map<int, Profile>, a: int, t: int): map<int, Profile>
    requires a in ps && t in ps
  {
    ps[a := ps[a].(following := ps[a].following - {t}, followingCount := ps[a].followingCount - 1)]
      [t := ps[t].(followers := ps[t].followers - {a}, followersCount := ps[t].followersCount - 1)]
  }

  /** What `AddEdge` does to each profile. */
  lemma AddEdgeShape(ps: map<int, Profile>, a: int, t: int, x: int)
    requires a in ps && t in ps && a != t && x in ps
    ensures x in AddEdge(ps, a, t)
    ensures AddEdge(ps, a, t)[x].following == if x == a then ps[x].following + {t} else ps[x].following
    ensures AddEdge(ps, a, t)[x].followers == if x == t then ps[x].followers + {a} else ps[x].followers
    ensures AddEdge(ps, a, t)[x].followingCount == if x == a then ps[x].followingCount + 1 else ps[x].followingCount
    ensures AddEdge(ps, a, t)[x].followersCount == if x == t then ps[x].followersCount + 1 else ps[x].followersCount
  {
  }

  /** What `RemoveEdge` does to each profile. */
  lemma RemoveEdgeShape(ps: map<int, Profile>, a: int, t: int, x: int)
    requires a in ps && t in ps && a != t && x in ps
    ensures x in RemoveEdge(ps, a, t)
    ensures RemoveEdge(ps, a, t)[x].following == if x == a then ps[x].following - {t} else ps[x].following
    ensures RemoveEdge(ps, a, t)[x].followers == if x == t then ps[x].followers - {a} else ps[x].followers
    ensures RemoveEdge(ps, a, t)[x].followingCount == if x == a then ps[x].followingCount - 1 else ps[x].followingCount
    ensures RemoveEdge(ps, a, t)[x].followersCount == if x == t then ps[x].followersCount - 1 else ps[x].followersCount
  {
  }

  lemma AddEdgeKeepsGraph(ps: map<int, Profile>, a: int, t: int)
    requires FollowGraphConsistent(ps)
    requires a in ps && t in ps && a != t && t !in ps[a].following
    ensures FollowGraphConsistent(AddEdge(ps, a, t))
  {
    var qs := AddEdge(ps, a, t);
    assert qs.Keys == ps.Keys;
    assert a !in ps[t].followers;
    CardInsert(ps[a].following, t);
    CardInsert(ps[t].followers, a);
    forall x | x in qs
      ensures qs[x].following <= qs.Keys && qs[x].followers <= qs.Keys && x !in qs[x].following
      ensures qs[x].followingCount == |qs[x].following| && qs[x].followersCount == |qs[x].followers|
    {
      AddEdgeShape(ps, a, t, x);
    }
    forall x, y | x in qs && y in qs
      ensures y in qs[x].following <==> x in qs[y].followers
    {
      AddEdgeShape(ps, a, t, x);
      AddEdgeShape(ps, a, t, y);
      assert y in ps[x].following <==> x in ps[y].followers;
    }
  }

  lemma RemoveEdgeKeepsGraph(ps: map<int, Profile>, a: int, t: int)
    requires FollowGraphConsistent(ps)
    requires a in ps && t in ps && a != t && t in ps[a].following
    ensures FollowGraphConsistent(RemoveEdge(ps, a, t))
  {
    var qs := RemoveEdge(ps, a, t);
    assert qs.Keys == ps.Keys;
    assert a in ps[t].followers;
    CardRemove(ps[a].following, t);
    CardRemove(ps[t].followers, a);
    forall x | x in qs
      ensures qs[x].following <= qs.Keys && qs[x].followers <= qs.Keys && x !in qs[x].following
      ensures qs[x].followingCount == |qs[x].following| && qs[x].followersCount == |qs[x].followers|
    {
      RemoveEdgeShape(ps, a, t, x);
    }
    forall x, y | x in qs && y in qs
      ensures y in qs[x].following <==> x in qs[y].followers
    {
      RemoveEdgeShape(ps, a, t, x);
      RemoveEdgeShape(ps, a, t, y);
      assert y in ps[x].following <==> x in ps[y].followers;
    }
  }

  /** Adding an edge that was not there and removing it again gives back the
      same profiles. */
  lemma RemoveAddEdge(ps: map<int, Profile>, a: int, t: int)
    requires a in ps && t in ps && a != t && t !in ps[a].following && a !in ps[t].followers
    ensures RemoveEdge(AddEdge(ps, a, t), a, t) == ps
  {
    var qs := RemoveEdge(AddEdge(ps, a, t), a, t);
    assert qs.Keys == ps.Keys;
    forall x | x in ps ensures qs[x] == ps[x] {
      AddEdgeShape(ps, a, t, x);
      RemoveEdgeShape(AddEdge(ps, a, t), a, t, x);
      if x == a { assert ps[a].following + {t} - {t} == ps[a].following; }
      if x == t { assert ps[t].followers + {a} - {a} == ps[t].followers; }
    }
  }

  /** A successful follow keeps the follow graph mirrored and both counters
      equal to their set sizes. */
  lemma FollowKeepsGraph(s: State, caller: Caller, targetId: int)
    requires FollowGraphConsistent(s.profiles)
    requires Follow(s, caller, targetId).Ok?
    ensures FollowGraphConsistent(Follow(s, caller, targetId).value.profiles)
  {
    AddEdgeKeepsGraph(s.profiles, caller.profileId, targetId);
    assert Follow(s, caller, targetId).value.profiles == AddEdge(s.profiles, caller.profileId, targetId);
  }

  /** A successful unfollow keeps the follow graph mirrored and both counters
      equal to their set sizes. */
  lemma UnfollowKeepsGraph(s: State, caller: Caller, targetId: int)
    requires FollowGraphConsistent(s.profiles)
    requires Unfollow(s, caller, targetId).Ok?
    ensures FollowGraphConsistent(Unfollow(s, caller, targetId).value.profiles)
  {
    RemoveEdgeKeepsGraph(s.profiles, caller.profileId, targetId);
    assert Unfollow(s, caller, targetId).value.profiles == RemoveEdge(s.profiles, caller.profileId, targetId);
  }

  /** Following and then unfollowing the same profile restores the store. */
  lemma FollowThenUnfollow(s: State, caller: Caller, targetId: int)
    requires FollowGraphConsistent(s.profiles)
    requires Follow(s, caller, targetId).Ok?
    ensures Unfollow(Follow(s, caller, targetId).value, caller, targetId) == Ok(s)
  {
    var s1 := Follow(s, caller, targetId).value;
    var a := caller.profileId;
    assert s1 == s.(profiles := AddEdge(s.profiles, a, targetId));
    AddEdgeShape(s.profiles, a, targetId, a);
    assert a !in s.profiles[targetId].followers;
    RemoveAddEdge(s.profiles, a, targetId);
    assert Unfollow(s1, caller, targetId) == Ok(s1.(profiles := RemoveEdge(s1.profiles, a, targetId)));
  }

  // ---------------------------------------------------------------------------
  // updateProfile

  /** The fields of an update body the model follows; the body is spread into
      the update as it is. */
  datatype ProfileBody = ProfileBody(
    fullName: Option<Value>,
    followersCount: Option<Value>,
    followingCount: Option<Value>,
    postsCount: Option<Value>)

  /** The counter guard as written: only truthy counter values are refused. */
  predicate CounterGuardRejects(b: ProfileBody)
  {
    Truthy(b.followersCount) || Truthy(b.followingCount) || Truthy(b.postsCount)
  }

  /** A present field must have the column's type, or the ORM refuses the update. */
  predicate FitsString(v: Option<Value>) { v.None? || v.value.Str? }
  predicate FitsInt(v: Option<Value>) { v.None? || v.value.Num? }

  function SetString(old_: string, v: Option<Value>): string
    requires FitsString(v)
  {
    if v.None? then old_ else v.value.text
  }

  function SetInt(old_: int, v: Option<Value>): int
    requires FitsInt(v)
  {
    if v.None? then old_ else v.value.n
  }

  /** Apply a type-correct body and an optional uploaded picture to a profile. */
  function ApplyBody(p: Profile, b: ProfileBody, picture: Option<string>): Profile
    requires FitsString(b.fullName) && FitsInt(b.followersCount) && FitsInt(b.followingCount) && FitsInt(b.postsCount)
  {
    p.(fullName := SetString(p.fullName, b.fullName),
       followersCount := SetInt(p.followersCount, b.followersCount),
       followingCount := SetInt(p.followingCount, b.followingCount),
       postsCount := SetInt(p.postsCount, b.postsCount),
       picture := if picture.Some? then picture else p.picture)
  }

  /** `updateProfile` as written. `picture` is the uploaded file's URL. */
  function UpdateProfile(s: State, caller: Caller, b: ProfileBody, picture: Option<string>): (r: Result<State>)
    ensures CounterGuardRejects(b) ==> r == Fail(AppError(400, "You can't update followersCount or followingCount"))
    ensures !CounterGuardRejects(b) && !HasProfile(s, caller) ==> r == Fail(RecordMissing)
    ensures r.Ok? <==> !CounterGuardRejects(b) && HasProfile(s, caller)
                       && FitsString(b.fullName) && FitsInt(b.followersCount)
                       && FitsInt(b.followingCount) && FitsInt(b.postsCount)
    ensures r.Fail? && !CounterGuardRejects(b) && HasProfile(s, caller) ==> r == Fail(PrismaValidation(None))
    ensures r.Ok? ==> HasProfile(s, caller) && r.value == s.(profiles := r.value.profiles)
    ensures r.Ok? ==> r.value.profiles.Keys == s.profiles.Keys
    ensures r.Ok? ==> forall p :: p in s.profiles && p != caller.profileId ==> r.value.profiles[p] == s.profiles[p]
    ensures r.Ok? ==> var p := r.value.profiles[caller.profileId];
      && p.following == s.profiles[caller.profileId].following
      && p.followers == s.profiles[caller.profileId].followers
      && p.id == s.profiles[caller.profileId].id && p.userId == s.profiles[caller.profileId].userId
      && p.isOnline == s.profiles[caller.profileId].isOnline
      && (b.fullName.Some? ==> p.fullName == b.fullName.value.text)
      && (b.fullName.None? ==> p.fullName == s.profiles[caller.profileId].fullName)
      && (b.followersCount.Some? ==> p.followersCount == b.followersCount.value.n)
      && (b.followersCount.None? ==> p.followersCount == s.profiles[caller.profileId].followersCount)
      && (b.followingCount.Some? ==> p.followingCount == b.followingCount.value.n)
      && (b.followingCount.None? ==> p.followingCount == s.profiles[caller.profileId].followingCount)
      && (b.postsCount.Some? ==> p.postsCount == b.postsCount.value.n)
      && (b.postsCount.None? ==> p.postsCount == s.profiles[caller.profileId].postsCount)
      && (picture.Some? ==> p.picture == picture)
      && (picture.None? ==> p.picture == s.profiles[caller.profileId].picture)
  {
    if CounterGuardRejects(b) then
      Fail(AppError(400, "You can't update followersCount or followingCount"))
    else if !HasProfile(s, caller) then
      Fail(RecordMissing)
    else if !(FitsString(b.fullName) && FitsInt(b.followersCount) && FitsInt(b.followingCount) && FitsInt(b.postsCount)) then
      Fail(PrismaValidation(None))
    else
      var p := s.profiles[caller.profileId];
      Ok(s.(profiles := s.profiles[caller.profileId := ApplyBody(p, b, picture)]))
  }

  /** The update writes absolute values, so repeating it changes nothing more. */
  lemma UpdateProfileIdempotent(s: State, caller: Caller, b: ProfileBody, picture: Option<string>)
    requires UpdateProfile(s, caller, b, picture).Ok?
    ensures var s1 := UpdateProfile(s, caller, b, picture).value;
      UpdateProfile(s1, caller, b, picture) == Ok(s1)
  {
    var s1 := UpdateProfile(s, caller, b, picture).value;
    var s2 := UpdateProfile(s1, caller, b, picture).value;
    assert s2.profiles[caller.profileId] == s1.profiles[caller.profileId];
    assert s2.profiles == s1.profiles;
  }

  /** A falsy counter gets through the guard and is written: a body carrying
      `followersCount: 0` resets the counter of a profile that has followers. */
  lemma UpdateProfileResetsCounter(s: State, caller: Caller)
    requires HasProfile(s, caller)
    requires |s.profiles[caller.profileId].followers| > 0
    requires FollowGraphConsistent(s.profiles)
    ensures var b := ProfileBody(None, Some(Num(0)), None, None);
      && UpdateProfile(s, caller, b, None).Ok?
      && !FollowGraphConsistent(UpdateProfile(s, caller, b, None).value.profiles)
  {
    var b := ProfileBody(None, Some(Num(0)), None, None);
    var ps := UpdateProfile(s, caller, b, None).value.profiles;
    assert ps[caller.profileId].followersCount == 0;
  }

  /** The guard as intended: any counter key in the body is refused, whatever
      its value. */
  function UpdateProfileGuarded(s: State, caller: Caller, b: ProfileBody, picture: Option<string>): (r: Result<State>)
    ensures b.followersCount.Some? || b.followingCount.Some? || b.postsCount.Some? ==> FailsWith(r, 400)
    ensures r.Ok? ==> r == UpdateProfile(s, caller, b, picture)
    ensures r.Ok? ==> var p := r.value.profiles[caller.profileId];
      && p.followersCount == s.profiles[caller.profileId].followersCount
      && p.followingCount == s.profiles[caller.profileId].followingCount
      && p.postsCount == s.profiles[caller.profileId].postsCount
  {
    if b.followersCount.Some? || b.followingCount.Some? || b.postsCount.Some? then
      Fail(AppError(400, "You can't update followersCount or followingCount"))
    else
      UpdateProfile(s, caller, b, picture)
  }

  /** With the intended guard, a profile update never breaks the follow graph. */
  lemma GuardedUpdateKeepsGraph(s: State, caller: Caller, b: ProfileBody, picture: Option<string>)
    requires FollowGraphConsistent(s.profiles)
    requires UpdateProfileGuarded(s, caller, b, picture).Ok?
    ensures FollowGraphConsistent(UpdateProfileGuarded(s, caller, b, picture).value.profiles)
  {
    var ps := UpdateProfileGuarded(s, caller, b, picture).value.profiles;
    forall x, y | x in ps && y in ps
      ensures y in ps[x].following <==> x in ps[y].followers
    {
      assert y in s.profiles[x].following <==> x in s.profiles[y].followers;
    }
  }

  // ---------------------------------------------------------------------------
  // deleteProfile

  /** `deleteProfile` as written: it deactivates the user whose id equals the
      caller's PROFILE id. */
  function DeleteProfile(s: State, caller: Caller): (r: Result<State>)
    ensures caller.profileId !in s.users ==> r == Fail(RecordMissing)
    ensures r.Ok? ==> caller.profileId in s.users && r.value == s.(users := r.value.users)
    ensures r.Ok? ==> r.value.users == s.users[caller.profileId := s.users[caller.profileId].(active := false)]
  {
    if caller.profileId !in s.users then Fail(RecordMissing)
    else Ok(s.(users := s.users[caller.profileId := s.users[caller.profileId].(active := false)]))
  }

  /** When profile and user ids differ, the wrong account is deactivated and
      the caller's own stays active. */
  lemma DeleteProfileHitsOtherUser(s: State, caller: Caller)
    requires CallerIn(s, caller) && caller.profileId != caller.userId
    requires caller.profileId in s.users && s.users[caller.userId].active
    ensures DeleteProfile(s, caller).Ok?
    ensures DeleteProfile(s, caller).value.users[caller.userId].active
    ensures !DeleteProfile(s, caller).value.users[caller.profileId].active
  {
  }

  /** Deactivation as intended: the caller's own user record is flagged
      inactive and nothing else changes; no row is removed. */
  function DeactivateAccount(s: State, caller: Caller): (r: Result<State>)
    ensures CallerIn(s, caller) ==> r.Ok?
    ensures r.Ok? ==> caller.userId in s.users
    ensures r.Ok? ==> r.value.users.Keys == s.users.Keys && r.value == s.(users := r.value.users)
    ensures r.Ok? ==> forall u :: u in s.users && u != caller.userId ==> r.value.users[u] == s.users[u]
    ensures r.Ok? ==> r.value.users[caller.userId] == s.users[caller.userId].(active := false)
  {
    if caller.userId !in s.users then Fail(RecordMissing)
    else Ok(s.(users := s.users[caller.userId := s.users[caller.userId].(active := false)]))
  }

  // ---------------------------------------------------------------------------
  // subscribeToNotifications

  datatype SubscriptionBody = SubscriptionBody(
    endpoint: string, auth: string, p256dh: string, kind: string, profileId: int)

  predicate Keyed(sub: Subscription, profileId: int, kind: string)
  {
    sub.profileId == profileId && sub.kind == kind
  }

  /** The column list the unique index on `profileId` reports when a create
      clashes with it. */
  const SubscriptionKey: string := "`profileId`"

  /** The lowest-id subscription row of `profileId`; ids lie below `n`. */
  function SubscriptionOf(subs: map<int, Subscription>, n: int, profileId: int): (r: Option<int>)
    ensures r.Some? ==> r.value in subs && subs[r.value].profileId == profileId
    ensures r.None? && Below(subs, n) ==> forall k :: k in subs ==> subs[k].profileId != profileId
  {
    FirstOwned(subs, Ascending(subs.Keys, n), profileId)
  }

  function FirstOwned(subs: map<int, Subscription>, ids: seq<int>, profileId: int): (r: Option<int>)
    ensures r.Some? ==> r.value in subs && subs[r.value].profileId == profileId
    ensures r.None? ==> forall i :: 0 <= i < |ids| && ids[i] in subs ==> subs[ids[i]].profileId != profileId
  {
    if |ids| == 0 then None
    else if ids[0] in subs && subs[ids[0]].profileId == profileId then Some(ids[0])
    else FirstOwned(subs, ids[1..], profileId)
  }

  /** The row the upsert's `where: { profileId, type }` selects: the row of
      `profileId`, when it also has the requested kind. */
  function FindSubscription(subs: map<int, Subscription>, n: int, profileId: int, kind: string): (r: Option<int>)
    ensures r.Some? ==> r.value in subs && Keyed(subs[r.value], profileId, kind)
    ensures r.None? && Below(subs, n) && SubscriptionKeysUnique(subs) ==>
              forall k :: k in subs ==> !Keyed(subs[k], profileId, kind)
  {
    match SubscriptionOf(subs, n, profileId)
    case Some(k) => if subs[k].kind == kind then Some(k) else None
    case None => None
  }

  /** `profileId` is the table's unique key: no two rows belong to one
      profile. The comment and like handlers rely on it when they look a
      profile's row up with `findUnique({ where: { profileId } })`. */
  ghost predicate SubscriptionKeysUnique(subs: map<int, Subscription>)
  {
    forall j, k :: j in subs && k in subs && subs[j].profileId == subs[k].profileId ==> j == k
  }

  /** The row stores exactly the endpoint and keys of the request. */
  predicate Registers(sub: Subscription, b: SubscriptionBody)
  {
    Keyed(sub, b.profileId, b.kind) && sub.endpoint == b.endpoint && sub.auth == b.auth && sub.p256dh == b.p256dh
  }

  /** The profile already holds a row of another kind. */
  ghost predicate HoldsOtherKind(subs: map<int, Subscription>, b: SubscriptionBody)
  {
    exists k :: k in subs && subs[k].profileId == b.profileId && subs[k].kind != b.kind
  }

  /** The upsert on the subscription table alone: the new table and the next
      free id. A row matching both `profileId` and `type` is updated;
      otherwise the create runs, which clashes with the unique `profileId`
      when the profile holds a row of another kind, and which needs the
      profile to exist (`profileExists`, the foreign-key check). */
  function Upsert(subs: map<int, Subscription>, n: nat, b: SubscriptionBody, profileExists: bool)
    : (r: Result<(map<int, Subscription>, nat)>)
    ensures r.Ok? ==> exists k :: k in r.value.0 && Registers(r.value.0[k], b)
    ensures r.Ok? && Below(subs, n) ==>
              forall k :: k in subs && subs[k].profileId != b.profileId ==> k in r.value.0 && r.value.0[k] == subs[k]
    ensures r.Fail? ==> r == Fail(UniqueViolation(SubscriptionKey)) || (r == Fail(RecordMissing) && !profileExists)
    ensures Below(subs, n) && SubscriptionKeysUnique(subs) ==>
              (r == Fail(UniqueViolation(SubscriptionKey)) <==> HoldsOtherKind(subs, b))
    ensures Below(subs, n) ==>
              (r == Fail(RecordMissing) <==> !profileExists && forall k :: k in subs ==> subs[k].profileId != b.profileId)
  {
    match SubscriptionOf(subs, n, b.profileId)
    case Some(k) =>
      if subs[k].kind != b.kind then
        assert subs[k].profileId == b.profileId;
        Fail(UniqueViolation(SubscriptionKey))
      else
        var sub := subs[k].(endpoint := b.endpoint, auth := b.auth, p256dh := b.p256dh);
        assert Registers(sub, b) && subs[k := sub][k] == sub;
        Ok((subs[k := sub], n))
    case None =>
      if !profileExists then Fail(RecordMissing)
      else
        var sub := Subscription(n, b.profileId, b.kind, b.endpoint, b.auth, b.p256dh);
        assert Registers(sub, b) && subs[n := sub][n] == sub;
        Ok((subs[n := sub], n + 1))
  }

  /** `subscribeToNotifications`: update the endpoint of the profile's row
      when it has the requested kind, or create the row. A profile that
      already holds a row of another kind gets the unique-constraint error,
      and a create for a missing profile the foreign-key error. */
  function Subscribe(s: State, b: SubscriptionBody): (r: Result<State>)
    ensures r.Ok? ==> r.value == s.(subscriptions := r.value.subscriptions, nextId := r.value.nextId)
    ensures r.Ok? ==> exists k :: k in r.value.subscriptions && Registers(r.value.subscriptions[k], b)
    ensures r.Fail? ==> r == Fail(UniqueViolation(SubscriptionKey)) || (b.profileId !in s.profiles && r == Fail(RecordMissing))
    ensures Below(s.subscriptions, s.nextId) && SubscriptionKeysUnique(s.subscriptions) ==>
              (r == Fail(UniqueViolation(SubscriptionKey)) <==> HoldsOtherKind(s.subscriptions, b))
  {
    match Upsert(s.subscriptions, s.nextId, b, b.profileId in s.profiles)
    case Ok((subs, n)) => Ok(s.(subscriptions := subs, nextId := n))
    case Fail(e) => Fail(e)
  }

  /** A profile that already holds a row of one kind and subscribes again
      with another kind is refused with the unique-key error. */
  lemma SecondKindRefused(s: State, b: SubscriptionBody, k: int)
    requires Below(s.subscriptions, s.nextId) && SubscriptionKeysUnique(s.subscriptions)
    requires k in s.subscriptions && s.subscriptions[k].profileId == b.profileId && s.subscriptions[k].kind != b.kind
    ensures Subscribe(s, b) == Fail(UniqueViolation(SubscriptionKey))
  {
  }

  lemma ReplaceRowKeepsUnique(subs: map<int, Subscription>, k: int, sub: Subscription)
    requires SubscriptionKeysUnique(subs)
    requires k in subs && sub.profileId == subs[k].profileId
    ensures SubscriptionKeysUnique(subs[k := sub])
  {
    var t := subs[k := sub];
    forall i, j | i in t && j in t && t[i].profileId == t[j].profileId ensures i == j {
      assert subs[i].profileId == subs[j].profileId;
    }
  }

  lemma InsertRowKeepsUnique(subs: map<int, Subscription>, n: int, sub: Subscription)
    requires SubscriptionKeysUnique(subs) && n !in subs
    requires forall k :: k in subs ==> subs[k].profileId != sub.profileId
    ensures SubscriptionKeysUnique(subs[n := sub])
  {
  }

  /** An upsert never creates a second row for a profile. */
  lemma UpsertKeepsKeysUnique(subs: map<int, Subscription>, n: nat, b: SubscriptionBody, exists_: bool)
    requires Below(subs, n) && SubscriptionKeysUnique(subs)
    requires Upsert(subs, n, b, exists_).Ok?
    ensures Below(Upsert(subs, n, b, exists_).value.0, Upsert(subs, n, b, exists_).value.1)
    ensures SubscriptionKeysUnique(Upsert(subs, n, b, exists_).value.0)
  {
    match FindSubscription(subs, n, b.profileId, b.kind)
    case Some(k) =>
      ReplaceRowKeepsUnique(subs, k, subs[k].(endpoint := b.endpoint, auth := b.auth, p256dh := b.p256dh));
    case None =>
      InsertRowKeepsUnique(subs, n, Subscription(n, b.profileId, b.kind, b.endpoint, b.auth, b.p256dh));
  }

  /** With one row per profile, the lookup finds the row holding the key. */
  lemma FindsTheKeyedRow(subs: map<int, Subscription>, n: int, k: int, profileId: int, kind: string)
    requires Below(subs, n) && SubscriptionKeysUnique(subs)
    requires k in subs && Keyed(subs[k], profileId, kind)
    ensures FindSubscription(subs, n, profileId, kind) == Some(k)
  {
  }

  /** A second identical upsert finds the row the first one left and
      rewrites it with the values it already holds. */
  lemma UpsertIdempotent(subs: map<int, Subscription>, n: nat, b: SubscriptionBody, e: bool)
    requires Below(subs, n) && SubscriptionKeysUnique(subs)
    requires Upsert(subs, n, b, e).Ok?
    ensures Upsert(Upsert(subs, n, b, e).value.0, Upsert(subs, n, b, e).value.1, b, e) == Upsert(subs, n, b, e)
  {
    UpsertKeepsKeysUnique(subs, n, b, e);
    var r := Upsert(subs, n, b, e).value;
    var k := match FindSubscription(subs, n, b.profileId, b.kind) case Some(j) => j case None => n;
    assert k in r.0 && Registers(r.0[k], b);
    FindsTheKeyedRow(r.0, r.1, k, b.profileId, b.kind);
    RewriteRegistered(r.0, k, b);
  }

  lemma RewriteRegistered(t: map<int, Subscription>, k: int, b: SubscriptionBody)
    requires k in t && Registers(t[k], b)
    ensures t[k := t[k].(endpoint := b.endpoint, auth := b.auth, p256dh := b.p256dh)] == t
  {
    assert t[k].(endpoint := b.endpoint, auth := b.auth, p256dh := b.p256dh) == t[k];
  }

  /** Subscribing twice with the same request leaves the store as one
      subscription does, and never leaves two rows for one profile. */
  lemma SubscribeIdempotent(s: State, b: SubscriptionBody)
    requires Below(s.subscriptions, s.nextId) && SubscriptionKeysUnique(s.subscriptions)
    requires Subscribe(s, b).Ok?
    ensures SubscriptionKeysUnique(Subscribe(s, b).value.subscriptions)
    ensures Subscribe(Subscribe(s, b).value, b) == Subscribe(s, b)
  {
    var e := b.profileId in s.profiles;
    UpsertKeepsKeysUnique(s.subscriptions, s.nextId, b, e);
    UpsertIdempotent(s.subscriptions, s.nextId, b, e);
    var t := Subscribe(s, b).value;
    assert t.profiles == s.profiles;
  }
}

=== FILE: socket.dfy ===
/** The socket middlewares: the caller's online flag, and marking as
    delivered every undelivered message of the caller's conversations. */
module Socket {
  import opened Base
  import opened Store

  /** `setActiveStatus(isOnline)`: only the caller's profile changes, and
      only its `isOnline` flag. */
  function SetActiveStatus(s: State, caller: Caller, isOnline: bool): (r: Result<State>)
    ensures r.Ok? <==> caller.profileId in s.profiles
    ensures r.Fail? ==> r.error == RecordMissing
    ensures r.Ok? ==> r.value == s.(profiles := r.value.profiles) && r.value.profiles.Keys == s.profiles.Keys
    ensures r.Ok? ==> r.value.profiles[caller.profileId] == s.profiles[caller.profileId].(isOnline := isOnline)
    ensures r.Ok? ==> forall p :: p in s.profiles && p != caller.profileId ==> r.value.profiles[p] == s.profiles[p]
  {
    if caller.profileId !in s.profiles then Fail(RecordMissing)
    else Ok(s.(profiles := s.profiles[caller.profileId := s.profiles[caller.profileId].(isOnline := isOnline)]))
  }

  /** Going online then offline leaves the caller offline, and every other
      profile as it was. */
  lemma OnlineThenOffline(s: State, caller: Caller)
    requires caller.profileId in s.profiles && !s.profiles[caller.profileId].isOnline
    ensures SetActiveStatus(SetActiveStatus(s, caller, true).value, caller, false) == Ok(s)
  {
    var s1 := SetActiveStatus(s, caller, true).value;
    var s2 := SetActiveStatus(s1, caller, false).value;
    assert s2.profiles == s.profiles;
  }

  /** The message belongs to a conversation the profile takes part in. */
  predicate InConversationOf(s: State, m: Message, profileId: int)
  {
    m.conversationId in s.conversations
    && (s.conversations[m.conversationId].profileOneId == profileId
        || s.conversations[m.conversationId].profileTwoId == profileId)
  }

  /** `setMessagesDelivery`: one `updateMany` over the undelivered messages
      of the caller's conversations. */
  function SetMessagesDelivery(s: State, caller: Caller): (r: State)
    ensures r == s.(messages := r.messages) && r.messages.Keys == s.messages.Keys
    ensures forall k :: k in s.messages && InConversationOf(s, s.messages[k], caller.profileId) ==>
              r.messages[k] == s.messages[k].(isDelivered := true)
    ensures forall k :: k in s.messages && !InConversationOf(s, s.messages[k], caller.profileId) ==>
              r.messages[k] == s.messages[k]
  {
    var messages := UpdateEach(s.messages, (m: Message) =>
      if InConversationOf(s, m, caller.profileId) && !m.isDelivered then m.(isDelivered := true) else m);
    s.(messages := messages)
  }

  /** After the update every message of the caller's conversations is
      delivered, and a second run changes nothing. */
  lemma SetMessagesDeliveryIdempotent(s: State, caller: Caller)
    ensures forall k ::
              k in SetMessagesDelivery(s, caller).messages
              && InConversationOf(s, SetMessagesDelivery(s, caller).messages[k], caller.profileId)
              ==> SetMessagesDelivery(s, caller).messages[k].isDelivered
    ensures SetMessagesDelivery(SetMessagesDelivery(s, caller), caller) == SetMessagesDelivery(s, caller)
  {
    var s1 := SetMessagesDelivery(s, caller);
    var s2 := SetMessagesDelivery(s1, caller);
    assert s1.conversations == s.conversations;
    forall k | k in s1.messages ensures s2.messages[k] == s1.messages[k] {
      assert InConversationOf(s1, s1.messages[k], caller.profileId) == InConversationOf(s, s.messages[k], caller.profileId);
    }
    assert s2.messages == s1.messages;
  }
}

=== FILE: store.dfy ===
/** The database as an immutable value: one map from integer id to record per
    table, plus the auto-increment counter that hands out new ids. Also the
    denormalized-counter invariants and the ordering/paging helpers that the
    listing handlers share. */
module Store {
  import opened Base
  import opened Text

  datatype Privacy = Public | Private | Friends

  datatype User = User(
    id: int,
    username: string,
    email: string,
    password: string,            // bcrypt hash
    birthDate: int,              // ms since the epoch
    active: bool,
    lastLogin: Option<int>,
    passwordResetToken: Option<string>,       // SHA-256 hex of the emailed token
    passwordResetTokenExpiry: Option<int>)

  datatype Profile = Profile(
    id: int,
    userId: int,
    fullName: string,
    picture: Option<string>,
    following: set<int>,
    followers: set<int>,
    followingCount: int,
    followersCount: int,
    postsCount: int,
    isOnline: bool)

  datatype Post = Post(
    id: int,
    authorId: int,
    content: string,
    privacy: Privacy,
    publishedAt: int,
    images: seq<string>,
    videos: seq<string>,
    commentsEnabled: bool,
    sharesEnabled: bool,
    likesCount: int,
    commentsCount: int,
    shares: int)

  datatype Comment = Comment(
    id: int,
    postId: int,
    authorId: int,
    parentId: Option<int>,
    content: string,
    image: Option<string>,
    video: Option<string>,
    isEdited: bool,
    publishedAt: int,
    likesCount: int,
    repliesCount: int)

  /** A like row names either a post or a comment. */
  datatype LikeTarget = OnPost(postId: int) | OnComment(commentId: int)

  datatype Like = Like(id: int, authorId: int, target: LikeTarget)

  datatype Story = Story(
    id: int,
    authorId: int,
    content: string,
    privacy: Privacy,
    expiryTime: int,
    visible: bool,
    archiveId: Option<int>,
    image: Option<string>,
    video: Option<string>)

  /** At most one archive per profile (the sweep finds it by `profileId`). */
  datatype Archive = Archive(id: int, profileId: int)

  datatype Conversation = Conversation(id: int, profileOneId: int, profileTwoId: int)

  datatype Message = Message(
    id: int,
    conversationId: int,
    content: string,
    images: seq<string>,
    videos: seq<string>,
    isDeleted: bool,
    isDelivered: bool)

  /** A push endpoint; a profile has at most one. */
  datatype Subscription = Subscription(
    id: int,
    profileId: int,
    kind: string,
    endpoint: string,
    auth: string,
    p256dh: string)

  /** A row of the post/profile share table. */
  datatype Share = Share(id: int, profileId: int, postId: int)

  datatype State = State(
    users: map<int, User>,
    profiles: map<int, Profile>,
    posts: map<int, Post>,
    comments: map<int, Comment>,
    likes: map<int, Like>,
    stories: map<int, Story>,
    archives: map<int, Archive>,
    conversations: map<int, Conversation>,
    messages: map<int, Message>,
    subscriptions: map<int, Subscription>,
    shares: map<int, Share>,
    nextId: nat)

  /** Who is calling: the id of the authenticated user record and the id of
      that user's profile, as the handlers read them from the request. */
  datatype Caller = Caller(userId: int, profileId: int)

  /** What a request leaves behind: the store after every write it committed,
      and its answer. An error raised after a write does not undo the write. */
  datatype Outcome<T> = Outcome(store: State, reply: Result<T>)

  /** The caller's two ids name a user and that user's profile. */
  ghost predicate CallerIn(s: State, c: Caller)
  {
    c.userId in s.users && c.profileId in s.profiles && s.profiles[c.profileId].userId == c.userId
  }

  // ---------------------------------------------------------------------------
  // Well-formedness: every key lies in [0, nextId) and every stored reference below nextId,
  // so the id the next insert takes is fresh and referenced by nothing.

  ghost predicate Below<T>(m: map<int, T>, n: int)
  {
    forall k :: k in m ==> 0 <= k < n
  }

  ghost predicate WellFormed(s: State)
  {
    && Below(s.users, s.nextId) && Below(s.profiles, s.nextId) && Below(s.posts, s.nextId)
    && Below(s.comments, s.nextId) && Below(s.likes, s.nextId) && Below(s.stories, s.nextId)
    && Below(s.archives, s.nextId) && Below(s.conversations, s.nextId)
    && Below(s.messages, s.nextId) && Below(s.subscriptions, s.nextId) && Below(s.shares, s.nextId)
    && (forall k :: k in s.likes ==> TargetId(s.likes[k].target) < s.nextId)
    && (forall k :: k in s.comments ==> s.comments[k].postId < s.nextId)
    && (forall k :: k in s.comments && s.comments[k].parentId.Some? ==> s.comments[k].parentId.value < s.nextId)
  }

  function TargetId(t: LikeTarget): int
  {
    match t
    case OnPost(p) => p
    case OnComment(c) => c
  }

  // ---------------------------------------------------------------------------
  // Denormalized counters and the relations they cache.

  /** Follow edges are mirrored, never reflexive, stay inside the table, and
      both follow counters equal the size of their set. */
  ghost predicate FollowGraphConsistent(ps: map<int, Profile>)
  {
    && (forall a :: a in ps ==> ps[a].following <= ps.Keys && ps[a].followers <= ps.Keys)
    && (forall a :: a in ps ==> a !in ps[a].following)
    && (forall a, b :: a in ps && b in ps ==> (b in ps[a].following <==> a in ps[b].followers))
    && (forall a :: a in ps ==> ps[a].followingCount == |ps[a].following|)
    && (forall a :: a in ps ==> ps[a].followersCount == |ps[a].followers|)
  }

  /** Ids of the like rows on one target. */
  function LikesOn(likes: map<int, Like>, t: LikeTarget): set<int>
  {
    set k | k in likes && likes[k].target == t
  }

  /** Ids of the top-level comments of a post. */
  function TopLevelOf(comments: map<int, Comment>, postId: int): set<int>
  {
    set k | k in comments && comments[k].postId == postId && comments[k].parentId == None
  }

  /** Ids of the direct replies to a comment. */
  function RepliesOf(comments: map<int, Comment>, parent: int): set<int>
  {
    set k | k in comments && comments[k].parentId == Some(parent)
  }

  ghost predicate LikeCountersConsistent(s: State)
  {
    && (forall p :: p in s.posts ==> s.posts[p].likesCount == |LikesOn(s.likes, OnPost(p))|)
    && (forall c :: c in s.comments ==> s.comments[c].likesCount == |LikesOn(s.likes, OnComment(c))|)
  }

  ghost predicate CommentCountersConsistent(s: State)
  {
    && (forall p :: p in s.posts ==> s.posts[p].commentsCount == |TopLevelOf(s.comments, p)|)
    && (forall c :: c in s.comments ==> s.comments[c].repliesCount == |RepliesOf(s.comments, c)|)
  }

  /** Every denormalized counter the handlers maintain equals the size of the
      relation it caches. */
  ghost predicate Consistent(s: State)
  {
    FollowGraphConsistent(s.profiles) && LikeCountersConsistent(s) && CommentCountersConsistent(s)
  }

  /** Adding a row on target `t` adds exactly its id to the rows on `t` and
      leaves every other target's rows alone. */
  lemma LikesOnInsert(likes: map<int, Like>, k: int, l: Like, t: LikeTarget)
    requires k !in likes
    ensures LikesOn(likes[k := l], t) == if l.target == t then LikesOn(likes, t) + {k} else LikesOn(likes, t)
  {
  }

  lemma LikesOnRemove(likes: map<int, Like>, k: int, t: LikeTarget)
    requires k in likes
    ensures LikesOn(likes - {k}, t) == if likes[k].target == t then LikesOn(likes, t) - {k} else LikesOn(likes, t)
  {
  }

  lemma CardInsert(a: set<int>, k: int)
    requires k !in a
    ensures |a + {k}| == |a| + 1
  {
  }

  lemma CardRemove(a: set<int>, k: int)
    requires k in a
    ensures |a - {k}| == |a| - 1
  {
  }

  lemma TopLevelInsert(comments: map<int, Comment>, k: int, c: Comment, p: int)
    requires k !in comments
    ensures TopLevelOf(comments[k := c], p)
            == if c.postId == p && c.parentId == None then TopLevelOf(comments, p) + {k} else TopLevelOf(comments, p)
  {
  }

  lemma RepliesInsert(comments: map<int, Comment>, k: int, c: Comment, parent: int)
    requires k !in comments
    ensures RepliesOf(comments[k := c], parent)
            == if c.parentId == Some(parent) then RepliesOf(comments, parent) + {k} else RepliesOf(comments, parent)
  {
  }

  lemma TopLevelRemove(comments: map<int, Comment>, k: int, p: int)
    requires k in comments
    ensures TopLevelOf(comments - {k}, p)
            == if comments[k].postId == p && comments[k].parentId == None then TopLevelOf(comments, p) - {k}
               else TopLevelOf(comments, p)
  {
  }

  lemma RepliesRemove(comments: map<int, Comment>, k: int, parent: int)
    requires k in comments
    ensures RepliesOf(comments - {k}, parent)
            == if comments[k].parentId == Some(parent) then RepliesOf(comments, parent) - {k} else RepliesOf(comments, parent)
  {
  }

  /** Replacing a comment by one with the same post and parent moves no comment
      between the sets the counters cache. */
  lemma SamePlace(comments: map<int, Comment>, k: int, c: Comment, p: int)
    requires k in comments && c.postId == comments[k].postId && c.parentId == comments[k].parentId
    ensures TopLevelOf(comments[k := c], p) == TopLevelOf(comments, p)
    ensures RepliesOf(comments[k := c], p) == RepliesOf(comments, p)
  {
  }

  // ---------------------------------------------------------------------------
  // Listing: the rows of a table in id order, filtered, ordered and paged.

  /** The keys of a table in ascending order (the order rows come back in when
      a query names no `orderBy`); ids are auto-incremented from 0 and stay
      below `n`. */
  function Ascending(keys: set<int>, n: int): (r: seq<int>)
    ensures forall i, j :: 0 <= i < j < |r| ==> r[i] < r[j]
    ensures forall k :: k in r <==> k in keys && 0 <= k < n
    ensures forall i :: 0 <= i < |r| ==> 0 <= r[i] < n
    decreases n
  {
    if n <= 0 then []
    else Ascending(keys, n - 1) + (if n - 1 in keys then [n - 1] else [])
  }

  /** The rows of `ids`, in that order, that are in the table and pass `keep`. */
  function Select<T(==)>(m: map<int, T>, ids: seq<int>, keep: T -> bool): (r: seq<T>)
    ensures forall i :: 0 <= i < |r| ==> keep(r[i]) && r[i] in m.Values
    ensures forall j :: 0 <= j < |ids| && ids[j] in m && keep(m[ids[j]]) ==> m[ids[j]] in r
  {
    if |ids| == 0 then []
    else
      var rest := Select(m, ids[1..], keep);
      var head := if ids[0] in m && keep(m[ids[0]]) then [m[ids[0]]] else [];
      assert forall j :: 1 <= j < |ids| ==> ids[j] == ids[1..][j - 1];
      assert forall i :: 0 <= i < |rest| ==> (head + rest)[|head| + i] == rest[i];
      head + rest
  }

  /** `findMany({ where })` with no `orderBy`: the matching rows in id order. */
  function Rows<T(==)>(m: map<int, T>, n: int, keep: T -> bool): (r: seq<T>)
    ensures forall i :: 0 <= i < |r| ==> keep(r[i]) && r[i] in m.Values
    ensures Below(m, n) ==> forall k :: k in m && keep(m[k]) ==> m[k] in r
  {
    var ids := Ascending(m.Keys, n);
    var r := Select(m, ids, keep);
    assert Below(m, n) ==> forall k :: k in m && keep(m[k]) ==> m[k] in r by {
      if Below(m, n) {
        forall k | k in m && keep(m[k]) ensures m[k] in r {
          assert k in ids;
          var j :| 0 <= j < |ids| && ids[j] == k;
        }
      }
    }
    r
  }

  /** A row inserted at the fresh id `n` comes last in the listing, after
      every row that was already there. */
  lemma RowsAfterInsert<T>(m: map<int, T>, n: int, x: T, keep: T -> bool)
    requires 0 <= n && Below(m, n)
    ensures Rows(m[n := x], n + 1, keep) == Rows(m, n, keep) + (if keep(x) then [x] else [])
  {
    var m1 := m[n := x];
    var ids := Ascending(m.Keys, n);
    assert n in m1.Keys;
    assert Ascending(m1.Keys, n + 1) == Ascending(m1.Keys, n) + [n];
    AscendingAgree(m1.Keys, m.Keys, n);
    assert Ascending(m1.Keys, n + 1) == ids + [n];
    SelectConcat(m1, ids, [n], keep);
    SelectOne(m1, n, keep);
    SelectAvoiding(m, n, x, ids, keep);
    calc {
      Rows(m1, n + 1, keep);
      Select(m1, ids + [n], keep);
      Select(m1, ids, keep) + Select(m1, [n], keep);
      Select(m, ids, keep) + (if keep(x) then [x] else []);
    }
  }

  lemma SelectOne<T>(m: map<int, T>, n: int, keep: T -> bool)
    requires n in m
    ensures Select(m, [n], keep) == if keep(m[n]) then [m[n]] else []
  {
    assert [n][1..] == [];
  }

  /** `Ascending` sees only the keys below `n`. */
  lemma {:induction false} AscendingAgree(a: set<int>, b: set<int>, n: int)
    requires forall k :: 0 <= k < n ==> (k in a <==> k in b)
    ensures Ascending(a, n) == Ascending(b, n)
    decreases n
  {
    if n > 0 {
      AscendingAgree(a, b, n - 1);
    }
  }

  lemma {:induction false} SelectConcat<T>(m: map<int, T>, a: seq<int>, b: seq<int>, keep: T -> bool)
    ensures Select(m, a + b, keep) == Select(m, a, keep) + Select(m, b, keep)
    decreases |a|
  {
    if |a| == 0 {
      assert a + b == b;
    } else {
      assert (a + b)[1..] == a[1..] + b;
      SelectConcat(m, a[1..], b, keep);
    }
  }

  /** Selecting ids that avoid `n` does not see the row stored at `n`. */
  lemma {:induction false} SelectAvoiding<T>(m: map<int, T>, n: int, x: T, ids: seq<int>, keep: T -> bool)
    requires forall i :: 0 <= i < |ids| ==> ids[i] != n
    ensures Select(m[n := x], ids, keep) == Select(m, ids, keep)
    decreases |ids|
  {
    if |ids| > 0 {
      assert forall i :: 0 <= i < |ids| - 1 ==> ids[1..][i] == ids[i + 1];
      SelectAvoiding(m, n, x, ids[1..], keep);
    }
  }

  /** The first id of `ids` whose row is in the table and passes `keep`. */
  function FirstWhere<T>(m: map<int, T>, ids: seq<int>, keep: T -> bool): (r: Option<int>)
    ensures r.Some? ==> r.value in m && keep(m[r.value])
    ensures r.None? ==> forall i :: 0 <= i < |ids| && ids[i] in m ==> !keep(m[ids[i]])
  {
    if |ids| == 0 then None
    else if ids[0] in m && keep(m[ids[0]]) then Some(ids[0])
    else
      var r := FirstWhere(m, ids[1..], keep);
      assert forall i :: 1 <= i < |ids| ==> ids[i] == ids[1..][i - 1];
      r
  }

  /** `findFirst({ where })`: the row with the lowest id that passes `keep`. */
  function Find<T>(m: map<int, T>, n: int, keep: T -> bool): (r: Option<int>)
    ensures r.Some? ==> r.value in m && keep(m[r.value])
    ensures r.None? && Below(m, n) ==> forall k :: k in m ==> !keep(m[k])
  {
    var ids := Ascending(m.Keys, n);
    var r := FirstWhere(m, ids, keep);
    assert r.None? && Below(m, n) ==> forall k :: k in m ==> !keep(m[k]) by {
      if r.None? && Below(m, n) {
        forall k | k in m ensures !keep(m[k]) {
          assert k in ids;
          var j :| 0 <= j < |ids| && ids[j] == k;
        }
      }
    }
    r
  }

  /** Non-increasing in the time the accessor reads. */
  ghost predicate NewestFirst<T>(xs: seq<T>, at: T -> int)
  {
    forall i, j :: 0 <= i < j < |xs| ==> at(xs[i]) >= at(xs[j])
  }

  /** Place `x` in a newest-first sequence, ahead of rows with the same time. */
  function InsertNewest<T(==)>(x: T, xs: seq<T>, at: T -> int): (r: seq<T>)
    requires NewestFirst(xs, at)
    ensures NewestFirst(r, at)
    ensures multiset(r) == multiset(xs) + multiset{x}
    ensures forall y :: y in r ==> y == x || y in xs
    decreases |xs|
  {
    if |xs| == 0 || at(x) >= at(xs[0]) then [x] + xs
    else
      var rest := InsertNewest(x, xs[1..], at);
      HeadNewest(xs[0], x, xs[1..], rest, at);
      assert xs == [xs[0]] + xs[1..];
      [xs[0]] + rest
  }

  lemma HeadNewest<T>(h: T, x: T, tail: seq<T>, rest: seq<T>, at: T -> int)
    requires NewestFirst([h] + tail, at) && NewestFirst(rest, at)
    requires at(x) < at(h)
    requires forall y :: y in rest ==> y == x || y in tail
    ensures NewestFirst([h] + rest, at)
  {
    var r := [h] + rest;
    forall i, j | 0 <= i < j < |r| ensures at(r[i]) >= at(r[j]) {
      if i == 0 {
        var y := rest[j - 1];
        assert y in rest;
        if y != x {
          var k :| 0 <= k < |tail| && tail[k] == y;
          assert ([h] + tail)[k + 1] == y && ([h] + tail)[0] == h;
          assert at(h) >= at(y);
        }
      } else {
        assert r[i] == rest[i - 1] && r[j] == rest[j - 1];
      }
    }
  }

  /** `orderBy: { <time>: "desc" }`: the same rows, newest first. */
  function SortNewestFirst<T(==)>(xs: seq<T>, at: T -> int): (r: seq<T>)
    ensures NewestFirst(r, at)
    ensures multiset(r) == multiset(xs)
    decreases |xs|
  {
    if |xs| == 0 then []
    else
      assert xs == [xs[0]] + xs[1..];
      InsertNewest(xs[0], SortNewestFirst(xs[1..], at), at)
  }

  /** A permutation has the same elements. */
  lemma SameElements<T>(a: seq<T>, b: seq<T>)
    requires multiset(a) == multiset(b)
    ensures forall x :: x in a <==> x in b
  {
    forall x ensures x in a <==> x in b {
      assert x in a <==> x in multiset(a);
      assert x in b <==> x in multiset(b);
    }
  }

  /** A permutation of filtered rows is filtered rows, and keeps them all. */
  lemma RowsPermuted<T>(rows: seq<T>, r: seq<T>, keep: T -> bool, m: map<int, T>)
    requires multiset(r) == multiset(rows)
    requires forall i :: 0 <= i < |rows| ==> keep(rows[i]) && rows[i] in m.Values
    ensures forall i :: 0 <= i < |r| ==> keep(r[i]) && r[i] in m.Values
    ensures forall x :: x in rows ==> x in r
  {
    SameElements(r, rows);
    forall i | 0 <= i < |r| ensures keep(r[i]) && r[i] in m.Values {
      assert r[i] in rows;
      var j :| 0 <= j < |rows| && rows[j] == r[i];
    }
  }

  /** `findMany({ where, orderBy: { <time>: "desc" } })`: the rows that pass
      `keep`, newest first. */
  function NewestRows<T(==)>(m: map<int, T>, n: int, keep: T -> bool, at: T -> int): (r: seq<T>)
    ensures NewestFirst(r, at)
    ensures forall i :: 0 <= i < |r| ==> keep(r[i]) && r[i] in m.Values
    ensures Below(m, n) ==> forall k :: k in m && keep(m[k]) ==> m[k] in r
  {
    var rows := Rows(m, n, keep);
    var r := SortNewestFirst(rows, at);
    RowsPermuted(rows, r, keep, m);
    r
  }

  /** `skip`/`take`: at most `take` rows starting at position `skip`. */
  function Page<T>(xs: seq<T>, skip: nat, take: nat): (r: seq<T>)
    ensures |r| == if skip >= |xs| then 0 else Min(take, |xs| - skip)
    ensures forall i :: 0 <= i < |r| ==> r[i] == xs[skip + i]
  {
    if skip >= |xs| then [] else xs[skip..][..Min(take, |xs| - skip)]
  }

  /** Two consecutive windows make up the window that spans both. */
  lemma PageConcat<T>(xs: seq<T>, skip: nat, n: nat, m: nat)
    ensures Page(xs, skip, n) + Page(xs, skip + n, m) == Page(xs, skip, n + m)
  {
    var p, q, w := Page(xs, skip, n), Page(xs, skip + n, m), Page(xs, skip, n + m);
    assert |p| + |q| == |w|;
    forall i | 0 <= i < |w| ensures (p + q)[i] == w[i] {
      if i >= |p| {
        assert q[i - n] == xs[skip + n + (i - n)];
      }
    }
  }

  /** A window of a newest-first sequence is newest first. */
  lemma PageNewestFirst<T>(xs: seq<T>, skip: nat, take: nat, at: T -> int)
    requires NewestFirst(xs, at)
    ensures NewestFirst(Page(xs, skip, take), at)
  {
    var r := Page(xs, skip, take);
    forall i, j | 0 <= i < j < |r| ensures at(r[i]) >= at(r[j]) {
      assert r[i] == xs[skip + i] && r[j] == xs[skip + j];
    }
  }

  function Min(a: int, b: int): int
  {
    if a <= b then a else b
  }

  /** `updateMany`: every row rewritten by `f` (which leaves the rows its
      filter rejects as they are). */
  function UpdateEach<T>(m: map<int, T>, f: T -> T): (r: map<int, T>)
    ensures r.Keys == m.Keys
    ensures forall k :: k in m ==> r[k] == f(m[k])
  {
    map k | k in m :: f(m[k])
  }

  /** `list?.map(...) || []`: the uploaded URLs, or none. */
  function MediaOrNone(urls: Option<seq<string>>): (r: seq<string>)
    ensures urls.Some? ==> r == urls.value
    ensures urls.None? ==> r == []
  {
    if urls.Some? then urls.value else []
  }

  /** A query-string parameter: absent, or the text given. */
  datatype Query = Absent | Given(text: string)

  /** `req.query.q ? Number(req.query.q) : d`. Only decimal numerals are
      read as numbers; any other non-empty text is NaN, which the ORM refuses
      as a page bound. */
  function NumberIfGiven(q: Query, d: nat): (r: Result<nat>)
    ensures q.Absent? || q.text == "" ==> r == Ok(d)
    ensures q.Given? && q.text != "" && IsDecimal(q.text) ==> r == Ok(ParseDecimal(q.text))
    ensures q.Given? && q.text != "" && !IsDecimal(q.text) ==> r == Fail(PrismaValidation(None))
  {
    if q.Absent? || q.text == "" then Ok(d)
    else if IsDecimal(q.text) then Ok(ParseDecimal(q.text))
    else Fail(PrismaValidation(None))
  }

  /** A query holding a shown number is read as that number. */
  lemma NumberIfGivenShow(n: nat, d: nat)
    ensures NumberIfGiven(Given(ShowNat(n)), d) == Ok(n)
  {
    ParseShow(n);
  }

  /** `Number(req.query.q) || d`: NaN and 0 both fall back to `d`. */
  function NumberOrDefault(q: Query, d: nat): (r: nat)
    ensures q.Given? && IsDecimal(q.text) && ParseDecimal(q.text) != 0 ==> r == ParseDecimal(q.text)
    ensures !(q.Given? && IsDecimal(q.text) && ParseDecimal(q.text) != 0) ==> r == d
  {
    if q.Given? && IsDecimal(q.text) && ParseDecimal(q.text) != 0 then ParseDecimal(q.text) else d
  }

  /** A numeral reads back as its value, except that zero falls back to the
      default. */
  lemma NumberOrDefaultShow(n: nat, d: nat)
    ensures NumberOrDefault(Given(ShowNat(n)), d) == if n == 0 then d else n
  {
    ParseShow(n);
  }
}

=== FILE: stories.dfy ===
/** Stories: creation with its 24-hour expiry and the author's archive,
    deletion, the per-profile listing, and the minute-by-minute sweep that
    hides expired stories and files them in their author's archive. */
module Stories {
  import opened Base
  import opened Store
  import opened Validators

  /** 24 hours in milliseconds. */
  const Day: int := 24 * 60 * 60 * 1000

  /** The body of `addStrory`, with the uploaded photo and video URLs. */
  datatype StoryRequest = StoryRequest(
    content: Option<Value>, authorId: int, privacy: Option<Value>, image: Option<string>, video: Option<string>)

  /** The author's archive, if there is one. */
  function ArchiveOf(s: State, profileId: int): (r: Option<int>)
    ensures r.Some? ==> r.value in s.archives && s.archives[r.value].profileId == profileId
    ensures r.None? && Below(s.archives, s.nextId) ==>
              forall a :: a in s.archives ==> s.archives[a].profileId != profileId
  {
    Find(s.archives, s.nextId, (a: Archive) => a.profileId == profileId)
  }

  /** At most one archive per profile (`profileId` is a unique column). */
  ghost predicate ArchivesUnique(archives: map<int, Archive>)
  {
    forall a, b :: a in archives && b in archives && archives[a].profileId == archives[b].profileId ==> a == b
  }

  /** `addStrory`: 404 for a missing profile, then `storyValidator`; the
      story is stored visible, outside any archive, expiring one day after
      `now`; the author's archive is created when they have none. */
  function AddStory(s: State, req: StoryRequest, now: int, f: Formats): (r: Result<State>)
    ensures req.authorId !in s.profiles ==> r == Fail(AppError(404, "Profile not found"))
    ensures r.Ok? <==> req.authorId in s.profiles && TextAtLeast(req.content, 3) && EnumValue(req.privacy, None).Some?
                       && UrlOrAbsent(req.image, f) && UrlOrAbsent(req.video, f)
    ensures r.Fail? && req.authorId in s.profiles ==> r.error.ZodError?
    ensures r.Ok? ==> r.value.stories == s.stories[s.nextId := Story(s.nextId, req.authorId, req.content.value.text,
                        EnumValue(req.privacy, None).value, now + Day, true, None, req.image, req.video)]
    ensures r.Ok? ==> r.value == s.(stories := r.value.stories, archives := r.value.archives, nextId := r.value.nextId)
    ensures r.Ok? && ArchiveOf(s, req.authorId).Some? ==> r.value.archives == s.archives && r.value.nextId == s.nextId + 1
    ensures r.Ok? && ArchiveOf(s, req.authorId).None? ==>
              r.value.archives == s.archives[s.nextId + 1 := Archive(s.nextId + 1, req.authorId)] && r.value.nextId == s.nextId + 2
  {
    if req.authorId !in s.profiles then Fail(AppError(404, "Profile not found"))
    else
      var input := StoryInput(Some(Num(req.authorId)), req.content, req.privacy, Some(Date(Some(now + Day))), req.image, req.video);
      match ParseStory(input, f)
      case Fail(e) => Fail(e)
      case Ok(d) =>
        var story := Story(s.nextId, d.authorId, d.content, d.privacy, d.expiryTime, true, None, d.image, d.video);
        var s1 := s.(stories := s.stories[s.nextId := story], nextId := s.nextId + 1);
        if ArchiveOf(s, d.authorId).Some? then Ok(s1)
        else Ok(s1.(archives := s1.archives[s1.nextId := Archive(s1.nextId, d.authorId)], nextId := s1.nextId + 1))
  }

  /** Adding a story keeps at most one archive per profile. */
  lemma AddStoryKeepsArchivesUnique(s: State, req: StoryRequest, now: int, f: Formats)
    requires Below(s.archives, s.nextId) && ArchivesUnique(s.archives)
    requires AddStory(s, req, now, f).Ok?
    ensures ArchivesUnique(AddStory(s, req, now, f).value.archives)
  {
    if ArchiveOf(s, req.authorId).None? {
      NewArchiveUnique(s.archives, s.nextId, s.nextId + 1, req.authorId);
    }
  }

  /** After a story is added, its author has an archive: the one they had,
      or the new one. */
  lemma AddStoryGivesArchive(s: State, req: StoryRequest, now: int, f: Formats)
    requires Below(s.archives, s.nextId)
    requires AddStory(s, req, now, f).Ok?
    ensures ArchiveOf(AddStory(s, req, now, f).value, req.authorId).Some?
  {
    var s' := AddStory(s, req, now, f).value;
    var old_ := ArchiveOf(s, req.authorId);
    if old_.None? {
      assert s'.archives == s.archives[s.nextId + 1 := Archive(s.nextId + 1, req.authorId)] && s'.nextId == s.nextId + 2;
      ArchiveFoundIn(s.archives, s.nextId, Archive(s.nextId + 1, req.authorId));
      ArchiveFound(s', s.nextId + 1, req.authorId);
    } else {
      assert s'.archives == s.archives && s'.nextId == s.nextId + 1;
      ArchiveFound(s', old_.value, req.authorId);
    }
  }

  /** A new archive for a profile that had none keeps archives unique. */
  lemma NewArchiveUnique(archives: map<int, Archive>, n: int, k: int, a: int)
    requires ArchivesUnique(archives) && Below(archives, n) && 0 <= n <= k
    requires forall x :: x in archives ==> archives[x].profileId != a
    ensures ArchivesUnique(archives[k := Archive(k, a)]) && Below(archives[k := Archive(k, a)], k + 1)
  {
  }

  /** An archive stored at the next id but one is below the new counter. */
  lemma ArchiveFoundIn(archives: map<int, Archive>, n: nat, a: Archive)
    requires Below(archives, n)
    ensures Below(archives[n + 1 := a], n + 2) && n + 1 in archives[n + 1 := a]
  {
  }

  /** An archive below the counter is found. */
  lemma ArchiveFound(s: State, k: int, a: int)
    requires Below(s.archives, s.nextId) && k in s.archives && s.archives[k].profileId == a
    ensures ArchiveOf(s, a).Some?
  {
  }

  /** `deleteStory`: 404 for a missing story, otherwise exactly that row goes. */
  function DeleteStory(s: State, id: int): (r: Result<State>)
    ensures id !in s.stories ==> r == Fail(AppError(404, "Story not found"))
    ensures id in s.stories ==> r.Ok? && r.value == s.(stories := s.stories - {id})
  {
    if id !in s.stories then Fail(AppError(404, "Story not found"))
    else Ok(s.(stories := s.stories - {id}))
  }

  /** Adding a story and deleting it leaves the stories as they were. */
  lemma AddThenDeleteStory(s: State, req: StoryRequest, now: int, f: Formats)
    requires Below(s.stories, s.nextId)
    requires AddStory(s, req, now, f).Ok?
    ensures DeleteStory(AddStory(s, req, now, f).value, s.nextId).Ok?
    ensures DeleteStory(AddStory(s, req, now, f).value, s.nextId).value.stories == s.stories
  {
    assert s.nextId !in s.stories;
  }

  // ---------------------------------------------------------------------------
  // getStories

  /** The filter `getStories` runs: `"PUBLIC" || "FRIENDS"` is the string
      "PUBLIC", so only public stories match. */
  predicate ListedAsWritten(st: Story, profileId: int)
  {
    st.authorId == profileId && st.visible && st.privacy == Public
  }

  /** The filter evidently meant: public and friends-only stories. */
  predicate ListedAsIntended(st: Story, profileId: int)
  {
    st.authorId == profileId && st.visible && (st.privacy == Public || st.privacy == Friends)
  }

  /** `getStories`: the profile's visible public stories, in id order. */
  function GetStories(s: State, profileId: int): (r: seq<Story>)
    ensures forall i :: 0 <= i < |r| ==> r[i] in s.stories.Values && r[i].authorId == profileId
                                         && r[i].visible && r[i].privacy == Public
    ensures Below(s.stories, s.nextId) ==>
              forall k :: k in s.stories && ListedAsWritten(s.stories[k], profileId) ==> s.stories[k] in r
  {
    Rows(s.stories, s.nextId, (st: Story) => ListedAsWritten(st, profileId))
  }

  /** A visible friends-only story is never listed. */
  lemma GetStoriesDropsFriends(s: State, profileId: int, k: int)
    requires k in s.stories && s.stories[k].privacy == Friends
    ensures s.stories[k] !in GetStories(s, profileId)
  {
    var r := GetStories(s, profileId);
    forall i | 0 <= i < |r| ensures r[i] != s.stories[k] {
      assert r[i].privacy == Public;
    }
  }

  /** `getStories` as intended: visible public and friends-only stories. */
  function GetStoriesIntended(s: State, profileId: int): (r: seq<Story>)
    ensures forall i :: 0 <= i < |r| ==> r[i] in s.stories.Values && ListedAsIntended(r[i], profileId)
    ensures Below(s.stories, s.nextId) ==>
              forall k :: k in s.stories && ListedAsIntended(s.stories[k], profileId) ==> s.stories[k] in r
  {
    Rows(s.stories, s.nextId, (st: Story) => ListedAsIntended(st, profileId))
  }

  /** The intended listing shows a visible friends-only story of the profile. */
  lemma IntendedListsFriends(s: State, profileId: int, k: int)
    requires WellFormed(s)
    requires k in s.stories && s.stories[k].authorId == profileId && s.stories[k].visible && s.stories[k].privacy == Friends
    ensures s.stories[k] in GetStoriesIntended(s, profileId)
  {
  }

  // ---------------------------------------------------------------------------
  // The expiry sweep

  /** The sweep's query: expired, still visible, and already in an archive. */
  predicate Selected(st: Story, now: int)
  {
    st.expiryTime <= now && st.visible && st.archiveId.Some?
  }

  /** Every story that `selected` picks and whose author has an archive is
      hidden and connected to that archive, in its own transaction; a story
      whose author has no archive fails its transaction and stays as it was.
      Each transaction touches only its own story row, so their order does
      not matter. */
  function SweepTable(stories: map<int, Story>, selected: Story -> bool, archiveOf: int -> Option<int>)
    : (r: map<int, Story>)
    ensures r.Keys == stories.Keys
    ensures forall k :: k in stories && selected(stories[k]) && archiveOf(stories[k].authorId).Some? ==>
              r[k] == stories[k].(visible := false, archiveId := archiveOf(stories[k].authorId))
    ensures forall k :: k in stories && !(selected(stories[k]) && archiveOf(stories[k].authorId).Some?) ==>
              r[k] == stories[k]
  {
    map k | k in stories ::
      if selected(stories[k]) && archiveOf(stories[k].authorId).Some?
      then stories[k].(visible := false, archiveId := archiveOf(stories[k].authorId))
      else stories[k]
  }

  /** `moveStoryToArchive` at time `now`. */
  function Sweep(s: State, now: int): (r: State)
    ensures r == s.(stories := r.stories) && r.stories.Keys == s.stories.Keys
    ensures forall k :: k in s.stories && Selected(s.stories[k], now) && ArchiveOf(s, s.stories[k].authorId).Some? ==>
              r.stories[k] == s.stories[k].(visible := false, archiveId := ArchiveOf(s, s.stories[k].authorId))
    ensures forall k :: k in s.stories && !(Selected(s.stories[k], now) && ArchiveOf(s, s.stories[k].authorId).Some?) ==>
              r.stories[k] == s.stories[k]
  {
    s.(stories := SweepTable(s.stories, (st: Story) => Selected(st, now), (p: int) => ArchiveOf(s, p)))
  }

  /** Sweeping twice at the same time is sweeping once. */
  lemma SweepIdempotent(s: State, now: int)
    ensures Sweep(Sweep(s, now), now) == Sweep(s, now)
  {
    var s1 := Sweep(s, now);
    var s2 := Sweep(s1, now);
    assert s1.archives == s.archives && s1.nextId == s.nextId;
    forall a ensures ArchiveOf(s1, a) == ArchiveOf(s, a) {
    }
    forall k | k in s1.stories ensures s2.stories[k] == s1.stories[k] {
    }
    assert s2.stories == s1.stories;
  }

  /** A story `addStrory` creates has no archive id, so no sweep ever selects
      it: it stays visible however long ago it expired. */
  lemma SweepNeverHidesNewStory(s: State, req: StoryRequest, created: int, now: int, f: Formats)
    requires AddStory(s, req, created, f).Ok?
    ensures var s1 := AddStory(s, req, created, f).value;
      s.nextId in Sweep(s1, now).stories && Sweep(s1, now).stories[s.nextId].visible
  {
  }

  /** The sweep without the archive-id filter: expired visible stories. */
  predicate SelectedIntended(st: Story, now: int)
  {
    st.expiryTime <= now && st.visible
  }

  /** The sweep as intended: every expired visible story whose author has an
      archive is hidden and filed there. */
  function SweepIntended(s: State, now: int): (r: State)
    ensures r == s.(stories := r.stories) && r.stories.Keys == s.stories.Keys
    ensures forall k :: k in s.stories && SelectedIntended(s.stories[k], now) && ArchiveOf(s, s.stories[k].authorId).Some? ==>
              r.stories[k] == s.stories[k].(visible := false, archiveId := ArchiveOf(s, s.stories[k].authorId))
    ensures forall k :: k in s.stories && !(SelectedIntended(s.stories[k], now) && ArchiveOf(s, s.stories[k].authorId).Some?) ==>
              r.stories[k] == s.stories[k]
  {
    s.(stories := SweepTable(s.stories, (st: Story) => SelectedIntended(st, now), (p: int) => ArchiveOf(s, p)))
  }

  /** With the intended sweep, a story added at `created` is hidden and
      filed in its author's archive by any sweep a day or more later. */
  lemma IntendedSweepArchivesNewStory(s: State, req: StoryRequest, created: int, now: int, f: Formats)
    requires Below(s.archives, s.nextId)
    requires AddStory(s, req, created, f).Ok?
    requires now >= created + Day
    ensures var s1 := AddStory(s, req, created, f).value;
      && s.nextId in SweepIntended(s1, now).stories
      && !SweepIntended(s1, now).stories[s.nextId].visible
      && SweepIntended(s1, now).stories[s.nextId].archiveId == ArchiveOf(s1, req.authorId)
      && ArchiveOf(s1, req.authorId).Some?
  {
    AddStoryGivesArchive(s, req, created, f);
    AddStoryRow(s, req, created, f);
    var s1 := AddStory(s, req, created, f).value;
    SweepIntendedFiles(s1, now, s.nextId);
  }

  /** The row `addStrory` writes: visible, in no archive, expiring a day
      after creation. */
  lemma AddStoryRow(s: State, req: StoryRequest, created: int, f: Formats)
    requires AddStory(s, req, created, f).Ok?
    ensures var st := AddStory(s, req, created, f).value.stories;
      && s.nextId in st && st[s.nextId].visible && st[s.nextId].archiveId.None?
      && st[s.nextId].expiryTime == created + Day && st[s.nextId].authorId == req.authorId
  {
  }

  /** The intended sweep files an expired visible story whose author has an
      archive. */
  lemma SweepIntendedFiles(s: State, now: int, k: int)
    requires k in s.stories && SelectedIntended(s.stories[k], now) && ArchiveOf(s, s.stories[k].authorId).Some?
    ensures k in SweepIntended(s, now).stories
    ensures SweepIntended(s, now).stories[k] == s.stories[k].(visible := false, archiveId := ArchiveOf(s, s.stories[k].authorId))
  {
  }

  /** The intended sweep is idempotent too. */
  lemma SweepIntendedIdempotent(s: State, now: int)
    ensures SweepIntended(SweepIntended(s, now), now) == SweepIntended(s, now)
  {
    var s1 := SweepIntended(s, now);
    var s2 := SweepIntended(s1, now);
    forall a ensures ArchiveOf(s1, a) == ArchiveOf(s, a) {
    }
    forall k | k in s1.stories ensures s2.stories[k] == s1.stories[k] {
    }
    assert s2.stories == s1.stories;
  }
}

=== FILE: text.dfy ===
/** The string operations the handlers use from JavaScript's `String`:
    `startsWith`, `split` on one character, `join`, `trim`, and the hex
    encoding of random bytes. */
module Text {

  predicate StartsWith(s: string, prefix: string)
  {
    |prefix| <= |s| && s[..|prefix|] == prefix
  }

  /** `s.split(sep)` for a one-character separator: the maximal runs between
      separators, including empty ones; `"".split(sep)` is `[""]`. */
  function Split(s: string, sep: char): (parts: seq<string>)
    ensures |parts| >= 1
    ensures forall i :: 0 <= i < |parts| ==> sep !in parts[i]
    decreases |s|
  {
    if |s| == 0 then [""]
    else if s[0] == sep then [""] + Split(s[1..], sep)
    else
      var rest := Split(s[1..], sep);
      [[s[0]] + rest[0]] + rest[1..]
  }

  /** `parts.join(sep)`. */
  function Join(parts: seq<string>, sep: string): string
    decreases |parts|
  {
    if |parts| == 0 then ""
    else if |parts| == 1 then parts[0]
    else parts[0] + sep + Join(parts[1..], sep)
  }

  /** Number of occurrences of `c` in `s`. */
  function Count(s: string, c: char): nat
  {
    if |s| == 0 then 0 else (if s[0] == c then 1 else 0) + Count(s[1..], c)
  }

  lemma JoinCons(p: string, rest: seq<string>, sep: string)
    requires |rest| >= 1
    ensures Join([p] + rest, sep) == p + sep + Join(rest, sep)
  {
    assert ([p] + rest)[1..] == rest;
  }

  /** Prefixing the first part prefixes the joined string. */
  lemma {:induction false} JoinPrependHead(c: char, parts: seq<string>, sep: string)
    requires |parts| >= 1
    ensures Join([[c] + parts[0]] + parts[1..], sep) == [c] + Join(parts, sep)
  {
    var q := [[c] + parts[0]] + parts[1..];
    if |parts| == 1 {
      assert q == [[c] + parts[0]];
    } else {
      assert q == [[c] + parts[0]] + parts[1..];
      JoinCons([c] + parts[0], parts[1..], sep);
      JoinCons(parts[0], parts[1..], sep);
      assert parts == [parts[0]] + parts[1..];
    }
  }

  /** Splitting and joining back with the same separator gives the input. */
  lemma {:induction false} JoinSplit(s: string, sep: char)
    ensures Join(Split(s, sep), [sep]) == s
    decreases |s|
  {
    if |s| == 0 {
    } else if s[0] == sep {
      JoinSplit(s[1..], sep);
      JoinCons("", Split(s[1..], sep), [sep]);
      assert s == [sep] + s[1..];
    } else {
      JoinSplit(s[1..], sep);
      JoinPrependHead(s[0], Split(s[1..], sep), [sep]);
      assert s == [s[0]] + s[1..];
    }
  }

  /** Joining separator-free parts and splitting again gives the parts back. */
  lemma {:induction false} SplitJoin(parts: seq<string>, sep: char)
    requires |parts| >= 1
    requires forall i :: 0 <= i < |parts| ==> sep !in parts[i]
    ensures Split(Join(parts, [sep]), sep) == parts
    decreases |parts|, |parts[0]|
  {
    var p := parts[0];
    if |p| == 0 {
      if |parts| == 1 {
      } else {
        var tail := parts[1..];
        SplitJoin(tail, sep);
        var j := Join(parts, [sep]);
        assert j == [sep] + Join(tail, [sep]);
        assert j[1..] == Join(tail, [sep]);
        assert parts == [""] + tail;
      }
    } else {
      var shorter := [p[1..]] + parts[1..];
      assert forall i :: 0 <= i < |shorter| ==> sep !in shorter[i] by {
        forall i | 0 <= i < |shorter| ensures sep !in shorter[i] {
          if i == 0 {
            assert forall c :: c in p[1..] ==> c in p;
          } else {
            assert shorter[i] == parts[i];
          }
        }
      }
      SplitJoin(shorter, sep);
      var j := Join(parts, [sep]);
      var js := Join(shorter, [sep]);
      if |parts| == 1 {
        assert j == p && js == p[1..];
      } else {
        assert shorter[1..] == parts[1..];
        assert j == p + [sep] + Join(parts[1..], [sep]);
        assert js == p[1..] + [sep] + Join(parts[1..], [sep]);
      }
      assert j == [p[0]] + js;
      assert j[0] == p[0] && j[1..] == js;
      assert p[0] != sep by { assert p[0] in p; }
      assert p == [p[0]] + p[1..];
      assert parts == [p] + parts[1..];
    }
  }

  /** One more part than there are separators. */
  lemma {:induction false} SplitLength(s: string, sep: char)
    ensures |Split(s, sep)| == Count(s, sep) + 1
    decreases |s|
  {
    if |s| > 0 {
      SplitLength(s[1..], sep);
    }
  }

  /** The characters `String.prototype.trim` removes: the white space and
      line terminators of section 12.2 and 12.3 of ECMA-262, i.e. tab,
      vertical tab, form feed, space, no-break space, the byte order mark,
      the other space separators of Unicode category Zs, and line feed,
      carriage return, line and paragraph separator. */
  predicate IsSpace(c: char)
  {
    || c == ' ' || c == '\t' || c == '\n' || c == '\r' || c == '\U{000B}' || c == '\U{000C}'
    || c == '\U{00A0}' || c == '\U{FEFF}' || c == '\U{1680}'
    || ('\U{2000}' <= c <= '\U{200A}')
    || c == '\U{2028}' || c == '\U{2029}' || c == '\U{202F}' || c == '\U{205F}' || c == '\U{3000}'
  }

  function TrimStart(s: string): (r: string)
    ensures |r| <= |s| && r == s[|s| - |r|..]
    ensures forall i :: 0 <= i < |s| - |r| ==> IsSpace(s[i])
    ensures |r| > 0 ==> !IsSpace(r[0])
    decreases |s|
  {
    if |s| > 0 && IsSpace(s[0]) then
      var r := TrimStart(s[1..]);
      assert s[1..][|s| - 1 - |r|..] == s[|s| - |r|..];
      assert forall i :: 1 <= i < |s| - |r| ==> s[i] == s[1..][i - 1];
      r
    else s
  }

  function TrimEnd(s: string): (r: string)
    ensures |r| <= |s| && r == s[..|r|]
    ensures forall i :: |r| <= i < |s| ==> IsSpace(s[i])
    ensures |r| > 0 ==> !IsSpace(r[|r| - 1])
    decreases |s|
  {
    if |s| > 0 && IsSpace(s[|s| - 1]) then
      var r := TrimEnd(s[..|s| - 1]);
      assert s[..|s| - 1][..|r|] == s[..|r|];
      r
    else s
  }

  /** `s.trim()`: the slice of `s` left after removing leading and trailing
      white space; only white space is removed. */
  function Trim(s: string): (r: string)
    ensures LeadingSpace(s) + |r| <= |s|
    ensures r == s[LeadingSpace(s)..LeadingSpace(s) + |r|]
    ensures forall k :: 0 <= k < LeadingSpace(s) ==> IsSpace(s[k])
    ensures forall k :: LeadingSpace(s) + |r| <= k < |s| ==> IsSpace(s[k])
    ensures |r| > 0 ==> !IsSpace(r[0]) && !IsSpace(r[|r| - 1])
  {
    var t := TrimStart(s);
    var r := TrimEnd(t);
    NestedSlice(s, t, r);
    r
  }

  /** Number of white-space characters `trim` removes from the front. */
  function LeadingSpace(s: string): nat
  {
    |s| - |TrimStart(s)|
  }

  lemma NestedSlice(s: string, t: string, r: string)
    requires |t| <= |s| && t == s[|s| - |t|..] && |r| <= |t| && r == t[..|r|]
    requires forall i :: |r| <= i < |t| ==> IsSpace(t[i])
    ensures r == s[|s| - |t|..|s| - |t| + |r|]
    ensures forall k :: |s| - |t| + |r| <= k < |s| ==> IsSpace(s[k])
    ensures |r| > 0 ==> r[0] == t[0]
  {
    var i := |s| - |t|;
    forall k | i + |r| <= k < |s| ensures IsSpace(s[k]) {
      assert s[k] == t[k - i];
    }
  }

  /** Trimming adds no character. */
  lemma TrimKeepsOut(s: string, c: char)
    requires c !in s
    ensures c !in Trim(s)
  {
    var r := Trim(s);
    var a := LeadingSpace(s);
    forall k | 0 <= k < |r| ensures r[k] != c {
      assert r[k] == s[a + k];
    }
  }

  /** Trimming twice is trimming once. */
  lemma TrimIdempotent(s: string)
    ensures Trim(Trim(s)) == Trim(s)
  {
    var r := Trim(s);
    if |r| > 0 {
      assert TrimStart(r) == r;
      assert TrimEnd(r) == r;
    }
  }

  newtype byte = x: int | 0 <= x < 256

  const HexDigits: string := "0123456789abcdef"

  /** `buffer.toString("hex")`: two lower-case hex digits per byte, high nibble first. */
  function Hex(bytes: seq<byte>): (r: string)
    ensures |r| == 2 * |bytes|
  {
    if |bytes| == 0 then ""
    else
      var b := bytes[0] as int;
      [HexDigits[b / 16], HexDigits[b % 16]] + Hex(bytes[1..])
  }

  /** Every character of an encoding is a lower-case hex digit. */
  lemma {:induction false} HexIsDigits(bytes: seq<byte>)
    ensures forall i :: 0 <= i < |Hex(bytes)| ==> Hex(bytes)[i] in HexDigits
  {
    if |bytes| > 0 {
      HexIsDigits(bytes[1..]);
      var b := bytes[0] as int;
      assert Hex(bytes) == [HexDigits[b / 16], HexDigits[b % 16]] + Hex(bytes[1..]);
    }
  }

  /** The value of one lower-case hex digit (0 for any other character). */
  function DigitValue(c: char): (v: int)
    ensures 0 <= v < 16
  {
    if '0' <= c <= '9' then c as int - '0' as int
    else if 'a' <= c <= 'f' then c as int - 'a' as int + 10
    else 0
  }

  /** The inverse of `Hex`. */
  function Unhex(s: string): seq<byte>
    requires |s| % 2 == 0
    decreases |s|
  {
    if |s| == 0 then []
    else [(DigitValue(s[0]) * 16 + DigitValue(s[1])) as byte] + Unhex(s[2..])
  }

  lemma DigitValueOfDigit(i: int)
    requires 0 <= i < 16
    ensures DigitValue(HexDigits[i]) == i
  {
  }

  lemma ByteFromNibbles(b: byte)
    ensures (DigitValue(HexDigits[b as int / 16]) * 16 + DigitValue(HexDigits[b as int % 16])) as byte == b
  {
    var x := b as int;
    DigitValueOfDigit(x / 16);
    DigitValueOfDigit(x % 16);
  }

  lemma UnhexStep(h: string, tail: string, b: byte)
    requires |h| >= 2 && |h| % 2 == 0
    requires h[0] == HexDigits[b as int / 16] && h[1] == HexDigits[b as int % 16] && h[2..] == tail
    ensures Unhex(h) == [b] + Unhex(tail)
  {
    ByteFromNibbles(b);
  }

  /** Hex encoding loses nothing: decoding gives the bytes back. */
  lemma {:induction false} UnhexHex(bytes: seq<byte>)
    ensures Unhex(Hex(bytes)) == bytes
  {
    if |bytes| > 0 {
      var h := Hex(bytes);
      var b := bytes[0] as int;
      var tail := Hex(bytes[1..]);
      assert h == [HexDigits[b / 16], HexDigits[b % 16]] + tail;
      UnhexStep(h, tail, bytes[0]);
      UnhexHex(bytes[1..]);
      assert bytes == [bytes[0]] + bytes[1..];
    }
  }

  // ---------------------------------------------------------------------------
  // Length as JavaScript counts it.

  /** The UTF-16 code units of one character: a surrogate pair for a
      character outside the Basic Multilingual Plane, one unit otherwise. */
  function Utf16Units(c: char): nat
  {
    if c as int >= 0x1_0000 then 2 else 1
  }

  /** `s.length`: the number of UTF-16 code units of the text. */
  function Utf16Length(s: string): (r: nat)
    ensures |s| <= r <= 2 * |s|
  {
    if |s| == 0 then 0 else Utf16Units(s[0]) + Utf16Length(s[1..])
  }

  /** The JavaScript length is the number of characters exactly when every
      character lies in the Basic Multilingual Plane. */
  lemma {:induction false} Utf16LengthOfBmp(s: string)
    ensures Utf16Length(s) == |s| <==> forall i :: 0 <= i < |s| ==> s[i] as int < 0x1_0000
  {
    if |s| > 0 {
      Utf16LengthOfBmp(s[1..]);
      assert forall i :: 1 <= i < |s| ==> s[i] == s[1..][i - 1];
    }
  }

  /** A text made only of characters outside the Basic Multilingual Plane
      is twice as long for JavaScript as it has characters. */
  lemma {:induction false} Utf16LengthOfAstral(s: string)
    requires forall i :: 0 <= i < |s| ==> s[i] as int >= 0x1_0000
    ensures Utf16Length(s) == 2 * |s|
  {
    if |s| > 0 {
      assert forall i :: 0 <= i < |s| - 1 ==> s[1..][i] == s[i + 1];
      Utf16LengthOfAstral(s[1..]);
    }
  }

  // ---------------------------------------------------------------------------
  // Decimal numerals.

  predicate IsDecimal(s: string)
  {
    forall i :: 0 <= i < |s| ==> '0' <= s[i] <= '9'
  }

  /** The value of a decimal numeral; the empty text reads as 0, as it does
      for JavaScript's `Number("")`. */
  function ParseDecimal(s: string): nat
    requires IsDecimal(s)
    decreases |s|
  {
    if |s| == 0 then 0 else ParseDecimal(s[..|s| - 1]) * 10 + (s[|s| - 1] as int - '0' as int)
  }

  /** The shortest decimal numeral of `n` (template-literal interpolation). */
  function ShowNat(n: nat): (r: string)
    ensures IsDecimal(r) && |r| >= 1
    ensures |r| > 1 ==> r[0] != '0'
  {
    if n < 10 then [('0' as int + n) as char]
    else ShowNat(n / 10) + [('0' as int + n % 10) as char]
  }

  /** Reading back a shown number gives the number. */
  lemma {:induction false} ParseShow(n: nat)
    ensures ParseDecimal(ShowNat(n)) == n
  {
    if n >= 10 {
      var r := ShowNat(n);
      assert r[..|r| - 1] == ShowNat(n / 10);
      ParseShow(n / 10);
    }
  }
}

=== FILE: tokens.dfy ===
/** The token helpers: stripping secret keys from the user sent back, the
    cookie lifetimes, `parseInt` on their settings, and the password-reset
    token. Randomness and SHA-256 are parameters. */
module Tokens {
  import opened Base
  import opened Text
  import opened Store

  // ---------------------------------------------------------------------------
  // exclude

  /** `Object.fromEntries(Object.entries(o).filter(([k]) => !keys.includes(k)))`. */
  function Exclude<V>(entries: seq<(string, V)>, keys: seq<string>): seq<(string, V)>
  {
    if |entries| == 0 then []
    else if entries[0].0 in keys then Exclude(entries[1..], keys)
    else [entries[0]] + Exclude(entries[1..], keys)
  }

  /** What `exclude` keeps is exactly the entries whose key is not listed, in
      their order: no listed key survives, and no other entry is lost. */
  lemma {:induction false} ExcludeKeeps<V>(entries: seq<(string, V)>, keys: seq<string>)
    ensures forall i :: 0 <= i < |Exclude(entries, keys)| ==>
              Exclude(entries, keys)[i].0 !in keys && Exclude(entries, keys)[i] in entries
    ensures forall i :: 0 <= i < |entries| && entries[i].0 !in keys ==> entries[i] in Exclude(entries, keys)
    ensures |Exclude(entries, keys)| <= |entries|
  {
    if |entries| > 0 {
      ExcludeKeeps(entries[1..], keys);
      var rest := Exclude(entries[1..], keys);
      assert forall i :: 1 <= i < |entries| ==> entries[i] == entries[1..][i - 1];
      if entries[0].0 !in keys {
        assert forall i :: 0 <= i < |rest| ==> ([entries[0]] + rest)[i + 1] == rest[i];
      }
    }
  }

  /** With nothing to exclude, every entry stays, in its place. */
  lemma {:induction false} ExcludeNothing<V>(entries: seq<(string, V)>)
    ensures Exclude(entries, []) == entries
  {
    if |entries| > 0 {
      ExcludeNothing(entries[1..]);
      assert entries == [entries[0]] + entries[1..];
    }
  }

  /** Excluding twice is excluding once. */
  lemma {:induction false} ExcludeIdempotent<V>(entries: seq<(string, V)>, keys: seq<string>)
    ensures Exclude(Exclude(entries, keys), keys) == Exclude(entries, keys)
  {
    if |entries| > 0 {
      ExcludeIdempotent(entries[1..], keys);
      if entries[0].0 !in keys {
        var r := Exclude(entries, keys);
        assert r[1..] == Exclude(entries[1..], keys);
      }
    }
  }

  /** The user record as `Object.entries` lists it, column by column. */
  function UserEntries(u: User): seq<(string, Value)>
  {
    [("id", Num(u.id)), ("username", Str(u.username)), ("email", Str(u.email)), ("password", Str(u.password)),
     ("birthDate", Date(Some(u.birthDate))), ("active", Bool(u.active)),
     ("lastLogin", if u.lastLogin.Some? then Date(u.lastLogin) else Null),
     ("passwordResetToken", if u.passwordResetToken.Some? then Str(u.passwordResetToken.value) else Null),
     ("passwordResetTokenExpiry", if u.passwordResetTokenExpiry.Some? then Date(u.passwordResetTokenExpiry) else Null)]
  }

  const SecretKeys: seq<string> := ["password", "passwordResetToken", "passwordResetTokenExpiry"]

  /** Excluding from a concatenation excludes from each part. */
  lemma {:induction false} ExcludeAppend<V>(a: seq<(string, V)>, b: seq<(string, V)>, keys: seq<string>)
    ensures Exclude(a + b, keys) == Exclude(a, keys) + Exclude(b, keys)
  {
    if |a| > 0 {
      ExcludeAppend(a[1..], b, keys);
      assert (a + b)[1..] == a[1..] + b;
    } else {
      assert a + b == b;
    }
  }

  /** One entry at a time: the head is kept unless its key is excluded. */
  lemma ExcludeCons<V>(head: (string, V), tail: seq<(string, V)>, keys: seq<string>)
    ensures Exclude([head] + tail, keys) == if head.0 in keys then Exclude(tail, keys)
                                            else [head] + Exclude(tail, keys)
  {
    assert ([head] + tail)[1..] == tail;
  }

  /** The user `responseAndTokens` puts in the body. */
  function ResponseUser(u: User): seq<(string, Value)>
  {
    Exclude(UserEntries(u), SecretKeys)
  }

  /** `exclude` walks the user's columns one by one. */
  lemma ExcludeUserEntries(e: seq<(string, Value)>)
    requires |e| == 9
    requires e[0].0 !in SecretKeys && e[1].0 !in SecretKeys && e[2].0 !in SecretKeys && e[3].0 in SecretKeys
    requires e[4].0 !in SecretKeys && e[5].0 !in SecretKeys && e[6].0 !in SecretKeys
    requires e[7].0 in SecretKeys && e[8].0 in SecretKeys
    ensures Exclude(e, SecretKeys) == [e[0]] + ([e[1]] + ([e[2]] + ([e[4]] + ([e[5]] + [e[6]]))))
  {
    var k := SecretKeys;
    var t8 := [e[8]];
    var t7 := [e[7]] + t8;
    var t6 := [e[6]] + t7;
    var t5 := [e[5]] + t6;
    var t4 := [e[4]] + t5;
    var t3 := [e[3]] + t4;
    var t2 := [e[2]] + t3;
    var t1 := [e[1]] + t2;
    assert e == [e[0]] + t1;
    ExcludeCons(e[8], [], k);
    assert [e[8]] + [] == t8;
    ExcludeCons(e[7], t8, k);
    ExcludeCons(e[6], t7, k);
    ExcludeCons(e[5], t6, k);
    ExcludeCons(e[4], t5, k);
    ExcludeCons(e[3], t4, k);
    ExcludeCons(e[2], t3, k);
    ExcludeCons(e[1], t2, k);
    ExcludeCons(e[0], t1, k);
  }

  /** The response user carries no password hash and no reset-token field:
      it is exactly the six public columns, in column order. */
  lemma ResponseUserColumns(u: User)
    ensures forall i :: 0 <= i < |ResponseUser(u)| ==> ResponseUser(u)[i].0 !in SecretKeys
    ensures ResponseUser(u) == [("id", Num(u.id)), ("username", Str(u.username)), ("email", Str(u.email)),
                                ("birthDate", Date(Some(u.birthDate))), ("active", Bool(u.active)),
                                ("lastLogin", if u.lastLogin.Some? then Date(u.lastLogin) else Null)]
  {
    var e := UserEntries(u);
    ExcludeUserEntries(e);
  }

  // ---------------------------------------------------------------------------
  // Cookie lifetimes

  /** The decimal digits at the start of `s`. */
  function DigitPrefix(s: string): (r: string)
    ensures IsDecimal(r) && r <= s
    ensures |r| < |s| ==> !('0' <= s[|r|] <= '9')
  {
    if |s| == 0 || !('0' <= s[0] <= '9') then ""
    else [s[0]] + DigitPrefix(s[1..])
  }

  /** `parseInt(s)` with no radix: leading white space, an optional sign,
      then either "0x" or "0X" and at least one hex digit, or at least one
      decimal digit; anything after the digits is ignored; no digits is NaN. */
  function ParseInt(s: string): Option<int>
  {
    ParseSigned(TrimStart(s))
  }

  /** The prefix that switches `parseInt` to base 16. */
  predicate HasHexPrefix(t: string)
  {
    |t| >= 2 && t[0] == '0' && (t[1] == 'x' || t[1] == 'X')
  }

  /** The magnitude after the sign: hexadecimal after the prefix, decimal
      otherwise, and NaN when no digit follows. */
  function ParseMagnitude(t: string): Option<nat>
  {
    if HasHexPrefix(t) then
      var digits := HexDigitPrefix(t[2..]);
      if |digits| == 0 then None else Some(ParseHex(digits))
    else
      var digits := DigitPrefix(t);
      if |digits| == 0 then None else Some(ParseDecimal(digits))
  }

  /** `parseInt` after the leading white space. */
  function ParseSigned(t: string): Option<int>
  {
    var signed := |t| > 0 && (t[0] == '-' || t[0] == '+');
    var magnitude := ParseMagnitude(if signed then t[1..] else t);
    if magnitude.None? then None
    else
      var m: int := magnitude.value;
      if signed && t[0] == '-' then Some(-m) else Some(m)
  }

  predicate IsHexDigit(c: char)
  {
    '0' <= c <= '9' || 'a' <= c <= 'f' || 'A' <= c <= 'F'
  }

  /** The hex digits, of either case, at the start of `s`. */
  function HexDigitPrefix(s: string): (r: string)
    ensures r <= s && forall i :: 0 <= i < |r| ==> IsHexDigit(r[i])
    ensures |r| < |s| ==> !IsHexDigit(s[|r|])
  {
    if |s| == 0 || !IsHexDigit(s[0]) then ""
    else [s[0]] + HexDigitPrefix(s[1..])
  }

  function HexDigitValue(c: char): (v: nat)
    ensures v < 16
  {
    if '0' <= c <= '9' then c as int - '0' as int
    else if 'a' <= c <= 'f' then c as int - 'a' as int + 10
    else if 'A' <= c <= 'F' then c as int - 'A' as int + 10
    else 0
  }

  /** The value of a hexadecimal numeral. */
  function ParseHex(s: string): nat
    decreases |s|
  {
    if |s| == 0 then 0 else ParseHex(s[..|s| - 1]) * 16 + HexDigitValue(s[|s| - 1])
  }

  lemma {:induction false} HexDigitPrefixOfNumeral(h: string, rest: string)
    requires forall i :: 0 <= i < |h| ==> IsHexDigit(h[i])
    requires |rest| > 0 ==> !IsHexDigit(rest[0])
    ensures HexDigitPrefix(h + rest) == h
  {
    if |h| > 0 {
      assert (h + rest)[1..] == h[1..] + rest;
      HexDigitPrefixOfNumeral(h[1..], rest);
    } else {
      assert h + rest == rest;
    }
  }

  /** After "0x", `parseInt` reads the hex digits in base 16, whatever
      follows them after a non-hex character. */
  lemma ParseIntHex(h: string, rest: string)
    requires |h| > 0 && forall i :: 0 <= i < |h| ==> IsHexDigit(h[i])
    requires |rest| > 0 ==> !IsHexDigit(rest[0])
    ensures ParseInt("0x" + h + rest) == Some(ParseHex(h))
  {
    var tail := h + rest;
    var s := "0x" + tail;
    assert "0x" + h + rest == s;
    assert s[0] == '0' && s[1] == 'x' && s[2..] == tail;
    assert !IsSpace('0');
    TrimStartKeeps(s);
    HexDigitPrefixOfNumeral(h, rest);
    HexMagnitude(s, h);
  }

  lemma HexMagnitude(t: string, h: string)
    requires HasHexPrefix(t) && |h| > 0 && HexDigitPrefix(t[2..]) == h
    ensures ParseSigned(t) == Some(ParseHex(h))
  {
    assert ParseMagnitude(t) == Some(ParseHex(h));
  }

  /** "0x1A" is twenty-six, where a decimal-only reading would give 0. */
  lemma HexSettingReadsSixteen()
    ensures ParseInt("0x1A") == Some(26)
  {
    ReadsHexDigits();
    OneAIsTwentySix();
  }

  lemma ReadsHexDigits()
    ensures ParseInt("0x1A") == Some(ParseHex("1A"))
  {
    ParseIntHex("1A", "");
    assert "0x" + "1A" + "" == "0x1A";
  }

  lemma OneAIsTwentySix()
    ensures ParseHex("1A") == 26
  {
    assert "1A"[..1] == "1";
  }

  lemma {:induction false} DigitPrefixOfDecimal(s: string)
    requires IsDecimal(s)
    ensures DigitPrefix(s) == s
  {
    if |s| > 0 {
      DigitPrefixOfDecimal(s[1..]);
      assert s == [s[0]] + s[1..];
    }
  }

  /** `parseInt` reads a decimal numeral as its value, whatever follows it
      after a non-digit, unless the numeral is "0" followed by an "x" or "X"
      (which ParseIntHex covers). */
  lemma ParseIntDecimal(d: string, rest: string)
    requires IsDecimal(d) && |d| > 0
    requires |rest| > 0 ==> !('0' <= rest[0] <= '9')
    requires d == "0" && |rest| > 0 ==> rest[0] != 'x' && rest[0] != 'X'
    ensures ParseInt(d + rest) == Some(ParseDecimal(d))
  {
    var s := d + rest;
    assert s[0] == d[0];
    TrimStartKeeps(s);
    DigitPrefixOfNumeral(d, rest);
    if |d| >= 2 {
      assert s[1] == d[1];
    } else if |rest| > 0 {
      assert s[1] == rest[0];
    }
    ParseUnsigned(s, d);
  }

  lemma ParseUnsigned(t: string, d: string)
    requires |t| > 0 && '0' <= t[0] <= '9' && !HasHexPrefix(t)
    requires IsDecimal(d) && |d| > 0 && DigitPrefix(t) == d
    ensures ParseSigned(t) == Some(ParseDecimal(d))
  {
  }

  /** Text that does not start with white space is left as it is. */
  lemma TrimStartKeeps(s: string)
    requires |s| > 0 && !IsSpace(s[0])
    ensures TrimStart(s) == s
  {
  }

  lemma {:induction false} DigitPrefixOfNumeral(d: string, rest: string)
    requires IsDecimal(d)
    requires |rest| > 0 ==> !('0' <= rest[0] <= '9')
    ensures DigitPrefix(d + rest) == d
  {
    if |d| > 0 {
      DigitPrefixOfNumeral(d[1..], rest);
      assert (d + rest)[1..] == d[1..] + rest;
    } else {
      assert d + rest == rest;
    }
  }

  /** `parseInt` reads back every numeral `ShowNat` writes. */
  lemma ParseIntShow(n: nat)
    ensures ParseInt(ShowNat(n)) == Some(n)
  {
    assert ShowNat(n) + "" == ShowNat(n);
    ParseIntDecimal(ShowNat(n), "");
    ParseShow(n);
  }

  /** `parseInt(setting || "0")`. */
  function CookieSetting(setting: Option<string>): Option<int>
  {
    ParseInt(if setting.None? || setting.value == "" then "0" else setting.value)
  }

  /** An unset or empty setting reads as 0, a decimal one as its value. */
  lemma CookieSettingValue(setting: Option<string>)
    ensures setting.None? || setting.value == "" ==> CookieSetting(setting) == Some(0)
    ensures setting.Some? && IsDecimal(setting.value) && setting.value != "" ==>
              CookieSetting(setting) == Some(ParseDecimal(setting.value))
  {
    assert "0" + "" == "0";
    ParseIntDecimal("0", "");
    if setting.Some? && IsDecimal(setting.value) && setting.value != "" {
      assert setting.value + "" == setting.value;
      ParseIntDecimal(setting.value, "");
    }
  }

  const DayMs: int := 24 * 60 * 60 * 1000

  /** The access cookie's `expires` for the parsed setting, as the number
      handed to `new Date`: the setting counts minutes, turned into days
      (`/ 60 / 24`) and then into milliseconds. Exact arithmetic; NaN (`None`)
      when the setting is not a number. */
  function AccessExpiry(now: int, minutes: Option<int>): Option<real>
  {
    match minutes
    case None => None
    case Some(n) => Some(now as real + (n as real) / 60.0 / 24.0 * (DayMs as real))
  }

  /** The refresh cookie's `expires` for the parsed setting, which counts
      days; NaN (`None`) when the setting is not a number. */
  function RefreshExpiry(now: int, days: Option<int>): Option<real>
  {
    match days
    case None => None
    case Some(n) => Some(now as real + (n * DayMs) as real)
  }

  function AccessCookieExpires(now: int, setting: Option<string>): Option<real>
  {
    AccessExpiry(now, CookieSetting(setting))
  }

  function RefreshCookieExpires(now: int, setting: Option<string>): Option<real>
  {
    RefreshExpiry(now, CookieSetting(setting))
  }

  /** An access cookie set for `n` minutes expires `n` minutes from now, and
      one whose setting is not a number gets NaN, which `SetAuthCookies`
      turns into a failure. */
  lemma AccessCookieLifetime(now: int, minutes: Option<int>)
    ensures minutes.Some? ==> AccessExpiry(now, minutes) == Some((now + minutes.value * 60000) as real)
    ensures minutes.None? ==> AccessExpiry(now, minutes).None?
  {
    if minutes.Some? {
      var n := minutes.value as real;
      assert n / 60.0 / 24.0 * (DayMs as real) == n * 60000.0;
    }
  }

  /** A refresh cookie set for `n` days expires `n` days from now, and one
      whose setting is not a number gets NaN. */
  lemma RefreshCookieLifetime(now: int, days: Option<int>)
    ensures days.Some? ==> RefreshExpiry(now, days) == Some((now + days.value * DayMs) as real)
    ensures days.None? ==> RefreshExpiry(now, days).None?
  {
  }

  /** The largest distance from the epoch, in milliseconds, that a `Date`
      can hold. */
  const MaxTime: int := 8_640_000_000_000_000

  /** `new Date(x)`: the time `x` truncated toward zero, or an invalid date
      (`None`) for NaN or a time beyond `MaxTime`. */
  function DateOf(x: Option<real>): (r: Option<int>)
    ensures r.Some? <==> x.Some? && -(MaxTime as real) <= x.value <= MaxTime as real
    ensures r.Some? ==> -MaxTime <= r.value <= MaxTime
    ensures r.Some? && x.value >= 0.0 ==> r.value as real <= x.value < r.value as real + 1.0
    ensures r.Some? && x.value < 0.0 ==> r.value as real - 1.0 < x.value <= r.value as real
  {
    if x.Some? && -(MaxTime as real) <= x.value <= MaxTime as real then
      Some(if x.value >= 0.0 then x.value.Floor else -((-x.value).Floor))
    else None
  }

  /** What cookie serialisation throws for an invalid `expires` date. */
  const InvalidExpires: Thrown := TypeError("option expires is invalid")

  /** The two `res.cookie` calls of `responseAndTokens`: the access cookie,
      then the refresh cookie, each with the expiry its setting gives. A
      setting that is not a number, or one that puts the expiry beyond what
      a `Date` holds, makes the call throw before any reply is sent. */
  function SetAuthCookies(now: int, accessSetting: Option<string>, refreshSetting: Option<string>)
    : (r: Result<(int, int)>)
    ensures r.Ok? <==> DateOf(AccessCookieExpires(now, accessSetting)).Some?
                       && DateOf(RefreshCookieExpires(now, refreshSetting)).Some?
    ensures r.Fail? ==> r.error == InvalidExpires
    ensures r.Ok? ==> r.value == (DateOf(AccessCookieExpires(now, accessSetting)).value,
                                  DateOf(RefreshCookieExpires(now, refreshSetting)).value)
  {
    CookiesFor(now, CookieSetting(accessSetting), CookieSetting(refreshSetting))
  }

  /** The cookies for settings already read by `parseInt`. */
  function CookiesFor(now: int, minutes: Option<int>, days: Option<int>): (r: Result<(int, int)>)
    ensures r.Ok? <==> DateOf(AccessExpiry(now, minutes)).Some? && DateOf(RefreshExpiry(now, days)).Some?
    ensures r.Fail? ==> r.error == InvalidExpires
    ensures r.Ok? ==> r.value == (DateOf(AccessExpiry(now, minutes)).value, DateOf(RefreshExpiry(now, days)).value)
  {
    var access := DateOf(AccessExpiry(now, minutes));
    var refresh := DateOf(RefreshExpiry(now, days));
    if access.None? || refresh.None? then Fail(InvalidExpires)
    else Ok((access.value, refresh.value))
  }

  /** A non-numeric access setting makes `responseAndTokens` fail, and with
      it every login and sign-up. (The refresh handler sets its access cookie
      through its own `res.cookie` call: see `RefreshAccessCookie`.) */
  lemma NonNumericSettingFails(now: int, accessSetting: string, refreshSetting: Option<string>)
    requires accessSetting != "" && ParseInt(accessSetting).None?
    ensures SetAuthCookies(now, Some(accessSetting), refreshSetting) == Fail(InvalidExpires)
  {
    assert CookieSetting(Some(accessSetting)) == ParseInt(accessSetting);
    assert AccessCookieExpires(now, Some(accessSetting)).None?;
  }

  /** The access cookie `refreshToken` sets through its own `res.cookie`
      call, for the setting as `parseInt(setting || "0")` read it: `expires`
      is `Date.now() + minutes * 60 * 1000`, and a NaN or out-of-range date
      makes the call throw, as in `responseAndTokens`. On success, the expiry
      in milliseconds. */
  function RefreshAccessCookie(now: int, minutes: Option<int>): (r: Result<int>)
    ensures r.Ok? <==> minutes.Some? && -MaxTime <= now + minutes.value * 60000 <= MaxTime
    ensures r.Fail? ==> r.error == InvalidExpires
    ensures r.Ok? ==> r.value == now + minutes.value * 60000
  {
    match minutes
    case None => Fail(InvalidExpires)
    case Some(n) =>
      var t := now + n * 60 * 1000;
      if -MaxTime <= t <= MaxTime then DateOfWhole(t); Ok(DateOf(Some(t as real)).value)
      else Fail(InvalidExpires)
  }

  /** For the same setting, the refresh handler's access cookie is valid
      exactly when the one `responseAndTokens` sets is, and expires at the
      same instant: the two spellings of minutes-to-milliseconds agree. */
  lemma RefreshCookieAgreesWithLogin(now: int, minutes: Option<int>)
    ensures RefreshAccessCookie(now, minutes).Ok? <==> DateOf(AccessExpiry(now, minutes)).Some?
    ensures RefreshAccessCookie(now, minutes).Ok? ==>
              RefreshAccessCookie(now, minutes).value == DateOf(AccessExpiry(now, minutes)).value
  {
    if minutes.Some? {
      LoginCookieMinutes(now, minutes.value);
    }
  }

  /** The login cookie for a setting of `n` minutes is valid exactly when
      `now` plus that many minutes is in range, and then expires then. */
  lemma LoginCookieMinutes(now: int, n: int)
    ensures DateOf(AccessExpiry(now, Some(n))).Some? <==> -MaxTime <= now + n * 60000 <= MaxTime
    ensures -MaxTime <= now + n * 60000 <= MaxTime ==> DateOf(AccessExpiry(now, Some(n))).value == now + n * 60000
  {
    var t := now + n * 60000;
    AccessMinutes(now, n);
    if -MaxTime <= t <= MaxTime {
      DateOfWhole(t);
    }
  }

  /** A non-numeric access setting makes the refresh handler's cookie call
      throw too. */
  lemma NonNumericRefreshFails(now: int, setting: string)
    requires setting != "" && ParseInt(setting).None?
    ensures RefreshAccessCookie(now, CookieSetting(Some(setting))) == Fail(InvalidExpires)
  {
    assert CookieSetting(Some(setting)) == ParseInt(setting);
  }

  /** A whole number of milliseconds within range is a valid date of that time. */
  lemma DateOfWhole(k: int)
    requires -MaxTime <= k <= MaxTime
    ensures DateOf(Some(k as real)) == Some(k)
  {
    if k < 0 {
      assert -(k as real) == (-k) as real;
    }
  }

  /** Settings written as the numerals of `minutes` and `days` give cookies
      that expire that many minutes and days after `now`, while those times
      stay within what a `Date` holds. */
  lemma NumeralSettingsExpire(now: nat, minutes: nat, days: nat)
    requires now + minutes * 60000 <= MaxTime && now + days * DayMs <= MaxTime
    ensures SetAuthCookies(now, Some(ShowNat(minutes)), Some(ShowNat(days)))
            == Ok((now + minutes * 60000, now + days * DayMs))
  {
    assert days * DayMs >= 0 by { assert DayMs == 86400000; }
    SettingsShown(now, minutes, days);
    CookiesForNumbers(now, minutes, days);
  }

  lemma SettingsShown(now: int, minutes: nat, days: nat)
    ensures SetAuthCookies(now, Some(ShowNat(minutes)), Some(ShowNat(days)))
            == CookiesFor(now, Some(minutes), Some(days))
  {
    ParseIntShow(minutes);
    ParseIntShow(days);
  }

  /** Numeric settings within range give the expiry times exactly. */
  lemma CookiesForNumbers(now: int, m: int, d: int)
    requires -MaxTime <= now + m * 60000 <= MaxTime && -MaxTime <= now + d * DayMs <= MaxTime
    ensures CookiesFor(now, Some(m), Some(d)) == Ok((now + m * 60000, now + d * DayMs))
  {
    AccessMinutes(now, m);
    DateOfWhole(now + m * 60000);
    RefreshDays(now, d);
    DateOfWhole(now + d * DayMs);
  }

  lemma AccessMinutes(now: int, n: int)
    ensures AccessExpiry(now, Some(n)) == Some((now + n * 60000) as real)
  {
    AccessCookieLifetime(now, Some(n));
  }

  lemma RefreshDays(now: int, n: int)
    ensures RefreshExpiry(now, Some(n)) == Some((now + n * DayMs) as real)
  {
    RefreshCookieLifetime(now, Some(n));
  }

  // ---------------------------------------------------------------------------
  // Password-reset token

  datatype ResetToken = ResetToken(plain: string, hashed: string, expiresAt: int)

  const ResetWindow: int := 10 * 60 * 1000

  /** `createPasswordResetToken`: six random bytes in lower-case hex, their
      SHA-256 digest, and an expiry ten minutes after `now`. */
  function CreatePasswordResetToken(random: seq<byte>, sha256: string -> string, now: int): (r: ResetToken)
    requires |random| == 6
    ensures |r.plain| == 12 && forall i :: 0 <= i < |r.plain| ==> r.plain[i] in HexDigits
    ensures r.hashed == sha256(r.plain) && Unhex(r.plain) == random
    ensures r.expiresAt == now + 600000
  {
    HexToken(random);
    ResetToken(Hex(random), sha256(Hex(random)), now + ResetWindow)
  }

  /** Six bytes in hex: twelve hex digits that decode to the bytes. */
  lemma HexToken(random: seq<byte>)
    requires |random| == 6
    ensures |Hex(random)| == 12 && forall i :: 0 <= i < |Hex(random)| ==> Hex(random)[i] in HexDigits
    ensures Unhex(Hex(random)) == random
  {
    HexIsDigits(random);
    UnhexHex(random);
  }
}

=== FILE: upload.dfy ===
/** The upload middleware: a disk storage that keeps each file's original
    name, and a filter that admits only images and videos. */
module Upload {
  import opened Base
  import opened Text

  /** An uploaded file, reduced to what the storage and the filter read. */
  datatype UploadedFile = UploadedFile(originalname: string, mimetype: string)

  /** A file as the storage writes it to disk. */
  datatype StoredFile = StoredFile(filename: string, mimetype: string)

  const OnlyImages: Thrown := AppError(400, "Please upload only images")

  /** The filter's verdict: a MIME type starting with "image" or "video" is
      admitted, anything else is refused with a 400 application error. */
  function FileFilter(mimetype: string): (r: Result<bool>)
    ensures r.Ok? <==> StartsWith(mimetype, "image") || StartsWith(mimetype, "video")
    ensures r.Ok? ==> r.value
    ensures r.Fail? ==> r.error == OnlyImages
  {
    if StartsWith(mimetype, "image") || StartsWith(mimetype, "video") then Ok(true)
    else Fail(OnlyImages)
  }

  /** The storage names the file on disk after its original name. */
  function SaveToDisk(file: UploadedFile): (r: StoredFile)
    ensures r.filename == file.originalname && r.mimetype == file.mimetype
  {
    StoredFile(file.originalname, file.mimetype)
  }

  /** A request's files pass through the filter in order; the first refused
      file ends the upload with the filter's error, otherwise every file is
      stored. */
  function UploadAll(files: seq<UploadedFile>): (r: Result<seq<StoredFile>>)
    decreases |files|
  {
    if |files| == 0 then Ok([])
    else
      match FileFilter(files[0].mimetype)
      case Fail(e) => Fail(e)
      case Ok(_) =>
        match UploadAll(files[1..])
        case Fail(e) => Fail(e)
        case Ok(rest) => Ok([SaveToDisk(files[0])] + rest)
  }

  predicate Admitted(file: UploadedFile)
  {
    FileFilter(file.mimetype).Ok?
  }

  /** The upload succeeds exactly when every file is an image or a video; it
      then stores every file, in order, under its original name; otherwise
      it fails with the filter's error. */
  lemma {:induction false} UploadAllStoresAdmitted(files: seq<UploadedFile>)
    ensures UploadAll(files).Ok? <==> forall i :: 0 <= i < |files| ==> Admitted(files[i])
    ensures UploadAll(files).Fail? ==> UploadAll(files).error == OnlyImages
    ensures UploadAll(files).Ok? ==>
              |UploadAll(files).value| == |files|
              && forall i :: 0 <= i < |files| ==> UploadAll(files).value[i] == SaveToDisk(files[i])
    decreases |files|
  {
    if |files| > 0 {
      var tail := files[1..];
      UploadAllStoresAdmitted(tail);
      assert forall i :: 0 < i < |files| ==> files[i] == tail[i - 1];
      if UploadAll(files).Ok? {
        var r := UploadAll(files).value;
        assert r == [SaveToDisk(files[0])] + UploadAll(tail).value;
        forall i | 0 <= i < |files| ensures r[i] == SaveToDisk(files[i]) {
          if i > 0 { assert r[i] == UploadAll(tail).value[i - 1]; }
        }
      } else if Admitted(files[0]) {
        assert !UploadAll(tail).Ok?;
        var j :| 0 <= j < |tail| && !Admitted(tail[j]);
        assert files[j + 1] == tail[j];
      }
    }
  }

  /** Uploading two batches together succeeds exactly when each succeeds on
      its own, and stores the two batches one after the other. */
  lemma {:induction false} UploadAllAppend(a: seq<UploadedFile>, b: seq<UploadedFile>)
    ensures UploadAll(a + b).Ok? <==> UploadAll(a).Ok? && UploadAll(b).Ok?
    ensures UploadAll(a + b).Ok? ==> UploadAll(a + b).value == UploadAll(a).value + UploadAll(b).value
    decreases |a|
  {
    if |a| == 0 {
      assert a + b == b;
    } else {
      assert (a + b)[0] == a[0];
      assert (a + b)[1..] == a[1..] + b;
      UploadAllAppend(a[1..], b);
    }
  }

  /** The MIME top-level type of a media type as RFC 6838 section 4.2
      writes it: the part before the first "/". */
  function TopLevelType(mimetype: string): (t: string)
    ensures '/' !in t
  {
    Split(mimetype, '/')[0]
  }

  /** Every media type whose top-level type is "image" or "video" is
      admitted. */
  lemma FilterAdmitsImageAndVideoTypes(top: string, subtype: string)
    requires top == "image" || top == "video"
    ensures FileFilter(top + "/" + subtype).Ok?
  {
    var m := top + "/" + subtype;
    assert m[..|top|] == top;
  }

  /** The filter compares a prefix, not the top-level type: a type such as
      "imagery/x" is admitted although its top-level type is neither
      "image" nor "video". */
  lemma FilterAdmitsOtherTopLevelTypes(subtype: string)
    ensures FileFilter("imagery/" + subtype).Ok?
    ensures TopLevelType("imagery/" + subtype) == "imagery"
  {
    var m := "imagery/" + subtype;
    assert m[..5] == "image";
    assert m == "imagery" + "/" + subtype;
    TopLevelOf("imagery", subtype);
  }

  lemma TopLevelOf(top: string, subtype: string)
    requires '/' !in top
    ensures TopLevelType(top + "/" + subtype) == top
  {
    SplitPrefix(top, subtype, '/');
  }

  /** Splitting `p + [sep] + rest` begins with `p` when `p` holds no `sep`. */
  lemma {:induction false} SplitPrefix(p: string, rest: string, sep: char)
    requires sep !in p
    ensures Split(p + [sep] + rest, sep)[0] == p
    decreases |p|
  {
    var m := p + [sep] + rest;
    if |p| == 0 {
      assert m[0] == sep;
      assert m == [sep] + rest;
    } else {
      assert m[0] == p[0];
      assert m[1..] == p[1..] + [sep] + rest;
      SplitPrefix(p[1..], rest, sep);
    }
  }
}

=== FILE: validators.dfy ===
/** The request schemas, as zod evaluates them: every field of the object is
    checked in declaration order, every failing check of a field adds one
    issue keyed by the field name, and `parse` either returns the typed data
    or throws a `ZodError` carrying all the issues. String lengths are
    counted as JavaScript counts them, in UTF-16 code units. The email and
    URL regular expressions are parameters. */
module Validators {
  import opened Base
  import opened Text
  import opened Store

  /** The string formats zod recognises with regular expressions. */
  datatype Formats = Formats(isEmail: string -> bool, isUrl: string -> bool)

  /** One refinement of `z.string()`, with the message of its issue. */
  datatype Check = MinLength(min: nat, message: string) | MaxLength(max: nat, message: string) | Email | Url

  /** zod's name for the type of a value it did not expect. */
  function TypeName(v: Value): string
  {
    match v
    case Num(_) => "number"
    case NaN => "nan"
    case Str(_) => "string"
    case Bool(_) => "boolean"
    case Null => "null"
    case Date(_) => "date"
  }

  /** The default messages of `.min(n)` and `.max(n)` on a string. */
  function AtLeast(n: nat): string { "String must contain at least " + ShowNat(n) + " character(s)" }
  function AtMost(n: nat): string { "String must contain at most " + ShowNat(n) + " character(s)" }

  predicate Passes(c: Check, t: string, f: Formats)
  {
    match c
    case MinLength(n, _) => Utf16Length(t) >= n
    case MaxLength(n, _) => Utf16Length(t) <= n
    case Email => f.isEmail(t)
    case Url => f.isUrl(t)
  }

  function CheckMessage(c: Check): string
  {
    match c
    case MinLength(_, m) => m
    case MaxLength(_, m) => m
    case Email => "Invalid email"
    case Url => "Invalid url"
  }

  /** The key of every issue, as the error handler reads `path[0]`. */
  function Keys(issues: seq<Issue>): (r: set<string>)
    ensures |issues| > 0 ==> issues[0].key in r
    ensures |issues| == 0 ==> r == {}
  {
    set i | 0 <= i < |issues| :: issues[i].key
  }

  predicate AllKeyed(issues: seq<Issue>, key: string)
  {
    forall i :: 0 <= i < |issues| ==> issues[i].key == key
  }

  lemma KeysAppend(a: seq<Issue>, b: seq<Issue>)
    ensures Keys(a + b) == Keys(a) + Keys(b)
  {
    forall k | k in Keys(a + b) ensures k in Keys(a) + Keys(b) {
      var i :| 0 <= i < |a + b| && (a + b)[i].key == k;
      if i >= |a| { assert b[i - |a|].key == k; }
    }
    forall k | k in Keys(a) + Keys(b) ensures k in Keys(a + b) {
      if k in Keys(a) {
        var i :| 0 <= i < |a| && a[i].key == k;
        assert (a + b)[i].key == k;
      } else {
        var i :| 0 <= i < |b| && b[i].key == k;
        assert (a + b)[|a| + i].key == k;
      }
    }
  }

  /** A field's issues, all under one key, are empty exactly when it is valid. */
  lemma KeysOfField(issues: seq<Issue>, key: string, valid: bool)
    requires AllKeyed(issues, key) && (|issues| == 0 <==> valid)
    ensures Keys(issues) == if valid then {} else {key}
  {
    if !valid { assert issues[0].key == key; }
  }

  /** The checks of a string field, one issue per failing check, in order. */
  function RunChecks(key: string, t: string, checks: seq<Check>, f: Formats): (r: seq<Issue>)
    ensures AllKeyed(r, key)
    ensures |r| == 0 <==> forall i :: 0 <= i < |checks| ==> Passes(checks[i], t, f)
  {
    if |checks| == 0 then []
    else
      var rest := RunChecks(key, t, checks[1..], f);
      assert forall i :: 1 <= i < |checks| ==> checks[i] == checks[1..][i - 1];
      (if Passes(checks[0], t, f) then [] else [Issue(key, CheckMessage(checks[0]))]) + rest
  }

  predicate AllPass(t: string, checks: seq<Check>, f: Formats)
  {
    forall i :: 0 <= i < |checks| ==> Passes(checks[i], t, f)
  }

  /** `z.string()` followed by `checks`. */
  function StringField(key: string, v: Option<Value>, checks: seq<Check>, f: Formats): (r: seq<Issue>)
    ensures Keys(r) == if v.Some? && v.value.Str? && AllPass(v.value.text, checks, f) then {} else {key}
  {
    var r := match v
      case None => [Issue(key, "Required")]
      case Some(Str(t)) => RunChecks(key, t, checks, f)
      case Some(other) => [Issue(key, "Expected string, received " + TypeName(other))];
    KeysOfField(r, key, v.Some? && v.value.Str? && AllPass(v.value.text, checks, f));
    r
  }

  /** `z.string()...optional()`: an absent value passes. */
  function OptionalStringField(key: string, v: Option<string>, checks: seq<Check>, f: Formats): (r: seq<Issue>)
    ensures Keys(r) == if v.None? || AllPass(v.value, checks, f) then {} else {key}
  {
    var r := if v.None? then [] else RunChecks(key, v.value, checks, f);
    KeysOfField(r, key, v.None? || AllPass(v.value, checks, f));
    r
  }

  /** `z.number()`: a number other than NaN. */
  function NumberField(key: string, v: Option<Value>): (r: seq<Issue>)
    ensures Keys(r) == if v.Some? && v.value.Num? then {} else {key}
  {
    var r := match v
      case None => [Issue(key, "Required")]
      case Some(Num(_)) => []
      case Some(other) => [Issue(key, "Expected number, received " + TypeName(other))];
    KeysOfField(r, key, v.Some? && v.value.Num?);
    r
  }

  /** `z.date()`: a `Date` object holding a valid time. */
  function DateField(key: string, v: Option<Value>): (r: seq<Issue>)
    ensures Keys(r) == if v.Some? && v.value.Date? && v.value.time.Some? then {} else {key}
  {
    var r := match v
      case None => [Issue(key, "Required")]
      case Some(Date(None)) => [Issue(key, "Invalid date")]
      case Some(Date(Some(_))) => []
      case Some(other) => [Issue(key, "Expected date, received " + TypeName(other))];
    KeysOfField(r, key, v.Some? && v.value.Date? && v.value.time.Some?);
    r
  }

  /** The privacy enum's spelling on the wire. */
  function PrivacyName(p: Privacy): string
  {
    match p
    case Public => "PUBLIC"
    case Private => "PRIVATE"
    case Friends => "FRIENDS"
  }

  function PrivacyOf(t: string): Option<Privacy>
  {
    if t == "PUBLIC" then Some(Public)
    else if t == "PRIVATE" then Some(Private)
    else if t == "FRIENDS" then Some(Friends)
    else None
  }

  lemma PrivacyNameRoundTrip(p: Privacy)
    ensures PrivacyOf(PrivacyName(p)) == Some(p)
  {
  }

  const PrivacyOptions: string := "'PUBLIC' | 'PRIVATE' | 'FRIENDS'"

  /** The privacy an enum field yields, when it yields one: the named member,
      or the default for an absent field. */
  function EnumValue(v: Option<Value>, default: Option<Privacy>): Option<Privacy>
  {
    match v
    case None => default
    case Some(Str(t)) => PrivacyOf(t)
    case Some(_) => None
  }

  /** `z.enum(["PUBLIC", "PRIVATE", "FRIENDS"])`, with `.default(d)` when
      `default` is given. */
  function EnumField(key: string, v: Option<Value>, default: Option<Privacy>): (r: seq<Issue>)
    ensures Keys(r) == if EnumValue(v, default).Some? then {} else {key}
  {
    var r := match v
      case None => if default.Some? then [] else [Issue(key, "Required")]
      case Some(Str(t)) =>
        if PrivacyOf(t).Some? then []
        else [Issue(key, "Invalid enum value. Expected " + PrivacyOptions + ", received '" + t + "'")]
      case Some(other) => [Issue(key, "Expected " + PrivacyOptions + ", received " + TypeName(other))];
    KeysOfField(r, key, EnumValue(v, default).Some?);
    r
  }

  /** The key of a field, when the field failed. */
  function Flag(key: string, ok: bool): set<string>
  {
    if ok then {} else {key}
  }

  lemma TwoChecks(t: string, c: Check, d: Check, f: Formats)
    ensures AllPass(t, [c, d], f) <==> Passes(c, t, f) && Passes(d, t, f)
  {
    assert [c, d][0] == c && [c, d][1] == d;
    if Passes(c, t, f) && Passes(d, t, f) {
      forall i | 0 <= i < 2 ensures Passes([c, d][i], t, f) {}
    }
  }

  lemma OneCheck(t: string, c: Check, f: Formats)
    ensures AllPass(t, [c], f) <==> Passes(c, t, f)
  {
    assert [c][0] == c;
    if Passes(c, t, f) {
      forall i | 0 <= i < 1 ensures Passes([c][i], t, f) {}
    }
  }

  // ---------------------------------------------------------------------------
  // The schemas.

  predicate TextBetween(v: Option<Value>, lo: nat, hi: nat)
  {
    v.Some? && v.value.Str? && lo <= Utf16Length(v.value.text) <= hi
  }

  /** The 255-unit content limit admits 255 characters of the Basic
      Multilingual Plane but only 127 characters outside it (emoji, say). */
  lemma ContentLimitInUnits(t: string)
    ensures (forall i :: 0 <= i < |t| ==> t[i] as int < 0x1_0000) ==>
              (TextBetween(Some(Str(t)), 1, 255) <==> 1 <= |t| <= 255)
    ensures (forall i :: 0 <= i < |t| ==> t[i] as int >= 0x1_0000) ==>
              (TextBetween(Some(Str(t)), 1, 255) <==> 1 <= |t| <= 127)
  {
    if forall i :: 0 <= i < |t| ==> t[i] as int < 0x1_0000 {
      Utf16LengthOfBmp(t);
    }
    if forall i :: 0 <= i < |t| ==> t[i] as int >= 0x1_0000 {
      Utf16LengthOfAstral(t);
    }
  }

  predicate TextAtLeast(v: Option<Value>, lo: nat)
  {
    v.Some? && v.value.Str? && lo <= Utf16Length(v.value.text)
  }

  predicate IsNumber(v: Option<Value>)
  {
    v.Some? && v.value.Num?
  }

  predicate IsDate(v: Option<Value>)
  {
    v.Some? && v.value.Date? && v.value.time.Some?
  }

  predicate EmailText(v: Option<Value>, f: Formats)
  {
    v.Some? && v.value.Str? && f.isEmail(v.value.text)
  }

  predicate UrlOrAbsent(v: Option<string>, f: Formats)
  {
    v.None? || f.isUrl(v.value)
  }

  /** The text of a string value, or "" for anything else. */
  function TextOr(v: Option<Value>): string
  {
    if v.Some? && v.value.Str? then v.value.text else ""
  }

  /** A string field limited to `lo..hi` characters, with the messages of
      `.min(lo)` and of `.max(hi, maxMessage)`. */
  function LengthField(key: string, v: Option<Value>, lo: nat, hi: nat, maxMessage: string, f: Formats): (r: seq<Issue>)
    ensures Keys(r) == Flag(key, TextBetween(v, lo, hi))
  {
    TwoChecks(TextOr(v), MinLength(lo, AtLeast(lo)), MaxLength(hi, maxMessage), f);
    StringField(key, v, [MinLength(lo, AtLeast(lo)), MaxLength(hi, maxMessage)], f)
  }

  /** `z.string().min(lo)` with no upper bound. */
  function MinLengthField(key: string, v: Option<Value>, lo: nat, f: Formats): (r: seq<Issue>)
    ensures Keys(r) == Flag(key, TextAtLeast(v, lo))
  {
    OneCheck(TextOr(v), MinLength(lo, AtLeast(lo)), f);
    StringField(key, v, [MinLength(lo, AtLeast(lo))], f)
  }

  /** `z.string().email()`. */
  function EmailField(key: string, v: Option<Value>, f: Formats): (r: seq<Issue>)
    ensures Keys(r) == Flag(key, EmailText(v, f))
  {
    OneCheck(TextOr(v), Email, f);
    StringField(key, v, [Email], f)
  }

  /** `z.string().url().optional()`. */
  function UrlField(key: string, v: Option<string>, f: Formats): (r: seq<Issue>)
    ensures Keys(r) == Flag(key, UrlOrAbsent(v, f))
  {
    OneCheck(if v.Some? then v.value else "", Url, f);
    OptionalStringField(key, v, [Url], f)
  }

  const MaxContent: string := "Must be 255 characters or less"

  /** What `commentSchema` receives. */
  datatype CommentInput = CommentInput(
    content: Option<Value>, postId: Option<Value>, authorId: Option<Value>, image: Option<string>, video: Option<string>)

  datatype CommentData = CommentData(content: string, postId: int, authorId: int, image: Option<string>, video: Option<string>)

  function CommentIssues(i: CommentInput, f: Formats): (r: seq<Issue>)
    ensures Keys(r) == Flag("content", TextBetween(i.content, 1, 255)) + Flag("postId", IsNumber(i.postId))
                       + Flag("authorId", IsNumber(i.authorId))
  {
    var a := LengthField("content", i.content, 1, 255, MaxContent, f);
    var b := NumberField("postId", i.postId);
    var c := NumberField("authorId", i.authorId);
    KeysAppend(a, b);
    KeysAppend(a + b, c);
    a + b + c
  }

  /** `commentSchema.parse`. */
  function ParseComment(i: CommentInput, f: Formats): (r: Result<CommentData>)
    ensures r.Ok? <==> TextBetween(i.content, 1, 255) && IsNumber(i.postId) && IsNumber(i.authorId)
    ensures r.Ok? ==> r.value == CommentData(i.content.value.text, i.postId.value.n, i.authorId.value.n, i.image, i.video)
    ensures r.Fail? ==> r.error.ZodError? && Keys(r.error.issues) == Flag("content", TextBetween(i.content, 1, 255))
                        + Flag("postId", IsNumber(i.postId)) + Flag("authorId", IsNumber(i.authorId))
  {
    var issues := CommentIssues(i, f);
    if |issues| == 0 then Ok(CommentData(i.content.value.text, i.postId.value.n, i.authorId.value.n, i.image, i.video))
    else Fail(ZodError(issues))
  }

  /** What `messageSchema` receives; the upload lists are always strings. */
  datatype MessageInput = MessageInput(
    content: Option<Value>, conversationId: Option<Value>, images: Option<seq<string>>, videos: Option<seq<string>>)

  datatype MessageData = MessageData(content: string, conversationId: int, images: Option<seq<string>>, videos: Option<seq<string>>)

  /** `messageSchema.parse`. */
  function ParseMessage(i: MessageInput, f: Formats): (r: Result<MessageData>)
    ensures r.Ok? <==> TextBetween(i.content, 1, 255) && IsNumber(i.conversationId)
    ensures r.Ok? ==> r.value == MessageData(i.content.value.text, i.conversationId.value.n, i.images, i.videos)
    ensures r.Fail? ==> r.error.ZodError? && Keys(r.error.issues) == Flag("content", TextBetween(i.content, 1, 255))
                        + Flag("conversationId", IsNumber(i.conversationId))
  {
    var a := LengthField("content", i.content, 1, 255, MaxContent, f);
    var b := NumberField("conversationId", i.conversationId);
    KeysAppend(a, b);
    if |a + b| == 0 then Ok(MessageData(i.content.value.text, i.conversationId.value.n, i.images, i.videos))
    else Fail(ZodError(a + b))
  }

  /** What `postSchema` receives. */
  datatype PostInput = PostInput(
    content: Option<Value>, privacy: Option<Value>, authorId: Option<Value>, images: Option<seq<string>>, videos: Option<seq<string>>)

  datatype PostData = PostData(content: string, privacy: Privacy, authorId: int, images: Option<seq<string>>, videos: Option<seq<string>>)

  function PostIssues(i: PostInput, f: Formats): (r: seq<Issue>)
    ensures Keys(r) == Flag("content", TextBetween(i.content, 1, 255)) + Flag("privacy", EnumValue(i.privacy, Some(Public)).Some?)
                       + Flag("authorId", IsNumber(i.authorId))
  {
    var a := LengthField("content", i.content, 1, 255, MaxContent, f);
    var b := EnumField("privacy", i.privacy, Some(Public));
    var c := NumberField("authorId", i.authorId);
    KeysAppend(a, b);
    KeysAppend(a + b, c);
    a + b + c
  }

  /** `postSchema.parse`: privacy defaults to PUBLIC. */
  function ParsePost(i: PostInput, f: Formats): (r: Result<PostData>)
    ensures r.Ok? <==> TextBetween(i.content, 1, 255) && EnumValue(i.privacy, Some(Public)).Some? && IsNumber(i.authorId)
    ensures r.Ok? ==> r.value == PostData(i.content.value.text, EnumValue(i.privacy, Some(Public)).value,
                                          i.authorId.value.n, i.images, i.videos)
    ensures r.Ok? && i.privacy.None? ==> r.value.privacy == Public
    ensures r.Fail? ==> r.error.ZodError? && Keys(r.error.issues) == Flag("content", TextBetween(i.content, 1, 255))
                        + Flag("privacy", EnumValue(i.privacy, Some(Public)).Some?) + Flag("authorId", IsNumber(i.authorId))
  {
    var issues := PostIssues(i, f);
    if |issues| == 0 then
      Ok(PostData(i.content.value.text, EnumValue(i.privacy, Some(Public)).value, i.authorId.value.n, i.images, i.videos))
    else Fail(ZodError(issues))
  }

  /** What `storyValidator` receives. */
  datatype StoryInput = StoryInput(
    authorId: Option<Value>, content: Option<Value>, privacy: Option<Value>, expiryTime: Option<Value>,
    image: Option<string>, video: Option<string>)

  datatype StoryData = StoryData(authorId: int, content: string, privacy: Privacy, expiryTime: int,
                                 image: Option<string>, video: Option<string>)

  /** The fields before the media URLs. */
  function StoryHeadIssues(i: StoryInput, f: Formats): (r: seq<Issue>)
    ensures Keys(r) == Flag("authorId", IsNumber(i.authorId)) + Flag("content", TextAtLeast(i.content, 3))
                       + Flag("privacy", EnumValue(i.privacy, None).Some?) + Flag("expiryTime", IsDate(i.expiryTime))
  {
    var a := NumberField("authorId", i.authorId);
    var b := MinLengthField("content", i.content, 3, f);
    var c := EnumField("privacy", i.privacy, None);
    var d := DateField("expiryTime", i.expiryTime);
    KeysAppend(a, b);
    KeysAppend(a + b, c);
    KeysAppend(a + b + c, d);
    a + b + c + d
  }

  function StoryIssues(i: StoryInput, f: Formats): (r: seq<Issue>)
    ensures Keys(r) == Flag("authorId", IsNumber(i.authorId)) + Flag("content", TextAtLeast(i.content, 3))
                       + Flag("privacy", EnumValue(i.privacy, None).Some?) + Flag("expiryTime", IsDate(i.expiryTime))
                       + Flag("image", UrlOrAbsent(i.image, f)) + Flag("video", UrlOrAbsent(i.video, f))
  {
    var a := StoryHeadIssues(i, f);
    var e := UrlField("image", i.image, f);
    var g := UrlField("video", i.video, f);
    KeysAppend(a, e);
    KeysAppend(a + e, g);
    a + e + g
  }

  /** `storyValidator.parse`: content of at least 3 characters and no upper
      bound, a required privacy, optional image and video URLs. */
  function ParseStory(i: StoryInput, f: Formats): (r: Result<StoryData>)
    ensures r.Ok? <==> IsNumber(i.authorId) && TextAtLeast(i.content, 3) && EnumValue(i.privacy, None).Some?
                       && IsDate(i.expiryTime) && UrlOrAbsent(i.image, f) && UrlOrAbsent(i.video, f)
    ensures r.Ok? ==> r.value == StoryData(i.authorId.value.n, i.content.value.text, EnumValue(i.privacy, None).value,
                                           i.expiryTime.value.time.value, i.image, i.video)
    ensures r.Fail? ==> r.error.ZodError? && Keys(r.error.issues) == Flag("authorId", IsNumber(i.authorId))
                        + Flag("content", TextAtLeast(i.content, 3)) + Flag("privacy", EnumValue(i.privacy, None).Some?)
                        + Flag("expiryTime", IsDate(i.expiryTime)) + Flag("image", UrlOrAbsent(i.image, f))
                        + Flag("video", UrlOrAbsent(i.video, f))
  {
    var issues := StoryIssues(i, f);
    if |issues| == 0 then
      Ok(StoryData(i.authorId.value.n, i.content.value.text, EnumValue(i.privacy, None).value,
                   i.expiryTime.value.time.value, i.image, i.video))
    else Fail(ZodError(issues))
  }

  /** What `signUpSchema` receives: the body, with `birthDate` already passed
      through `new Date(...)`. */
  datatype SignUpInput = SignUpInput(
    username: Option<Value>, email: Option<Value>, password: Option<Value>, birthDate: Option<Value>, fullName: Option<Value>)

  datatype SignUpData = SignUpData(username: string, email: string, password: string, birthDate: int, fullName: string)

  function SignUpIssues(i: SignUpInput, f: Formats): (r: seq<Issue>)
    ensures Keys(r) == Flag("username", TextBetween(i.username, 3, 20)) + Flag("email", EmailText(i.email, f))
                       + Flag("password", TextBetween(i.password, 8, 20)) + Flag("birthDate", IsDate(i.birthDate))
                       + Flag("fullName", TextBetween(i.fullName, 3, 50))
  {
    var a := LengthField("username", i.username, 3, 20, AtMost(20), f);
    var b := EmailField("email", i.email, f);
    var c := LengthField("password", i.password, 8, 20, AtMost(20), f);
    var d := DateField("birthDate", i.birthDate);
    var e := LengthField("fullName", i.fullName, 3, 50, AtMost(50), f);
    KeysAppend(a, b);
    KeysAppend(a + b, c);
    KeysAppend(a + b + c, d);
    KeysAppend(a + b + c + d, e);
    a + b + c + d + e
  }

  /** `signUpSchema.parse`. */
  function ParseSignUp(i: SignUpInput, f: Formats): (r: Result<SignUpData>)
    ensures r.Ok? <==> TextBetween(i.username, 3, 20) && EmailText(i.email, f) && TextBetween(i.password, 8, 20)
                       && IsDate(i.birthDate) && TextBetween(i.fullName, 3, 50)
    ensures r.Ok? ==> r.value == SignUpData(i.username.value.text, i.email.value.text, i.password.value.text,
                                            i.birthDate.value.time.value, i.fullName.value.text)
    ensures r.Fail? ==> r.error.ZodError? && Keys(r.error.issues) == Flag("username", TextBetween(i.username, 3, 20))
                        + Flag("email", EmailText(i.email, f)) + Flag("password", TextBetween(i.password, 8, 20))
                        + Flag("birthDate", IsDate(i.birthDate)) + Flag("fullName", TextBetween(i.fullName, 3, 50))
  {
    var issues := SignUpIssues(i, f);
    if |issues| == 0 then
      Ok(SignUpData(i.username.value.text, i.email.value.text, i.password.value.text,
                    i.birthDate.value.time.value, i.fullName.value.text))
    else Fail(ZodError(issues))
  }

  datatype LoginInput = LoginInput(email: Option<Value>, password: Option<Value>)

  datatype LoginData = LoginData(email: string, password: string)

  /** `loginSchema.parse`: the same email and password rules as sign-up. */
  function ParseLogin(i: LoginInput, f: Formats): (r: Result<LoginData>)
    ensures r.Ok? <==> EmailText(i.email, f) && TextBetween(i.password, 8, 20)
    ensures r.Ok? ==> r.value == LoginData(i.email.value.text, i.password.value.text)
    ensures r.Fail? ==> r.error.ZodError? && Keys(r.error.issues) == Flag("email", EmailText(i.email, f))
                        + Flag("password", TextBetween(i.password, 8, 20))
  {
    var a := EmailField("email", i.email, f);
    var b := LengthField("password", i.password, 8, 20, AtMost(20), f);
    KeysAppend(a, b);
    if |a + b| == 0 then Ok(LoginData(i.email.value.text, i.password.value.text))
    else Fail(ZodError(a + b))
  }
}
